=== FILE: README.md ===
# Hjson codec core, modelled in Dafny

This project models the core of hjson-cpp, a C++ reader and writer for
Hjson. Hjson is JSON for humans: keys and strings may go without quotes,
commas are optional, comments are allowed, and strings may span several
lines between triple single quotes. The model has four parts.

- **Number lexer** (`NumberLexer`). This is `tryParseNumber` and
  `startsWithNumber`. The scanner is a method that walks the text with the
  C++ `_next` and keeps its leading-zero counter. It is proved to agree
  with a functional definition (`ParseNumber`). That definition in turn is
  proved to agree with a reference grammar on the parts of a literal.
- **Decoder** (`Decoder`). The recursive-descent reader, written as total
  functions from the input bytes and a cursor `Parser(at, ch)` to a result
  and a new cursor. The cursor copies the C++ `Parser`: `ch` is the byte
  read last, and 0 doubles as NUL and end of input. A reader that succeeds
  never moves the cursor back, and moves it forward whenever it did not
  start at the end of the input. The as-written quoteless reader is the
  exception (see "Findings"). The container loops terminate because of
  this. Every reader also keeps the cursor synced: `ch` is the byte just
  before `at`, or NUL at the end.
- **Encoder** (`Encoder`). `_str` and its helpers. The five `std::regex`
  patterns become byte predicates.
- **Value tree** (`Values`, `CloneMerge`, `KeyOrder`). A `Value` is a
  payload with three comment texts. The `MapProxy` of the C++ becomes an
  explicit probe, assign and commit. Map iteration follows `KeyOrder`, the
  unsigned byte-wise order `std::map<std::string>` uses.
  `Merge` is modelled as written. `MergeDocumented` is the merge as its
  documentation describes it, and the two differ only where `ext` holds an
  empty container.

The properties live next to the definitions and in four further modules:
- `DecoderFacts`: error cases and invariants of the readers.
- `EncoderFacts`: the quoting decision, number text and container layout.
- `RoundTrip`: escaped strings and key names read back as written.
- `MultilineRoundTrip`: the triple-quoted form reads back as written.

Four places where the code does not do what it evidently means are listed
under "Findings". Each has an as-written definition with a concrete input
that exhibits the problem, and a corrected definition with the property
proved. The decoder (`Decoder.ReadValue`, `Decoder.Unmarshal`) uses the
corrected quoteless reader, and `Encoder.MarshalWithOptions` and
`Encoder.Marshal` use the corrected one-line rule of `_mlString` and the
corrected `needsEscapeName`. `CloneMerge.Merge` is modelled as written, and
`CloneMerge.MergeDocumented` is the corrected merge. A boolean
`asWritten` parameter selects between the two where they share code.

Strings are `seq<byte>` (`Bytes`). A finite double is known only by the
decimal lexeme it was read from (`Dbl(Decimal(lexeme))`). Numbers are
compared by the exact decimal value of that lexeme. An integer that
fits in 64 bits is `Int(i)`.

## Model

| member | source | states |
|---|---|---|
| NumberLexer.Next | src/hjson_parsenumber.cpp:75-89 | `_next` reads the byte at `indexNext` while one is left. Past the end it yields 0, and `indexNext` stops at one past the text size. |
| NumberLexer.DigitsEnd | src/hjson_parsenumber.cpp:110-119 | The digit run ends at the first non-digit. Every byte before it is a digit. |
| NumberLexer.WhiteEnd | src/hjson_parsenumber.cpp:141-144 | The white-space skip stops at the first byte that is not in 1..32. Everything it passed is white. |
| NumberLexer.ShapeOf | src/hjson_parsenumber.cpp:104-139 | The greedy scan's part boundaries are ordered. A fraction covers at least its dot, and an exponent starts after its marker. |
| NumberLexer.ShapeOfGreedy | src/hjson_parsenumber.cpp:104-139 | The scan takes an optional minus and the longest digit run. It takes a fraction exactly when a dot follows, then the longest digit run after the dot. It takes an exponent exactly when `e` or `E` follows, then an optional sign and the longest digit run. Each run ends at a non-digit or at the end. |
| NumberLexer.EmptyFraction | src/hjson_parsenumber.cpp:125-128 | A dot without digits after it still makes a fraction: `1.` is the integer part `1`, the dot and no fraction digits. |
| NumberLexer.LeadingZeros | src/hjson_parsenumber.cpp:110-123 | Counts exactly the zeros before the first other byte. |
| NumberLexer.Int64Of | src/hjson_parsenumber.cpp:50-72 | An accepted integer lies in the int64 range. |
| NumberLexer.ScanIntPart | src/hjson_parsenumber.cpp:101-123 | The integer loop stops after the digit run. Its leading-zero counter is 0 exactly when the digits obey the rule that "0" is fine but "00" and "01" are not. |
| NumberLexer.ScanFraction | src/hjson_parsenumber.cpp:125-128 | After the dot, the loop stops at the end of the fraction digits. |
| NumberLexer.ScanExponent | src/hjson_parsenumber.cpp:129-137 | After `e`/`E` and an optional sign, the loop stops at the end of the exponent digits. |
| NumberLexer.ScanWhite | src/hjson_parsenumber.cpp:141-144 | The white space after the lexeme is skipped up to `WhiteEnd`. |
| NumberLexer.ScanLexeme | src/hjson_parsenumber.cpp:101-139 | The scanner ends on the first byte after the lexeme, and its counter encodes the leading-zero rule. |
| NumberLexer.TryParseNumber | src/hjson_parsenumber.cpp:93-174 | The loop-based scanner's answer equals `ParseNumber`, the functional statement of the rules. |
| NumberLexer.LeadingZerosRule | src/hjson_parsenumber.cpp:121-123 | The C++ counter, decremented when only zeros were seen, is 0 exactly when the integer part obeys the leading-zero rule. |
| NumberLexer.PartsOfCompose | src/hjson_parsenumber.cpp:104-139 | The scanner takes a composed literal apart into the parts it was built from. |
| NumberLexer.ConvertMatchesParts | src/hjson_parsenumber.cpp:161-173 | The lexeme is the composition of its parts. Its conversion (int64 if it fits, else a finite double, else failure) is the value the reference grammar gives the parts. |
| NumberLexer.ParseNumberByParts | src/hjson_parsenumber.cpp:146-173 | `tryParseNumber` accepts when the leading-zero rule holds and, after white space, comes the end, a 0 byte or, in stop mode, a punctuator or comment. It then yields the parts' value. |
| NumberLexer.ParseComposed | src/hjson_parsenumber.cpp:93-174 | Reading back: a well-formed literal followed by white space and a stop is accepted exactly when the leading-zero rule holds, with its reference value. |
| NumberLexer.RejectsLeadingZero | src/hjson_parsenumber.cpp:156-159 | Any literal whose integer part starts with 0 and has more digits is rejected. |
| NumberLexer.LeadingZeroRejected | src/hjson_parsenumber.cpp:101-123 | "00", "01", "-01" and "00.5" are rejected. |
| NumberLexer.SingleZeroAccepted | src/hjson_parsenumber.cpp:121-123 | "0" and "-0" are the integer 0, and "0.5" is a double. |
| NumberLexer.IntDigitRequired | src/hjson_parsenumber.cpp:110-123 | With no digit after the optional minus sign ("-", ".5", "-.5", "e3"), nothing is accepted in either mode. |
| NumberLexer.AcceptedIsLiteral | src/hjson_parsenumber.cpp:93-174 | Whatever is accepted is a well-formed literal that obeys the leading-zero rule, has its reference value, and is followed only by white space and then a stop. |
| NumberLexer.StopModeExtends | src/hjson_parsenumber.cpp:146-154 | A complete number is also accepted in stop mode, with the same value. So `startsWithNumber` holds of it. |
| NumberLexer.TrailingExamples | src/hjson_parsenumber.cpp:141-159 | "1.2.3" and "42 x" are rejected. "42 ," is rejected in full mode and read as 42 in stop mode. |
| NumberLexer.ParseNumber | src/hjson_parsenumber.cpp:101-123 | An accepted number starts with a digit, or with a minus sign and then a digit. |
| NumberLexer.StartsWithNumber | src/hjson_parsenumber.cpp:177-180 | A text that `startsWithNumber` accepts starts with a digit or a minus sign. |
| NumberLexer.TrailingZeroSameValue | src/hjson_parsenumber.cpp:125-128 | A 0 added to the fraction digits leaves the exact value of a literal unchanged. |
| Decoder.Next | src/hjson_decode.cpp:79-89 | `_next` reads the byte at the cursor if there is one. At the end it sets `ch` to 0 and leaves `at` where it is. |
| Decoder.Spool | src/hjson_decode.cpp:93-104 | `_spool` keeps the cursor inside the input. |
| Decoder.Escapee | src/hjson_decode.cpp:118-139 | An escape letter stands for a byte exactly when it is `"`, `'`, `\`, `/`, `b`, `f`, `n`, `r` or `t`. |
| Decoder.SkipComment | src/hjson_decode.cpp:371-411 | Skipping white space and comments ends on a line feed, or on a byte that is neither white nor a comment opener. |
| Decoder.SkipIndented | src/hjson_decode.cpp:415-424 | Skipping white space and comments over any number of lines ends on a byte that starts neither white space nor a comment. |
| Decoder.ToUtf8 | src/hjson_decode.cpp:214-232 | `_toUtf8` writes 1, 2, 3 or 4 bytes for code points below 0x80, 0x800, 0x10000 and 0x110000, and refuses larger ones. |
| Decoder.ReadHex | src/hjson_decode.cpp:256-271 | Four hex digits give a code point below 0x10000. |
| Decoder.ReadString | src/hjson_decode.cpp:238-286 | A quoted string that reads moves the cursor past its opening quote and keeps it synced. |
| Decoder.ReadMLString | src/hjson_decode.cpp:143-208 | A multiline string that reads moves the cursor forward and keeps it synced. |
| Decoder.ReadKeyname | src/hjson_decode.cpp:291-325 | A key that reads, quoted or bare, moves the cursor forward and keeps it synced. |
| Decoder.KeyLoop | src/hjson_decode.cpp:296-323 | A bare key name ends on the colon, which stays unread. |
| Decoder.Literal | src/hjson_decode.cpp:463-491 | A token taken as a literal is a bool, null or a number. |
| Decoder.ReadTfnnsWith | src/hjson_decode.cpp:445-501 | A quoteless value fails exactly when it starts with a punctuator. The corrected rewind always ends past the start, or at the end of the input. |
| Decoder.ReadTfnns | src/hjson_decode.cpp:445-501 | The corrected quoteless reader fails exactly on a punctuator, and otherwise moves the cursor forward. Its value is a keyword, a number or a string, never an object or an array. |
| Decoder.ReadTfnnsAsWritten | src/hjson_decode.cpp:445-501 | The as-written quoteless reader fails exactly on a punctuator. It keeps the cursor in the input, but need not move it. |
| Decoder.ReadBody | src/hjson_decode.cpp:590-598 | The reader chosen by the first byte keeps the cursor synced, and moves it forward unless it started at the end. |
| Decoder.ReadValue | src/hjson_decode.cpp:585-620 | `_readValue` moves the cursor forward on every input that does not start at the end, and keeps it synced. It reads numbers and keywords with the corrected quoteless reader (see "Findings"). |
| Decoder.ReadArray | src/hjson_decode.cpp:506-535 | `_readArray` gives a VECTOR and moves past the bracket. |
| Decoder.ReadElements | src/hjson_decode.cpp:523-535 | The element loop gives a VECTOR and moves the cursor forward. |
| Decoder.ReadObject | src/hjson_decode.cpp:539-580 | `_readObject` gives a MAP, with or without braces. |
| Decoder.ReadMember | src/hjson_decode.cpp:558-566 | A key, a colon and a value that read move the cursor forward. |
| Decoder.ReadMembers | src/hjson_decode.cpp:557-580 | The member loop gives a MAP, and moves the cursor forward unless it started at the end. |
| Decoder.Unmarshal | src/hjson_decode.cpp:631-675 | A root that starts with a brace, after white space and comments, is a MAP. One that starts with a bracket is a VECTOR. It uses the corrected quoteless reader, so it differs from the code on the root inputs listed in "Findings" for src/hjson_decode.cpp:486-490. |
| DecoderFacts.EscapeeInvertsMeta | src/hjson_decode.cpp:118-139 | `_escapee` reads each two-byte escape `_meta` writes back as the byte it was written for. |
| DecoderFacts.MetaInvertsEscapee | src/hjson_encode.cpp:43-63 | Every escape letter except the single quote and the slash is what `_meta` writes for the byte the letter stands for. |
| DecoderFacts.UnknownEscapeFails | src/hjson_decode.cpp:273-277 | A backslash followed by anything other than `u` or an escape letter is a syntax error. |
| DecoderFacts.ReadHexRejects | src/hjson_decode.cpp:258-269 | A `\u` escape with a non-hex byte among its four, or cut off by the end, fails. |
| DecoderFacts.RawLineBreakFails | src/hjson_decode.cpp:278-279 | A raw LF or CR in a single-line string is an error, whatever plain bytes come before it. |
| DecoderFacts.UnclosedStringFails | src/hjson_decode.cpp:242-285 | The end of the input before the closing quote is an error. |
| DecoderFacts.PlainStringRead | src/hjson_decode.cpp:242-282 | Plain bytes are copied unchanged up to the closing quote. |
| DecoderFacts.ThreeQuotes | src/hjson_decode.cpp:243-251 | Three single quotes open a multiline string when `allowML` is set. Without it, and in a key, they read as the empty string with the third quote unread. |
| DecoderFacts.KeyLoopName | src/hjson_decode.cpp:296-323 | A bare key name is non-empty and holds no byte up to a blank and no punctuator. It ends at the colon. |
| DecoderFacts.KeyLoopRefuses | src/hjson_decode.cpp:300-319 | A key fails on an empty name before the colon, on the end of the input, and on a punctuator. |
| DecoderFacts.KeyLoopSpaces | src/hjson_decode.cpp:303-314 | `a b:` fails because of the white space inside the name. `a :` reads as `a`. |
| DecoderFacts.ElementsKept | src/hjson_decode.cpp:523-532 | The array loop keeps the elements read so far, in order, and adds at least one. |
| DecoderFacts.MembersKept | src/hjson_decode.cpp:557-573 | The object loop never loses a key read so far. |
| DecoderFacts.MembersOverride | src/hjson_decode.cpp:557-573 | Reading members onto a map gives that map overridden by the members read onto an empty map, with the same outcome and cursor. |
| DecoderFacts.LaterMemberWins | src/hjson_decode.cpp:565-566 | A key that comes again later takes the later value. The first value stays only when no later member has the key. |
| DecoderFacts.ElementsUnclosedFail | src/hjson_decode.cpp:523-535 | The element loop fails when no `]` follows, however many elements it reads. |
| DecoderFacts.MembersUnclosedFail | src/hjson_decode.cpp:557-580 | Inside braces, the member loop fails when no `}` follows. |
| DecoderFacts.ArrayUnclosedFails | src/hjson_decode.cpp:506-535 | An array whose `[` no `]` follows is a syntax error. |
| DecoderFacts.ObjectUnclosedFails | src/hjson_decode.cpp:539-580 | An object whose `{` no `}` follows is a syntax error. |
| DecoderFacts.CutOffArrayFails | src/hjson_decode.cpp:523-535 | `[1,2` is a syntax error. |
| DecoderFacts.WhiteToEnd | src/hjson_decode.cpp:356-365 | Skipping over nothing but white space ends at the end of the input. |
| DecoderFacts.BlankInputIsEmptyMap | src/hjson_decode.cpp:631-675 | An empty or all-white input is an empty MAP. |
| DecoderFacts.BracedRoot | src/hjson_decode.cpp:636-655 | A root that starts with `{` or `[` is read as that object or array, never without braces. It succeeds exactly when that reader succeeds and only white space and comments follow. |
| DecoderFacts.RootUnclosedFails | src/hjson_decode.cpp:637-655 | A root `{` or `[` that is never closed is a syntax error. |
| DecoderFacts.TrailingAfterRootFails | src/hjson_decode.cpp:651-653 | `{}x` is a syntax error. |
| DecoderFacts.BracelessRoot | src/hjson_decode.cpp:657-664 | Otherwise, an object without braces that reads with nothing after it is the result. |
| DecoderFacts.SingleValueRoot | src/hjson_decode.cpp:666-674 | When it does not, the root is a single value, which succeeds exactly when nothing but white space and comments follows. |
| DecoderFacts.TwoDigitArray | src/hjson_decode.cpp:504-535 | A bracketed pair of one-digit numbers, separated by a comma or a line feed, with or without a comma before the `]`, reads as the VECTOR of the two integers. |
| DecoderFacts.OptionalCommas | src/hjson_decode.cpp:606-612 | `[1,2]`, `[1\n2]` and `[1,2,]` all read as the same VECTOR [1, 2]. |
| DecoderFacts.OneBlankIsOne | src/hjson_parsenumber.cpp:141-159 | The text `1 ` is the number 1. |
| DecoderFacts.TfnnsAsWrittenStalls | src/hjson_decode.cpp:486-490 | As written, the quoteless reader on `1 ` at the end of the input gives 1 but leaves the cursor where it started. |
| DecoderFacts.TfnnsCorrectedMoves | src/hjson_decode.cpp:486-490 | Corrected, the same read leaves the cursor at the end of the input. |
| DecoderFacts.TfnnsRun | src/hjson_decode.cpp:454-500 | The quoteless loop takes in every byte up to index `e` when each byte on the way that may end the token leaves it neither a keyword nor a number and does not end the line. |
| DecoderFacts.TfnnsLiteral | src/hjson_decode.cpp:454-491 | A token that reaches a byte that may end it, and is then a keyword or a number, is read as that keyword or number. The cursor is left just after the token without its trailing blanks, and on the ending byte when there are none. |
| DecoderFacts.TfnnsString | src/hjson_decode.cpp:454-497 | A token that reaches the end of its line without becoming a keyword or a number is the string of its bytes without trailing blanks. The cursor is left on the line end. |
| DecoderFacts.LiteralCases | src/hjson_decode.cpp:463-491 | A token is taken as a keyword exactly when it is `true`, `false` or `null` without trailing blanks. It is taken as a number exactly when it starts with a digit or a minus sign and `tryParseNumber` reads it in full, and then it has that number's value. |
| DecoderFacts.OneDigitNumber | src/hjson_parsenumber.cpp:93-174 | A single digit reads as its integer. |
| DecoderFacts.OneDigitToken | src/hjson_decode.cpp:454-491 | A one-digit token before a comma, a bracket or a line feed is that integer, with the cursor on the separator. |
| DecoderFacts.Significant | src/hjson_decode.cpp:371-440 | On a byte that is neither white space nor a comment opener, the comment skippers stay where they are. |
| DecoderFacts.DigitElement | src/hjson_decode.cpp:585-620 | A one-digit value followed by `]`, or by a comma or a line feed and then more, is that integer. The cursor is left after the separator. |
| DecoderFacts.ValueKinds | src/hjson_decode.cpp:589-598 | `_readValue` chooses its reader by the first byte after the comments: a brace gives a MAP, a bracket a VECTOR, and a quote a STRING. Any other punctuator fails. Anything else is the quoteless value. |
| DecoderFacts.ElementsRead | src/hjson_decode.cpp:523-532 | When each value read stops on the next and the last stops on `]`, the array holds the values read, in order. |
| Encoder.Meta | src/hjson_encode.cpp:43-63 | `_meta` has a two-byte escape exactly for BS, TAB, LF, FF, CR, `"` and `\`. |
| Encoder.FromUtf8 | src/hjson_encode.cpp:75-116 | A decoded sequence is non-empty and takes exactly the length its lead byte announces. |
| Encoder.FromUtf8Refuses | src/hjson_encode.cpp:75-116 | `_fromUtf8` fails exactly on an empty text, a byte that cannot lead a sequence, a sequence cut short, or a trailer below 0x80. |
| Encoder.TrailersRefuse | src/hjson_encode.cpp:100-110 | The trailer loop fails exactly when one trailer is below 0x80. |
| Encoder.Hex4 | src/hjson_encode.cpp:139-147 | A code point is printed as four hex digits whose value is the code point. |
| Encoder.EscapeAt | src/hjson_encode.cpp:447-450 | A one-byte `needsEscape` match is exactly a backslash, a double quote or a control byte. |
| Encoder.InvisibleAt | src/hjson_encode.cpp:447 | An invisible-sequence match (`commonRange`) is 2 or 3 bytes long and starts at a lead byte of at least 0xC2. |
| Encoder.SpacesEnd | src/hjson_encode.cpp:459 | The `\s*` of `startsWithKeyword` stops at the first non-space. |
| Encoder.Indentation | src/hjson_encode.cpp:66-72 | The indentation is `indentBy` repeated, with exactly that length. |
| Encoder.LineEnd | src/hjson_encode.cpp:164-165 | The first `lineBreak` match is the first CR or LF. |
| Encoder.Digits | src/hjson_value.cpp:795-805 | An integral DOUBLE prints as decimal digits. |
| Encoder.QuoteReplace | src/hjson_encode.cpp:119-158 | `_quoteReplace` never writes fewer bytes than it was given. |
| Encoder.ReplaceFrom | src/hjson_encode.cpp:119-158 | From any index, `_quoteReplace` writes at least the bytes it covers. |
| Encoder.UnitTextLength | src/hjson_encode.cpp:133-148 | The escape written for one match is at least as long as the match. |
| Encoder.QuoteName | src/hjson_encode.cpp:244-260 | A key is written as it is or between double quotes, and never shorter. |
| Encoder.MLString | src/hjson_encode.cpp:162-204 | Both multiline forms end with the closing triple quote. |
| Encoder.Quote | src/hjson_encode.cpp:209-240 | Under `quoteAlways`, a string, the empty one included, is written after the separator between double quotes. A root string is written after the separator either bare or between double quotes, never in a multiline form. |
| Encoder.NumberText | src/hjson_encode.cpp:300-310 | An integer prints as a minus exactly when it is negative, followed by decimal digits only. NaN and the infinities print `null`. Minus zero prints `0` unless `allowMinusZero` is set. |
| Encoder.Opening | src/hjson_encode.cpp:323-327 | A container opens right after the separator when `noIndent` or `bracesSameLine` is set. Otherwise it opens on a new line: its text starts with the end-of-line bytes. |
| Encoder.Str | src/hjson_encode.cpp:298-406 | UNDEFINED writes only the separator. A VECTOR's text ends with `]`. A MAP that is not the root ends with `}`. |
| Encoder.VectorStr | src/hjson_encode.cpp:316-351 | A VECTOR's text, empty or not, ends with its closing bracket. |
| Encoder.MapStr | src/hjson_encode.cpp:353-401 | A MAP that is not the root, empty or not, ends with its closing brace. |
| Encoder.VectorOpens | src/hjson_encode.cpp:316-328 | A VECTOR written without indent starts with the separator and then `[`. |
| Encoder.MapFrame | src/hjson_encode.cpp:353-399 | A MAP written without indent and with braces starts with the separator and then `{`. A non-empty root MAP with `emitRootBraces` ends with `}` followed by the line break of `_writeIndent(e, 0)`. |
| Encoder.MarshalWith | src/hjson_encode.cpp:435-466 | `separator` forces `quoteAlways`, so a root string is double-quoted with it. Without it, a root string is bare or double-quoted. |
| Encoder.MarshalWithOptions | src/hjson_encode.cpp:435-467 | A root VECTOR is the whole text from `[` to `]`. A root MAP with `emitRootBraces` starts with `{`. It uses the corrected one-line rule of `_mlString` and the corrected `needsEscapeName`, so its text differs from the code's on the two encoder inputs in "Findings": the text ` "` and a key with byte 0x01. |
| Encoder.Marshal | src/hjson_encode.cpp:475-477 | With the default options, a non-empty root MAP starts with `{` and ends with `}` and a line feed. It uses the same corrected rules as `Encoder.MarshalWithOptions`. |
| EncoderFacts.QuoteBareIff | src/hjson_encode.cpp:209-240 | `_quote` writes a string bare exactly when it is non-empty, `quoteAlways` is off, and neither `needsQuotes`, `startsWithNumber` nor `startsWithKeyword` matches. |
| EncoderFacts.SeparatorQuotesStrings | src/hjson_encode.cpp:436-438 | With `separator`, every non-empty string is double-quoted, never multiline, and escaped when needed. |
| EncoderFacts.QuoteNameBareIff | src/hjson_encode.cpp:244-260 | `_quoteName` writes a key bare exactly when it is non-empty, `quoteKeys` is off and `needsEscapeName` does not match. An empty key is `""`. |
| EncoderFacts.NameBreaksQuote | src/hjson_encode.cpp:461 | A key with a comma, a colon, a blank, `//` or `/*` is quoted. |
| EncoderFacts.BlockEnd | src/hjson_encode.cpp:173-203 | The block form of `_mlString` ends with the closing triple quote. |
| EncoderFacts.NotBareText | src/hjson_encode.cpp:226-236 | A multiline form is never the bare text of the string it stands for. |
| EncoderFacts.NumberTextSpecial | src/hjson_encode.cpp:300-310 | NaN and the infinities print `null`. Minus zero prints `0` unless `allowMinusZero` is set. |
| EncoderFacts.DigitsValue | src/hjson_value.cpp:795-805 | The printed digits of n have the value n. |
| EncoderFacts.DigitsLead | src/hjson_value.cpp:795-805 | The printed digits have no leading zero, so the lexer's leading-zero rule accepts them. |
| EncoderFacts.IntTextRoundTrip | src/hjson_parsenumber.cpp:93-174 | An integer as the encoder prints it reads back through `tryParseNumber` as the same integer. |
| EncoderFacts.NumberTextRoundTrip | src/hjson_encode.cpp:300-310 | The same through the DOUBLE branch of `_str`. |
| EncoderFacts.EmptyContainers | src/hjson_encode.cpp:316-318 | An empty VECTOR prints `[]` and an empty MAP prints `{}`. UNDEFINED prints nothing. |
| Encoder.ElementsEmpty | src/hjson_encode.cpp:333-341 | The element loop writes nothing when every element from position i on is UNDEFINED. |
| Encoder.ElementsWritten | src/hjson_encode.cpp:333-341 | A defined element from position i on makes the element loop write at least one end of line, so with a non-empty end of line the loop writes nothing only when all those elements are UNDEFINED. |
| Encoder.MembersEmpty | src/hjson_encode.cpp:375-385 | The member loop writes nothing when every member from position i on, in key order, holds UNDEFINED. |
| Encoder.MembersWritten | src/hjson_encode.cpp:375-385 | A member from position i on that holds a defined value makes the member loop write at least one end of line, so with a non-empty end of line the loop writes nothing only when all those members hold UNDEFINED. |
| Encoder.MemberSkipped | src/hjson_encode.cpp:376 | A member that holds UNDEFINED adds nothing to the text. |
| Encoder.MemberLine | src/hjson_encode.cpp:376-382 | A member that holds a defined value is written on a new line: at least one end of line. |
| EncoderFacts.MarshalVector | src/hjson_encode.cpp:316-351 | A non-empty root vector is its opening bracket, its element lines, and the closing bracket on a line of its own. |
| EncoderFacts.ElementLine | src/hjson_encode.cpp:333-341 | With the default options, each element goes on its own line, indented two blanks. |
| EncoderFacts.ThreeElements | src/hjson_encode.cpp:333-341 | With the default options, three one-digit integers at the first level are three lines: a line feed, two blanks and the digit each. |
| EncoderFacts.ThreeLines | src/hjson_encode.cpp:316-351 | A root vector of any three one-digit integers is written "[", one indented line per digit, and "\n]". |
| EncoderFacts.VectorLayout | src/hjson_encode.cpp:316-351 | `[3,4,5]` is written "[\n  3\n  4\n  5\n]". |
| EncoderFacts.UndefinedOnlyMap | src/hjson_encode.cpp:353-406 | A root MAP holding only UNDEFINED members is written "{\n}\n". |
| RoundTrip.HexEscapeRead | src/hjson_decode.cpp:253-272 | A `\u` escape with four hex digits reads as the UTF-8 of its code point. |
| RoundTrip.ReadHex4 | src/hjson_decode.cpp:256-271 | The reader reads back the four digits the encoder prints. |
| RoundTrip.TwoByteSequence | src/hjson_encode.cpp:75-116 | `_fromUtf8` decodes a well-formed two-byte sequence to a code point that `_toUtf8` encodes back to it. |
| RoundTrip.ThreeByteSequence | src/hjson_encode.cpp:75-116 | The same for three-byte sequences. |
| RoundTrip.InvisibleIsOneCodePoint | src/hjson_encode.cpp:447 | Each invisible sequence is the UTF-8 of one code point below 0x10000, which the decoder writes back from its `\u` escape. |
| RoundTrip.MetaRead | src/hjson_decode.cpp:273-274 | Every two-byte escape `_meta` writes is read as the byte it stands for. |
| RoundTrip.ControlReplacement | src/hjson_encode.cpp:133-148 | A control byte without a short escape becomes `\u00XX`, and `_toUtf8` of that code point is the byte. |
| RoundTrip.InvisibleReplacement | src/hjson_encode.cpp:133-148 | An invisible sequence becomes one `\u` escape of the code point it encodes. |
| RoundTrip.UnitRead | src/hjson_encode.cpp:119-158 | The escape text of each unit `_quoteReplace` writes reads back as that unit. |
| RoundTrip.ReplaceFromRead | src/hjson_decode.cpp:238-286 | The escaped text of any suffix reads back as that suffix. |
| RoundTrip.QuotedRoundTrip | src/hjson_encode.cpp:232-236 | For every string, the `_quoteReplace` quoted form reads back through `_readString` as the string, wherever it stands in the input. |
| RoundTrip.ReplaceClean | src/hjson_encode.cpp:119-158 | A text with no `needsEscape` match is its own escaped form. |
| RoundTrip.PlainQuotedRoundTrip | src/hjson_encode.cpp:226-227 | The plain `"…"` form reads back as the string. |
| RoundTrip.BareKeyRead | src/hjson_decode.cpp:296-323 | A name with no white space or punctuator, followed by a colon, reads as that name. |
| RoundTrip.BareNameBytes | src/hjson_encode.cpp:461 | A name the corrected `needsEscapeName` leaves bare holds no byte the key reader stops at, and does not start with a quote. |
| RoundTrip.KeyNameRoundTrip | src/hjson_encode.cpp:244-260 | Every key the corrected `_quoteName` writes (`""`, quoted or bare), followed by a colon, reads back through `_readKeyname` as the key. |
| RoundTrip.ControlKeyAsWritten | src/hjson_encode.cpp:461 | As written, the key `a` followed by byte 0x01 is written bare and reads back as `a`. |
| RoundTrip.ControlKeyCorrected | src/hjson_encode.cpp:247-255 | Corrected, the same key is quoted with its control byte escaped. |
| MultilineRoundTrip.LineRead | src/hjson_decode.cpp:172-208 | One line without CR, NUL or three quotes in a row goes to the result with its line feed. Quotes pending from before it are kept. The next line's indentation, up to the opening column, is skipped. |
| MultilineRoundTrip.BodyRead | src/hjson_decode.cpp:158-208 | The lines `_mlString` writes, each behind the indentation, read back as the text with its line feeds. |
| MultilineRoundTrip.MLIndentIs | src/hjson_decode.cpp:147-156 | The indent the reader takes is the column of the opening quotes. |
| MultilineRoundTrip.BlockRoundTrip | src/hjson_encode.cpp:173-203 | The block form of `_mlString` reads back through `_readMLString` as the text. |
| MultilineRoundTrip.OneLineRoundTrip | src/hjson_encode.cpp:167-172 | The one-line form, for texts the corrected writer keeps on one line, reads back as the text. |
| MultilineRoundTrip.MLStringRoundTrip | src/hjson_encode.cpp:162-204 | Every text the corrected `_mlString` is given (no CR, no `needsEscapeML` match), written at any indent and position, reads back from its first quote as the text. |
| MultilineRoundTrip.LeadingBlankAsWritten | src/hjson_encode.cpp:167-172 | As written, the text ` "` is put on one line and reads back as `"`, losing the blank. |
| Values.EmptyIffSizeZero | src/hjson_value.cpp:564-596 | `empty()` holds exactly when `size()` is 0. |
| Values.Get | src/hjson_value.cpp:240-252 | The const key lookup gives the entry. It gives UNDEFINED for an UNDEFINED receiver or a missing key, and fails with a type mismatch on any other non-MAP. |
| Values.GetChain | src/hjson_value.cpp:191-203 | `get(chain)` gives the value itself for an empty chain, and UNDEFINED once it meets a non-MAP. |
| Values.Probe | src/hjson_value.cpp:255-269 | The non-const key access turns UNDEFINED into an empty MAP, fails on other non-MAPs, and holds the existing or an UNDEFINED child. |
| Values.Assign | src/hjson_value.cpp:906-916 | Proxy assignment stores the new payload. Each empty comment field inherits the replaced value's text. |
| Values.Commit | src/hjson_value.cpp:879-890 | The proxy's child is stored exactly when it was assigned or is non-empty. No other entry and no comment of the parent changes. |
| Values.SetKeyStores | src/hjson_value.cpp:255-269 | `val[key] = x` adds exactly `key` (even for an UNDEFINED `x`), stores the assigned value and keeps every other entry. |
| Values.SetKey | src/hjson_value.cpp:255-269 | `val[key] = x` fails exactly when the receiver is neither UNDEFINED nor a MAP. |
| Values.ReadKey | src/hjson_value.cpp:255-269 | A read through the non-const operator fails exactly when the receiver is neither UNDEFINED nor a MAP. |
| Values.SetThenGet | src/hjson_value.cpp:240-269 | What is set under a key is what the const lookup then reads. |
| Values.ReadKeyAddsNothing | src/hjson_value.cpp:879-890 | A read through the non-const operator adds no key. An UNDEFINED receiver becomes an empty MAP of size 0. |
| Values.AsMap | src/hjson_value.cpp:211-232 | `set` leaves a MAP on its path as it is and remakes anything else as an empty MAP. |
| Values.SetChain | src/hjson_value.cpp:211-232 | `set` with an empty chain replaces the whole value, and otherwise gives a MAP. |
| Values.SetChainThenGet | src/hjson_value.cpp:191-232 | Reading back a chain that was just set gives the assigned value, with comments inherited from what the chain led to before. |
| Values.SetChainKeepsSiblings | src/hjson_value.cpp:211-232 | `set` changes only the first key of the chain at the top level. Every other entry and the receiver's comments are kept. |
| Values.At | src/hjson_value.cpp:282-309 | Index access succeeds exactly on a VECTOR with 0 <= i < size. UNDEFINED gives an index error, and other types a type mismatch. |
| Values.SetAt | src/hjson_value.cpp:297-309 | Assigning through an index changes only that element. |
| Values.PushBack | src/hjson_value.cpp:684-694 | `push_back` turns UNDEFINED into a VECTOR and fails on other non-VECTORs. It grows the size by one, puts `x` last and keeps the earlier elements. |
| Values.EraseAt | src/hjson_value.cpp:672-681 | `erase(i)` removes only element i. The index must be in range, and errors are as for index access. |
| Values.EraseKey | src/hjson_value.cpp:741-749 | `erase(key)` returns 0 on UNDEFINED and fails on other non-MAPs. On a MAP it returns 1 exactly when the key was there and removes only that key. |
| Values.PushBackEraseAt | src/hjson_value.cpp:672-694 | Erasing the element just pushed gives the vector back. |
| Values.SetKeyEraseKey | src/hjson_value.cpp:741-749 | Setting a new key and erasing it gives the MAP back, and the erase reports one removal. |
| CloneMerge.Clone | src/hjson_value.cpp:646-669 | A clone keeps scalars as they are. It keeps the type, size and keys of non-empty containers, turns an empty container into UNDEFINED, and holds no empty container. |
| CloneMerge.NumberEq | src/hjson_value.cpp:362-374 | NaN equals nothing, and two integers are equal exactly when they are the same. |
| CloneMerge.NumberEqExamples | src/hjson_value.cpp:362-374 | `3` and `3.0`, `1.0` and `1.00`, and `0.0` and `-0.0` are equal. `1` and `2` are not, and NaN is not equal to itself. |
| CloneMerge.TrailingZeroEqual | src/hjson_value.cpp:362-374 | A literal with a 0 added to its fraction digits is equal to the literal. |
| CloneMerge.DeepEqual | src/hjson_value.cpp:599-606 | Deep-equal values have the same type and size. |
| CloneMerge.IntDeepEqualsDecimal | src/hjson_value.cpp:599-602 | The integer 3 deep-equals the literal `3.0`. |
| CloneMerge.DeepEqualReflexive | src/hjson_value.cpp:599-643 | Every value without NaN deep-equals itself. |
| CloneMerge.DeepEqualSymmetric | src/hjson_value.cpp:599-643 | `deep_equal` is symmetric. |
| CloneMerge.CloneDeepEqual | src/hjson_value.cpp:599-669 | A clone deep-equals the original when the original holds no NaN and no empty container. |
| CloneMerge.CloneIdempotent | src/hjson_value.cpp:646-669 | Cloning a clone changes nothing. |
| CloneMerge.MergedEntry | src/hjson_value.cpp:925-933 | A merged entry holds no empty container. |
| CloneMerge.Merge | src/hjson_value.cpp:919-939 | An UNDEFINED `ext` gives a clone of `base`. Two MAPs give a MAP with the union of their keys. Anything else gives a clone of `ext`. |
| CloneMerge.MergeTakesExtOnly | include/hjson/hjson.h:232-234 | A key only `ext` has takes `ext`'s value, cloned. |
| CloneMerge.MergeKeepsBaseOnly | include/hjson/hjson.h:232-234 | A key only `base` has keeps a clone of `base`'s value. |
| CloneMerge.MergeExtWins | include/hjson/hjson.h:234-235 | Where both have the key, `ext`'s value is used, merged recursively, provided that the merged value is defined. An empty VECTOR or MAP in `ext` merges to UNDEFINED, and there the code keeps `base`'s value (see Findings). |
| CloneMerge.MergeUndefinedUsesBase | include/hjson/hjson.h:235-236 | Where `ext`'s value is UNDEFINED, `base`'s value is used. |
| CloneMerge.MergeVectorFromExt | include/hjson/hjson.h:238-239 | Vectors are not merged element by element: a non-empty VECTOR in `ext` wins, and so does any other defined value that is not a MAP. An empty VECTOR in `ext` does not win (see Findings). |
| CloneMerge.MergeSelf | src/hjson_value.cpp:919-939 | Merging a tree with itself gives a tree deep-equal to it, for trees with no NaN and no empty VECTOR or MAP anywhere. NaN is never equal to itself, and an empty container merges to UNDEFINED: `{a:[]}` merged with itself is `{a:UNDEFINED}`. |
| CloneMerge.EmptyExtKeepsBase | src/hjson_value.cpp:925-936 | As written, an empty VECTOR under a key of `ext` does not replace `base`'s entry: `{a:5}` merged with `{a:[]}` keeps 5, and `{a:[1,2]}` merged with `{a:[]}` keeps `[1,2]`. |
| CloneMerge.MergeUndefinedEntry | src/hjson_value.cpp:931-935 | Where both have the key and `ext`'s entry merges to UNDEFINED, the second loop stores `base`'s clone. |
| CloneMerge.CopyOf | include/hjson/hjson.h:238-241 | The copy that the documented merge takes from `ext` keeps the type and size of the original, including an empty container. It equals the clone for anything that is not an empty container. |
| CloneMerge.MergeDocumented | include/hjson/hjson.h:229-244 | The merge as documented gives a clone of `base` for an UNDEFINED `ext`. Two MAPs give a MAP with the union of their keys. Anything else gives a copy of `ext` with its type and size. |
| CloneMerge.DocumentedExtWins | include/hjson/hjson.h:234-239 | Where both have the key and `ext`'s entry is defined, the documented merge uses `ext`'s value, with no exception for empty containers. A VECTOR or other value that is not a MAP is taken whole, with its type and size. |
| CloneMerge.DocumentedBaseFills | include/hjson/hjson.h:234-236 | Where `ext` lacks the key or holds UNDEFINED, the documented merge uses `base`'s value. |
| CloneMerge.DocumentedAgrees | src/hjson_value.cpp:919-939 | The documented merge equals the merge as written whenever `ext` holds no empty container. The correction changes nothing else. |
| KeyOrder.Trichotomy | include/hjson/hjson.h:169-173 | The key order is a strict total order. |
| KeyOrder.Transitive | include/hjson/hjson.h:169-173 | The key order is transitive. |
| KeyOrder.Sorted | include/hjson/hjson.h:169-173 | Iteration visits every key exactly once, in strictly increasing byte-wise order. |
| KeyOrder.SortedKeys | include/hjson/hjson.h:169-173 | A map's iteration order holds each key once, in increasing order. |
| KeyOrder.SortedUnique | include/hjson/hjson.h:169-173 | The iteration order is determined by the key set alone. |

## Left out

- Comment text. The decoder skips comments without keeping their text (`_readComment` and the `comment_*` fields). The encoder runs with `outputCommentary` off, the default, so `_writeComment` and `_writeSeperatorAndComment` are not modelled.
- Floating point. `to_double`, the 15-digit `to_string` of a DOUBLE, and the binary value of a double are not modelled. A finite double is its decimal lexeme, and the printer writes the lexeme back. `_parseInt` (src/hjson_parsenumber.cpp:50-72) is `NumberLexer.Int64Of`. `_parseFloat` (src/hjson_parsenumber.cpp:24-47) is `NumberLexer.FloatAccepted`: a lexeme is accepted when an exponent marker has digits and its exact value is below 2^1024 - 2^970, the smallest magnitude that rounds to infinity. At the low end the model accepts every value: a literal that underflows, such as `1e-400`, is kept as its lexeme, not rounded to zero or to a subnormal. Whether the C++ accepts such a literal depends on the build (`from_chars`, `strtod` or a string stream) and on how it reports a range error; the model does not reject it. Arithmetic and ordering operators on values are left out too.
- `Unmarshal(std::istream&)`, `MarshalJson`, and the text and position in error messages. Every error is one of `SyntaxError`, `TypeMismatch` or `IndexOutOfBounds`.
- `unknownAsNull`. The encoder never reads it.
- `shared_ptr` aliasing, placement-new retagging and the identity-based `operator==`. Values are immutable trees, so a clone can never alias its source. The clone's independence from its source holds by construction.
- The benchmark in performance/perf_multithread.cpp and the file-reading test driver (test/test_marshal.cpp, test/hjson_test.h) are not part of this model.
- test/test_value.cpp:331 expects a root MAP of only UNDEFINED members to be "{\n}". The code at src/hjson_encode.cpp:395-399 writes a line break after the closing brace of a root object when `emitRootBraces` is set. The model follows the code (`EncoderFacts.UndefinedOnlyMap`).
- MultilineRoundTrip.MLStringRoundTrip: stated for eol "\n", an `indentBy` of blanks and texts without CR. The writer turns every CR into a line break and the reader drops CRs, so such texts do not come back through this form.
- EncoderFacts.IntTextRoundTrip: stated for magnitudes below 10^15, the integers the fifteen-digit stream output keeps exact.
- EncoderFacts.NumberTextRoundTrip: the same bound.
- Whole-document round trips (`Unmarshal(Marshal(v))`) are not stated. The round trips are proved per form: quoted strings, key names, multiline strings and integers. The bare (quoteless) string form has no read-back lemma.
- Decoder.Unmarshal: reads with the corrected quoteless reader, so it does not reproduce the code's result on a root that ends in a number or keyword followed by blanks. As written, the root `1 ` fails with "found trailing characters" and `a: 1 ` reads as the STRING `a: 1`; the model gives 1 and the MAP {a: 1}. `DecoderFacts.TfnnsAsWrittenStalls` models the code's reader.
- CloneMerge.NumberEq: compares the exact decimal values of the lexemes. The C++ compares doubles, so two literals that differ only beyond double precision, or integers beyond 2^53 that round to the same double, are equal there and not here.
- `deep_equal` on two distinct empty containers dereferences `end()` (src/hjson_value.cpp:615-621). The model answers `true`, as the tests expect.

## Findings

| source | as written | input that shows it | evidently intended | confidence | as-written member | corrected member |
|---|---|---|---|---|---|---|
| src/hjson_decode.cpp:486-490 | After a number or keyword followed by blanks at the end of the input, `_spool` rewinds by the count of trailing blanks. The last `_next` did not move `at`, so the cursor lands on the token's last byte. | `[1 ` (the element `1 ` at the end): `_readTfnns` returns 1 without moving the cursor, so `_readArray` reads the same element again without end. At the root, as written, `1 ` (or `true `) fails with "found trailing characters", and `a: 1 ` reads as the STRING `a: 1`; the corrected reader, which the model's `Decoder.Unmarshal` uses, gives 1 (or true) and the MAP {a: 1}. | The rewind leaves the cursor on the first trailing blank, or at the end of the input. | medium; not executed | DecoderFacts.TfnnsAsWrittenStalls | DecoderFacts.TfnnsCorrectedMoves |
| src/hjson_encode.cpp:167-172 | A text without line breaks is always written in the one-line form `'''text'''`. | The text ` "` (a blank and a double quote) is written `''' "'''`, and `_readMLString` reads it back as `"`. | Texts that start with white space or end with a single quote go to the block form, which reads back whole. | medium; not executed | MultilineRoundTrip.LeadingBlankAsWritten | MultilineRoundTrip.MLStringRoundTrip |
| src/hjson_encode.cpp:461 | `needsEscapeName` does not match control bytes, so a key holding one is written bare. `_readKeyname` treats every byte up to a blank as white space. | The key `a` followed by byte 0x01 is written bare and reads back as `a`. | Control bytes force quotes, as they do for values. | medium; not executed | RoundTrip.ControlKeyAsWritten | RoundTrip.KeyNameRoundTrip |
| src/hjson_value.cpp:925-936 | The first loop stores `Merge(base[key], ext[key])`. Merging with an empty VECTOR or MAP gives its clone, which is UNDEFINED. The second loop then stores `base`'s clone wherever the merged entry is UNDEFINED. | `Merge({a:5}, {a:[]})` keeps `a:5`, and `Merge({a:[1,2]}, {a:[]})` keeps `a:[1,2]`. | Where both have a key and `ext`'s value is defined, `ext`'s value is used, as the comment at include/hjson/hjson.h:234-239 says, including an empty vector. | medium; not executed | CloneMerge.EmptyExtKeepsBase | CloneMerge.DocumentedExtWins |

=== FILE: bytes.dfy ===
/** Bytes and the character classes the codec tests them against.
    The C++ code works on `unsigned char` buffers and `std::string`; both are
    modelled as sequences of 8-bit bytes. */
module Bytes {

  newtype byte = x: int | 0 <= x < 256

  type Bytes = seq<byte>

  /** Turns an ASCII literal into bytes, so that examples read like text. */
  function Ascii(s: string): (r: Bytes)
    requires forall i | 0 <= i < |s| :: s[i] as int < 128
    ensures |r| == |s|
    ensures forall i | 0 <= i < |s| :: r[i] as int == s[i] as int
  {
    seq(|s|, i requires 0 <= i < |s| => s[i] as int as byte)
  }

  const NUL: byte := 0x00
  const BS: byte := 0x08
  const TAB: byte := 0x09
  const LF: byte := 0x0a
  const VT: byte := 0x0b
  const FF: byte := 0x0c
  const CR: byte := 0x0d
  const SPACE: byte := 0x20
  const DQUOTE: byte := 0x22
  const HASH: byte := 0x23
  const SQUOTE: byte := 0x27
  const STAR: byte := 0x2a
  const PLUS: byte := 0x2b
  const COMMA: byte := 0x2c
  const MINUS: byte := 0x2d
  const DOT: byte := 0x2e
  const SLASH: byte := 0x2f
  const COLON: byte := 0x3a
  const LBRACKET: byte := 0x5b
  const BACKSLASH: byte := 0x5c
  const RBRACKET: byte := 0x5d
  const LBRACE: byte := 0x7b
  const RBRACE: byte := 0x7d

  /** `std::isspace` in the classic locale (also the `\s` class of `std::regex`). */
  predicate IsSpace(c: byte) {
    c == SPACE || (TAB <= c <= CR)
  }

  /** The parsers' own notion of white space: `ch > 0 && ch <= ' '`. */
  predicate IsWhite(c: byte) {
    0 < c <= SPACE
  }

  predicate IsDigit(c: byte) {
    0x30 <= c <= 0x39
  }

  predicate IsHexDigit(c: byte) {
    IsDigit(c) || 0x61 <= c <= 0x66 || 0x41 <= c <= 0x46
  }

  function HexValue(c: byte): (v: int)
    requires IsHexDigit(c)
    ensures 0 <= v < 16
  {
    if IsDigit(c) then c as int - 0x30
    else if 0x61 <= c then c as int - 0x61 + 10
    else c as int - 0x41 + 10
  }

  /** The lower-case hexadecimal digit for `v`, as `std::hex` prints it. */
  function HexDigit(v: int): (c: byte)
    requires 0 <= v < 16
    ensures IsHexDigit(c) && HexValue(c) == v
  {
    if v < 10 then (0x30 + v) as byte else (0x61 + v - 10) as byte
  }

  /** True when `s` contains `sub` starting at index `i`. */
  predicate HasAt(s: Bytes, i: nat, sub: Bytes) {
    i + |sub| <= |s| && s[i..i + |sub|] == sub
  }

  /** True when `sub` occurs anywhere in `s`. */
  predicate Contains(s: Bytes, sub: Bytes) {
    exists i :: 0 <= i <= |s| && HasAt(s, i, sub)
  }

  /** Removes trailing `std::isspace` bytes, as `_rtrim` does. */
  function RTrim(s: Bytes): (r: Bytes)
    ensures |r| <= |s| && r == s[..|r|]
    ensures r == [] || !IsSpace(r[|r| - 1])
    ensures forall i | |r| <= i < |s| :: IsSpace(s[i])
  {
    if |s| > 0 && IsSpace(s[|s| - 1]) then RTrim(s[..|s| - 1]) else s
  }
}

=== FILE: clone_merge.dfy ===
/** Structural comparison, deep copy and the `Merge` of two value trees,
    from src/hjson_value.cpp. */
module CloneMerge {
  import opened Bytes
  import opened Outcome
  import opened NumberLexer
  import opened KeyOrder
  import opened Values

  /** The exact value of a finite number: the integer itself, or the
      value of the literal a double was read from (0 for NaN and the
      infinities, which `NumberEq` treats apart). */
  function Exact(n: Number): real {
    match n
    case Int(i) => i as real
    case Dbl(Decimal(x)) => PartsValue(PartsOf(x))
    case _ => 0.0
  }

  /** Equality of two stored numbers. Every number the codec keeps is a
      double, compared with `==`: an integer and a literal are equal when
      their values are, infinities when their signs are, and NaN equals
      nothing, itself included. */
  predicate NumberEq(a: Number, b: Number)
    ensures NumberEq(a, b) ==> !IsNaN(a) && !IsNaN(b)
    ensures a.Int? && b.Int? ==> (NumberEq(a, b) <==> a == b)
  {
    match (a, b)
    case (Dbl(NaN), _) => false
    case (_, Dbl(NaN)) => false
    case (Dbl(Infinity(x)), Dbl(Infinity(y))) => x == y
    case (Dbl(Infinity(_)), _) => false
    case (_, Dbl(Infinity(_))) => false
    case _ => Exact(a) == Exact(b)
  }

  predicate IsNaN(n: Number) {
    n.Dbl? && n.f.NaN?
  }

  /** No NaN anywhere in the tree. */
  predicate NoNaN(v: Value) {
    match v.payload
    case Double(n) => !IsNaN(n)
    case Vector(xs) => forall i | 0 <= i < |xs| :: NoNaN(xs[i])
    case Map(m) => forall k | k in m :: NoNaN(m[k])
    case _ => true
  }

  /** A VECTOR or MAP without elements. */
  predicate EmptyContainer(v: Value) {
    (v.payload.Vector? && |v.payload.items| == 0) || (v.payload.Map? && |v.payload.entries| == 0)
  }

  /** No empty VECTOR or MAP anywhere in the tree. */
  predicate NoEmptyContainer(v: Value) {
    match v.payload
    case Vector(xs) => |xs| > 0 && forall i | 0 <= i < |xs| :: NoEmptyContainer(xs[i])
    case Map(m) => |m| > 0 && forall k | k in m :: NoEmptyContainer(m[k])
    case _ => true
  }

  /** `deep_equal`: same type and size, scalars equal, vector elements
      equal pairwise, and map values equal pairwise in iteration order; map
      keys and comments are not compared. */
  predicate DeepEqual(a: Value, b: Value)
    ensures DeepEqual(a, b) ==> TypeOf(a) == TypeOf(b) && Size(a) == Size(b)
    decreases a
  {
    if TypeOf(a) != TypeOf(b) then false
    else match a.payload
      case Undefined => true
      case Null => true
      case Bool(x) => x == b.payload.b
      case Double(n) => NumberEq(n, b.payload.n)
      case String(s) => s == b.payload.s
      case Vector(xs) =>
        |xs| == |b.payload.items| &&
        forall i | 0 <= i < |xs| :: DeepEqual(xs[i], b.payload.items[i])
      case Map(ma) =>
        var mb := b.payload.entries;
        var ka := SortedKeys(ma);
        var kb := SortedKeys(mb);
        |ka| == |kb| &&
        forall i | 0 <= i < |ka| :: DeepEqual(ma[ka[i]], mb[kb[i]])
  }

  /** `clone`: a scalar is returned as it is; a vector or map is rebuilt,
      element by element, into a fresh value, so its own comments are not
      kept, and one without elements comes back UNDEFINED. */
  function Clone(v: Value): (r: Value)
    ensures TypeOf(r) == (if EmptyContainer(v) then UNDEFINED else TypeOf(v))
    ensures Size(r) == (if EmptyContainer(v) then 0 else Size(v))
    ensures !(v.payload.Vector? || v.payload.Map?) ==> r == v
    ensures r.payload.Map? ==> r.payload.entries.Keys == v.payload.entries.Keys
    ensures NoEmptyContainer(r)
    ensures NoNaN(v) ==> NoNaN(r)
    decreases v
  {
    match v.payload
    case Vector(xs) =>
      if |xs| == 0 then Nothing
      else Fresh(Vector(seq(|xs|, i requires 0 <= i < |xs| => Clone(xs[i]))))
    case Map(m) =>
      if |m| == 0 then Nothing
      else
        var c := map k | k in m :: Clone(m[k]);
        assert c.Keys == m.Keys;
        Fresh(Map(c))
    case _ => v
  }

  lemma {:induction false} NumberEqReflexive(n: Number)
    requires !IsNaN(n)
    ensures NumberEq(n, n)
  {
  }

  /** A zero appended to the fraction of a literal gives an equal number:
      `1.5` equals `1.50`, and `3` equals `3.0`. */
  lemma TrailingZeroEqual(p: Parts)
    requires PartsWellFormed(p) && |p.intDigits| > 0
    requires p.exp.Some? ==> |p.exp.value.digits| > 0
    ensures NumberEq(Dbl(Decimal(Compose(p))), Dbl(Decimal(Compose(p.(frac := Some(FracDigits(p) + [0x30]))))))
  {
    var q := p.(frac := Some(FracDigits(p) + [0x30]));
    assert PartsWellFormed(q) by {
      assert forall i | 0 <= i < |FracDigits(q)| :: IsDigit(FracDigits(q)[i]);
    }
    assert Compose(p) + [] == Compose(p);
    assert Compose(q) + [] == Compose(q);
    PartsOfCompose(p, []);
    PartsOfCompose(q, []);
    TrailingZeroSameValue(p);
  }

  /** The literal `<i>.<f>`, each part one digit. */
  function OneDotOne(negative: bool, i: byte, f: Bytes): Parts {
    Parts(negative, [i], Some(f), None)
  }

  /** Numbers compare by value, not by their text: `3` equals `3.0`,
      `1.0` equals `1.00`, `0.0` equals `-0.0`; NaN equals nothing. */
  lemma NumberEqExamples()
    ensures NumberEq(Int(3), Dbl(Decimal([0x33, DOT, 0x30])))
    ensures NumberEq(Dbl(Decimal([0x31, DOT, 0x30])), Dbl(Decimal([0x31, DOT, 0x30, 0x30])))
    ensures NumberEq(Dbl(Decimal([0x30, DOT, 0x30])), Dbl(Decimal([MINUS, 0x30, DOT, 0x30])))
    ensures !NumberEq(Int(1), Int(2)) && !NumberEq(Dbl(NaN), Dbl(NaN))
  {
    ThreePointZero();
    OnePointZero();
    MinusZero();
  }

  lemma ThreePointZero()
    ensures Exact(Dbl(Decimal([0x33, DOT, 0x30]))) == 3.0
  {
    var p := OneDotOne(false, 0x33, [0x30]);
    assert Compose(p) + [] == [0x33, DOT, 0x30];
    PartsOfCompose(p, []);
    assert p.intDigits + FracDigits(p) == [0x33, 0x30];
    assert DecimalValue([0x33, 0x30]) == 30 by {
      assert [0x33, 0x30][..1] == [0x33 as byte];
    }
    assert TenTo(-1) == 0.1;
  }

  lemma OnePointZero()
    ensures Exact(Dbl(Decimal([0x31, DOT, 0x30]))) == Exact(Dbl(Decimal([0x31, DOT, 0x30, 0x30])))
  {
    var p := OneDotOne(false, 0x31, [0x30]);
    assert Compose(p) == [0x31, DOT, 0x30];
    assert Compose(p.(frac := Some(FracDigits(p) + [0x30]))) == [0x31, DOT, 0x30, 0x30];
    TrailingZeroEqual(p);
  }

  lemma MinusZero()
    ensures Exact(Dbl(Decimal([0x30, DOT, 0x30]))) == 0.0
    ensures Exact(Dbl(Decimal([MINUS, 0x30, DOT, 0x30]))) == 0.0
  {
    var p := OneDotOne(false, 0x30, [0x30]);
    var n := OneDotOne(true, 0x30, [0x30]);
    assert Compose(p) + [] == [0x30, DOT, 0x30];
    assert Compose(n) + [] == [MINUS, 0x30, DOT, 0x30];
    PartsOfCompose(p, []);
    PartsOfCompose(n, []);
    assert p.intDigits + FracDigits(p) == [0x30, 0x30];
    assert DecimalValue([0x30, 0x30]) == 0 by {
      assert [0x30, 0x30][..1] == [0x30 as byte];
    }
  }

  /** So the integer 3 and the double read from `3.0` are deep-equal. */
  lemma IntDeepEqualsDecimal()
    ensures DeepEqual(Fresh(Double(Int(3))), Fresh(Double(Dbl(Decimal([0x33, DOT, 0x30])))))
  {
    ThreePointZero();
  }

  /** Every value without NaN deep-equals itself. */
  lemma {:induction false} DeepEqualReflexive(v: Value)
    requires NoNaN(v)
    ensures DeepEqual(v, v)
    decreases v
  {
    match v.payload
    case Vector(xs) =>
      forall i | 0 <= i < |xs|
        ensures DeepEqual(xs[i], xs[i])
      {
        DeepEqualReflexive(xs[i]);
      }
    case Map(m) =>
      var ks := SortedKeys(m);
      forall i | 0 <= i < |ks|
        ensures DeepEqual(m[ks[i]], m[ks[i]])
      {
        DeepEqualReflexive(m[ks[i]]);
      }
    case _ =>
  }

  /** `deep_equal` is symmetric. */
  lemma {:induction false} DeepEqualSymmetric(a: Value, b: Value)
    requires DeepEqual(a, b)
    ensures DeepEqual(b, a)
    decreases a
  {
    match a.payload
    case Vector(xs) =>
      var ys := b.payload.items;
      forall i | 0 <= i < |ys|
        ensures DeepEqual(ys[i], xs[i])
      {
        DeepEqualSymmetric(xs[i], ys[i]);
      }
    case Map(ma) =>
      var mb := b.payload.entries;
      var ka := SortedKeys(ma);
      var kb := SortedKeys(mb);
      forall i | 0 <= i < |kb|
        ensures DeepEqual(mb[kb[i]], ma[ka[i]])
      {
        DeepEqualSymmetric(ma[ka[i]], mb[kb[i]]);
      }
    case _ =>
  }

  /** A clone compares deep-equal to the original, provided the original
      holds no NaN (which equals nothing) and no empty container (which
      clones to UNDEFINED). */
  lemma {:induction false} CloneDeepEqual(v: Value)
    requires NoNaN(v) && NoEmptyContainer(v)
    ensures DeepEqual(Clone(v), v)
    decreases v
  {
    match v.payload
    case Vector(xs) =>
      forall i | 0 <= i < |xs|
        ensures DeepEqual(Clone(xs[i]), xs[i])
      {
        CloneDeepEqual(xs[i]);
      }
      CloneVectorDeepEqual(v);
    case Map(m) =>
      forall k | k in m
        ensures DeepEqual(Clone(m[k]), m[k])
      {
        CloneDeepEqual(m[k]);
      }
      CloneMapDeepEqual(v);
    case _ =>
      DeepEqualReflexive(v);
  }

  /** A cloned vector deep-equals the original when each cloned element
      does. */
  lemma CloneVectorDeepEqual(v: Value)
    requires v.payload.Vector? && |v.payload.items| > 0
    requires forall i | 0 <= i < |v.payload.items| :: DeepEqual(Clone(v.payload.items[i]), v.payload.items[i])
    ensures DeepEqual(Clone(v), v)
  {
    var xs := v.payload.items;
    var c := Clone(v).payload.items;
    assert |c| == |xs|;
    forall i | 0 <= i < |xs|
      ensures DeepEqual(c[i], xs[i])
    {
      assert c[i] == Clone(xs[i]);
    }
  }

  /** A cloned map has the keys of the original, so the same iteration
      order, and holds the clone of each value. */
  lemma CloneMapEntries(v: Value)
    requires v.payload.Map? && |v.payload.entries| > 0
    ensures var c := Clone(v).payload.entries;
      && c.Keys == v.payload.entries.Keys
      && forall k | k in c :: c[k] == Clone(v.payload.entries[k])
  {
  }

  /** A cloned map deep-equals the original when each cloned value does. */
  lemma CloneMapDeepEqual(v: Value)
    requires v.payload.Map? && |v.payload.entries| > 0
    requires forall k | k in v.payload.entries :: DeepEqual(Clone(v.payload.entries[k]), v.payload.entries[k])
    ensures DeepEqual(Clone(v), v)
  {
    CloneMapEntries(v);
    DeepEqualSameKeys(Clone(v), v);
  }

  /** Cloning a clone changes nothing. */
  lemma {:induction false} CloneIdempotent(v: Value)
    ensures Clone(Clone(v)) == Clone(v)
    decreases v
  {
    match v.payload
    case Vector(xs) =>
      if |xs| > 0 {
        forall i | 0 <= i < |xs|
          ensures Clone(Clone(xs[i])) == Clone(xs[i])
        {
          CloneIdempotent(xs[i]);
        }
        CloneVectorIdempotent(v);
      }
    case Map(m) =>
      if |m| > 0 {
        forall k | k in m
          ensures Clone(Clone(m[k])) == Clone(m[k])
        {
          CloneIdempotent(m[k]);
        }
        CloneMapIdempotent(v);
      }
    case _ =>
  }

  /** Cloning a cloned vector changes nothing when cloning a cloned
      element changes nothing. */
  lemma CloneVectorIdempotent(v: Value)
    requires v.payload.Vector? && |v.payload.items| > 0
    requires forall i | 0 <= i < |v.payload.items| :: Clone(Clone(v.payload.items[i])) == Clone(v.payload.items[i])
    ensures Clone(Clone(v)) == Clone(v)
  {
    var c := Clone(v).payload.items;
    var cc := Clone(Clone(v)).payload.items;
    CloneVectorItems(v);
    CloneVectorItems(Clone(v));
    forall i | 0 <= i < |c|
      ensures cc[i] == c[i]
    {
      assert cc[i] == Clone(Clone(v.payload.items[i]));
    }
    assert cc == c;
  }

  /** A cloned vector holds the clone of each element, in order. */
  lemma CloneVectorItems(v: Value)
    requires v.payload.Vector? && |v.payload.items| > 0
    ensures var c := Clone(v);
      && c == Fresh(Vector(c.payload.items))
      && |c.payload.items| == |v.payload.items|
      && forall i | 0 <= i < |c.payload.items| :: c.payload.items[i] == Clone(v.payload.items[i])
  {
  }

  /** Cloning a cloned map changes nothing when cloning a cloned value
      changes nothing. */
  lemma CloneMapIdempotent(v: Value)
    requires v.payload.Map? && |v.payload.entries| > 0
    requires forall k | k in v.payload.entries :: Clone(Clone(v.payload.entries[k])) == Clone(v.payload.entries[k])
    ensures Clone(Clone(v)) == Clone(v)
  {
    var c := Clone(v).payload.entries;
    var cc := Clone(Clone(v)).payload.entries;
    CloneMapEntries(v);
    CloneMapEntries(Clone(v));
    forall k | k in c
      ensures cc[k] == c[k]
    {
      assert k in v.payload.entries;
    }
    SameEntries(cc, c);
  }

  /** Two maps with the same keys and the same value under each key are
      equal. */
  lemma SameEntries(a: map<Bytes, Value>, b: map<Bytes, Value>)
    requires a.Keys == b.Keys && forall k | k in a :: a[k] == b[k]
    ensures a == b
  {
  }

  // ---------------------------------------------------------------------
  // Merge
  // ---------------------------------------------------------------------

  /** The entry `Merge` stores under `k` when both sides are MAPs: the merge
      of the two entries when `ext` has the key, unless that comes out
      UNDEFINED while `base` has the key; then a clone of `base`'s entry,
      which takes over the comments of an UNDEFINED merge result. */
  function MergedEntry(base: map<Bytes, Value>, ext: map<Bytes, Value>, k: Bytes, merged: Option<Value>): (r: Value)
    requires k in base || k in ext
    requires merged.Some? <==> k in ext
    requires merged.Some? ==> NoEmptyContainer(merged.value)
    ensures NoEmptyContainer(r)
  {
    if merged.Some? && (k !in base || Defined(merged.value)) then merged.value
    else Assign(if merged.Some? then merged.value else Nothing, Clone(base[k]))
  }

  /** `Merge(base, ext)`: a clone of `base` when `ext` is UNDEFINED; the
      key-by-key combination when both are MAPs; a clone of `ext`
      otherwise. */
  function Merge(base: Value, ext: Value): (r: Value)
    ensures !Defined(ext) ==> r == Clone(base)
    ensures Defined(ext) && !(base.payload.Map? && ext.payload.Map?) ==> r == Clone(ext)
    ensures base.payload.Map? && ext.payload.Map? ==>
              if base.payload.entries == map[] && ext.payload.entries == map[] then r == Nothing
              else r.payload.Map? && (r.pre, r.post, r.inside) == ([], [], []) &&
                   r.payload.entries.Keys == base.payload.entries.Keys + ext.payload.entries.Keys
    ensures NoEmptyContainer(r)
    decreases ext
  {
    if !Defined(ext) then Clone(base)
    else if base.payload.Map? && ext.payload.Map? then
      var be := base.payload.entries;
      var ee := ext.payload.entries;
      if be == map[] && ee == map[] then Nothing
      else
        var m := map k | k in be.Keys + ee.Keys ::
          MergedEntry(be, ee, k, if k in ee then Some(Merge(Child(base, k), ee[k])) else None);
        assert m.Keys == be.Keys + ee.Keys;
        assert |m| > 0 by {
          var k :| k in be.Keys + ee.Keys;
          assert k in m;
        }
        Fresh(Map(m))
    else Clone(ext)
  }

  /** The entry a merge of two MAPs holds under a key present in both or
      in either. */
  function MergedAt(base: Value, ext: Value, k: Bytes): Value
    requires base.payload.Map? && ext.payload.Map?
    requires k in base.payload.entries || k in ext.payload.entries
  {
    Merge(base, ext).payload.entries[k]
  }

  /** A key only `ext` has takes `ext`'s entry merged with nothing, which
      is its clone (an UNDEFINED entry is kept as it is). */
  lemma MergeTakesExtOnly(base: Value, ext: Value, k: Bytes)
    requires base.payload.Map? && ext.payload.Map?
    requires k in ext.payload.entries && k !in base.payload.entries
    ensures MergedAt(base, ext, k) == Merge(Nothing, ext.payload.entries[k])
    ensures Defined(ext.payload.entries[k]) ==> MergedAt(base, ext, k) == Clone(ext.payload.entries[k])
  {
  }

  /** A key only `base` has keeps a clone of `base`'s entry. */
  lemma MergeKeepsBaseOnly(base: Value, ext: Value, k: Bytes)
    requires base.payload.Map? && ext.payload.Map?
    requires k in base.payload.entries && k !in ext.payload.entries
    ensures MergedAt(base, ext, k) == Clone(base.payload.entries[k])
  {
    assert Assign(Nothing, Clone(base.payload.entries[k])) == Clone(base.payload.entries[k]);
  }

  /** Where both have the key, `ext`'s value is used, merged recursively
      when both entries are MAPs, unless the outcome is UNDEFINED. */
  lemma MergeExtWins(base: Value, ext: Value, k: Bytes)
    requires base.payload.Map? && ext.payload.Map?
    requires k in base.payload.entries && k in ext.payload.entries
    requires Defined(Merge(base.payload.entries[k], ext.payload.entries[k]))
    ensures MergedAt(base, ext, k) == Merge(base.payload.entries[k], ext.payload.entries[k])
  {
  }

  /** Where both have the key and `ext`'s entry is UNDEFINED, `base`'s
      value is used. */
  lemma MergeUndefinedUsesBase(base: Value, ext: Value, k: Bytes)
    requires base.payload.Map? && ext.payload.Map?
    requires k in base.payload.entries && k in ext.payload.entries
    requires !Defined(ext.payload.entries[k])
    ensures MergedAt(base, ext, k) == Clone(base.payload.entries[k])
  {
    var c := Clone(base.payload.entries[k]);
    assert Assign(c, c) == c;
  }

  /** Vectors are not merged: where `ext` holds a non-empty VECTOR, or any
      defined value that is not a MAP, the result holds `ext`'s clone. */
  lemma MergeVectorFromExt(base: Value, ext: Value, k: Bytes)
    requires base.payload.Map? && ext.payload.Map?
    requires k in ext.payload.entries
    requires var e := ext.payload.entries[k];
             Defined(e) && !e.payload.Map? && !EmptyContainer(e)
    ensures MergedAt(base, ext, k) == Clone(ext.payload.entries[k])
  {
  }

  /** Two MAPs with the same keys whose entries under each key are
      deep-equal are deep-equal. */
  lemma DeepEqualSameKeys(a: Value, b: Value)
    requires a.payload.Map? && b.payload.Map?
    requires a.payload.entries.Keys == b.payload.entries.Keys
    requires forall k | k in a.payload.entries :: DeepEqual(a.payload.entries[k], b.payload.entries[k])
    ensures DeepEqual(a, b)
  {
    var ks := SortedKeys(a.payload.entries);
    SortedKeysOfKeys(a.payload.entries, b.payload.entries);
    forall i | 0 <= i < |ks|
      ensures DeepEqual(a.payload.entries[ks[i]], b.payload.entries[ks[i]])
    {
      assert ks[i] in a.payload.entries;
    }
  }

  /** The entry that merging a MAP with itself stores under one of its
      keys. */
  lemma MergeSelfEntry(v: Value, k: Bytes)
    requires v.payload.Map? && k in v.payload.entries
    ensures var mm := Merge(v.payload.entries[k], v.payload.entries[k]);
            MergedAt(v, v, k) == if Defined(mm) then mm else Assign(mm, Clone(v.payload.entries[k]))
  {
    assert Child(v, k) == v.payload.entries[k];
  }

  /** Merging a tree with itself gives a tree deep-equal to it. */
  lemma {:induction false} MergeSelf(v: Value)
    requires NoNaN(v) && NoEmptyContainer(v)
    ensures DeepEqual(Merge(v, v), v)
    decreases v
  {
    if !Defined(v) || !v.payload.Map? {
      CloneDeepEqual(v);
    } else {
      var m := v.payload.entries;
      var rm := Merge(v, v).payload.entries;
      forall k | k in rm
        ensures DeepEqual(rm[k], m[k])
      {
        MergeSelf(m[k]);
        MergeSelfEntry(v, k);
      }
      DeepEqualSameKeys(Merge(v, v), v);
    }
  }

  // ---------------------------------------------------------------------
  // An empty container in `ext`
  // ---------------------------------------------------------------------

  /** The merge as written, where `ext` holds an empty VECTOR under a key
      `base` also has: the empty VECTOR clones to UNDEFINED, so the second
      loop stores `base`'s value again, although the documentation says
      that `ext`'s value, and `ext`'s vector, is used. */
  lemma EmptyExtKeepsBase()
    ensures var a: Bytes := [0x61];
      var five := Fresh(Double(Int(5)));
      var pair := Fresh(Vector([Fresh(Double(Int(1))), Fresh(Double(Int(2)))]));
      var none := Fresh(Vector([]));
      && MergedAt(Fresh(Map(map[a := five])), Fresh(Map(map[a := none])), a) == five
      && MergedAt(Fresh(Map(map[a := pair])), Fresh(Map(map[a := none])), a) == pair
  {
    var a: Bytes := [0x61];
    var five := Fresh(Double(Int(5)));
    var pair := Fresh(Vector([Fresh(Double(Int(1))), Fresh(Double(Int(2)))]));
    var none := Fresh(Vector([]));
    assert Merge(five, none) == Nothing;
    assert Merge(pair, none) == Nothing;
    assert Clone(pair).payload.items == pair.payload.items;
    MergeUndefinedEntry(Fresh(Map(map[a := five])), Fresh(Map(map[a := none])), a);
    MergeUndefinedEntry(Fresh(Map(map[a := pair])), Fresh(Map(map[a := none])), a);
  }

  /** Where both have the key and `ext`'s entry merges to UNDEFINED, the
      merge as written stores `base`'s clone. */
  lemma MergeUndefinedEntry(base: Value, ext: Value, k: Bytes)
    requires base.payload.Map? && ext.payload.Map?
    requires k in base.payload.entries && k in ext.payload.entries
    requires Merge(base.payload.entries[k], ext.payload.entries[k]) == Nothing
    ensures MergedAt(base, ext, k) == Clone(base.payload.entries[k])
  {
    assert Child(base, k) == base.payload.entries[k];
    assert Assign(Nothing, Clone(base.payload.entries[k])) == Clone(base.payload.entries[k]);
  }

  /** A copy that keeps an empty VECTOR or MAP, where `Clone` makes it
      UNDEFINED. */
  function CopyOf(v: Value): (r: Value)
    ensures TypeOf(r) == TypeOf(v) && Size(r) == Size(v)
    ensures !EmptyContainer(v) ==> r == Clone(v)
  {
    if EmptyContainer(v) then Fresh(v.payload) else Clone(v)
  }

  /** `Merge` as its documentation describes it: where both MAPs have a
      key and `ext`'s entry is defined, `ext`'s entry is used (merged when
      both are MAPs), even when it is an empty container; `base`'s value
      is used only where `ext` lacks the key or holds UNDEFINED there. */
  function MergeDocumented(base: Value, ext: Value): (r: Value)
    ensures !Defined(ext) ==> r == Clone(base)
    ensures Defined(ext) && !(base.payload.Map? && ext.payload.Map?) ==>
              TypeOf(r) == TypeOf(ext) && Size(r) == Size(ext)
    ensures base.payload.Map? && ext.payload.Map? ==>
              r.payload.Map? && r.payload.entries.Keys == base.payload.entries.Keys + ext.payload.entries.Keys
    decreases ext
  {
    if !Defined(ext) then Clone(base)
    else if base.payload.Map? && ext.payload.Map? then
      var be := base.payload.entries;
      var ee := ext.payload.entries;
      var m := map k | k in be.Keys + ee.Keys ::
        if k in ee && (k !in be || Defined(ee[k])) then MergeDocumented(Child(base, k), ee[k]) else Clone(be[k]);
      assert m.Keys == be.Keys + ee.Keys;
      Fresh(Map(m))
    else CopyOf(ext)
  }

  /** The entry the documented merge of two MAPs holds under a key. */
  function DocumentedAt(base: Value, ext: Value, k: Bytes): Value
    requires base.payload.Map? && ext.payload.Map?
    requires k in base.payload.entries || k in ext.payload.entries
  {
    MergeDocumented(base, ext).payload.entries[k]
  }

  /** Where both have the key and `ext`'s entry is defined, `ext`'s value
      is used, with no exception for empty containers; a VECTOR, or any
      other value that is not a MAP, is taken whole. */
  lemma DocumentedExtWins(base: Value, ext: Value, k: Bytes)
    requires base.payload.Map? && ext.payload.Map?
    requires k in base.payload.entries && k in ext.payload.entries
    requires Defined(ext.payload.entries[k])
    ensures DocumentedAt(base, ext, k) == MergeDocumented(base.payload.entries[k], ext.payload.entries[k])
    ensures var e := ext.payload.entries[k];
      !e.payload.Map? ==> DocumentedAt(base, ext, k) == CopyOf(e) &&
                          TypeOf(DocumentedAt(base, ext, k)) == TypeOf(e) && Size(DocumentedAt(base, ext, k)) == Size(e)
  {
    assert Child(base, k) == base.payload.entries[k];
  }

  /** Where `ext` holds UNDEFINED or lacks the key, `base`'s value is
      used. */
  lemma DocumentedBaseFills(base: Value, ext: Value, k: Bytes)
    requires base.payload.Map? && ext.payload.Map?
    requires k in base.payload.entries
    requires k !in ext.payload.entries || !Defined(ext.payload.entries[k])
    ensures DocumentedAt(base, ext, k) == Clone(base.payload.entries[k])
  {
  }

  /** The documented merge differs from the merge as written only where
      `ext` holds an empty container. */
  lemma {:induction false} DocumentedAgrees(base: Value, ext: Value)
    requires NoEmptyContainer(ext)
    ensures MergeDocumented(base, ext) == Merge(base, ext)
    decreases ext
  {
    if Defined(ext) && base.payload.Map? && ext.payload.Map? {
      var be := base.payload.entries;
      var ee := ext.payload.entries;
      var d := MergeDocumented(base, ext).payload.entries;
      var w := Merge(base, ext).payload.entries;
      assert |ee| > 0;
      assert d.Keys == be.Keys + ee.Keys == w.Keys;
      forall k | k in d
        ensures d[k] == w[k]
      {
        AgreesAt(base, ext, k);
      }
      SameEntries(d, w);
    }
  }

  /** One key of `DocumentedAgrees`. */
  lemma {:induction false} AgreesAt(base: Value, ext: Value, k: Bytes)
    requires NoEmptyContainer(ext) && base.payload.Map? && ext.payload.Map?
    requires k in base.payload.entries || k in ext.payload.entries
    ensures DocumentedAt(base, ext, k) == MergedAt(base, ext, k)
    decreases ext, 0
  {
    var be := base.payload.entries;
    var ee := ext.payload.entries;
    if k in ee {
      var mm := Merge(Child(base, k), ee[k]);
      assert MergedAt(base, ext, k) == MergedEntry(be, ee, k, Some(mm));
      DocumentedAgrees(Child(base, k), ee[k]);
      if k in be && !Defined(ee[k]) {
        var c := Clone(be[k]);
        assert Assign(c, c) == c;
      }
    } else {
      assert MergedAt(base, ext, k) == MergedEntry(be, ee, k, None);
      assert Assign(Nothing, Clone(be[k])) == Clone(be[k]);
    }
  }
}

=== FILE: decoder.dfy ===
/** The Hjson decoder of src/hjson_decode.cpp: a recursive-descent parser
    with one byte of look-ahead. The parser state is the C++ `Parser`
    cursor: `at`, the index of the next byte to read, and `ch`, the byte
    read last, where NUL stands both for a NUL byte and for the end of the
    input. Every reader is a function from the input and a cursor to a
    result and the cursor after it. Comments are skipped exactly as the C++
    skips them, but their text is not kept. */
module Decoder {
  import opened Bytes
  import opened Outcome
  import opened NumberLexer
  import opened Values

  datatype Parser = Parser(at: nat, ch: byte)

  predicate Valid(data: Bytes, p: Parser) {
    p.at <= |data|
  }

  /** `_resetAt`: before the first byte, with a blank as the current byte. */
  const Start: Parser := Parser(0, SPACE)

  /** What is left to read: two units per unread byte, and one more while
      the current byte is not NUL. Every `_next` that reads a byte, or
      that turns a last non-NUL byte into end of input, lowers it. */
  function Left(data: Bytes, p: Parser): nat
    requires Valid(data, p)
  {
    2 * (|data| - p.at) + (if p.ch != NUL then 1 else 0)
  }

  /** The current byte is the byte before `at` (a blank before the first
      byte), or NUL at the end of the input: what `_resetAt`, `_next` and
      `_spool` always leave. */
  predicate Synced(data: Bytes, p: Parser) {
    p.at <= |data| && ((p.ch == NUL && p.at == |data|) || p.ch == (if p.at == 0 then SPACE else data[p.at - 1]))
  }

  /** `q` is `p` or lies strictly further on. */
  predicate Stepped(data: Bytes, p: Parser, q: Parser)
    requires Valid(data, p)
  {
    Valid(data, q) && (q == p || Left(data, q) < Left(data, p))
  }

  /** `q` lies strictly further on than `p`. */
  predicate Progressed(data: Bytes, p: Parser, q: Parser)
    requires Valid(data, p)
  {
    Valid(data, q) && Left(data, q) < Left(data, p)
  }

  /** `_next`: reads the next byte if there is one, otherwise sets the
      current byte to NUL and stays at the end; it reports whether a byte
      was read. */
  function Next(data: Bytes, p: Parser): (r: (bool, Parser))
    requires Valid(data, p)
    ensures Synced(data, r.1)
    ensures r.0 <==> p.at < |data|
    ensures r.0 ==> r.1 == Parser(p.at + 1, data[p.at])
    ensures !r.0 ==> r.1 == Parser(p.at, NUL)
    ensures Stepped(data, p, r.1)
    ensures r.0 || p.ch != NUL ==> Progressed(data, p, r.1)
  {
    if p.at < |data| then (true, Parser(p.at + 1, data[p.at])) else (false, Parser(p.at, NUL))
  }

  /** The cursor after `_next`. */
  function Advance(data: Bytes, p: Parser): (q: Parser)
    requires Valid(data, p)
    ensures Synced(data, q)
    ensures Stepped(data, p, q)
    ensures p.ch != NUL ==> Progressed(data, p, q)
  {
    Next(data, p).1
  }

  /** `_peek`: the byte `offs` places after the cursor's next byte, NUL
      outside the input. */
  function Peek(data: Bytes, p: Parser, offs: int): byte {
    var pos := p.at as int + offs;
    if 0 <= pos < |data| then data[pos] else NUL
  }

  /** `_spool`: moves the cursor by `n` bytes when the target lies within
      the input, the current byte becoming the one before the target (a
      blank at the very start); otherwise nothing moves. */
  function Spool(data: Bytes, p: Parser, n: int): (q: Parser)
    requires Valid(data, p)
    ensures Synced(data, p) ==> Synced(data, q)
    ensures Valid(data, q)
  {
    var target := p.at as int + n;
    if n != 0 && 0 <= target <= |data| then
      Parser(target, if target == 0 then SPACE else data[target - 1])
    else p
  }

  predicate IsPunctuator(c: byte) {
    c == LBRACE || c == RBRACE || c == LBRACKET || c == RBRACKET || c == COMMA || c == COLON
  }

  // ---------------------------------------------------------------------
  // White space and comments
  // ---------------------------------------------------------------------

  /** `0 < c <= ' '` but not a line feed. */
  predicate IsLineWhite(c: byte) {
    IsWhite(c) && c != LF
  }

  /** `_skip` without a string: skips white space up to a line feed. */
  function SkipLineWhite(data: Bytes, p: Parser): (q: Parser)
    requires Valid(data, p)
    ensures Synced(data, p) ==> Synced(data, q)
    ensures Stepped(data, p, q)
    ensures !IsLineWhite(q.ch)
    decreases Left(data, p)
  {
    if IsLineWhite(p.ch) then SkipLineWhite(data, Advance(data, p)) else p
  }

  /** `_readIndent` with the text dropped: skips all white space. */
  function SkipWhite(data: Bytes, p: Parser): (q: Parser)
    requires Valid(data, p)
    ensures Synced(data, p) ==> Synced(data, q)
    ensures Stepped(data, p, q)
    ensures !IsWhite(q.ch)
    decreases Left(data, p)
  {
    if IsWhite(p.ch) then SkipWhite(data, Advance(data, p)) else p
  }

  /** The body of a `#` or `//` comment: up to the line feed or the end. */
  function SkipToLineEnd(data: Bytes, p: Parser): (q: Parser)
    requires Valid(data, p)
    ensures Synced(data, p) ==> Synced(data, q)
    ensures Stepped(data, p, q)
    ensures q.ch == NUL || q.ch == LF
    ensures p.ch != NUL && p.ch != LF ==> Progressed(data, p, q)
    decreases Left(data, p)
  {
    if p.ch != NUL && p.ch != LF then SkipToLineEnd(data, Advance(data, p)) else p
  }

  /** The body of a block comment: up to the closing star and slash (which
      are then read) or the end of the input. */
  function SkipBlockBody(data: Bytes, p: Parser): (q: Parser)
    requires Valid(data, p)
    ensures Synced(data, p) ==> Synced(data, q)
    ensures Stepped(data, p, q)
    decreases Left(data, p)
  {
    if p.ch != NUL && !(p.ch == STAR && Peek(data, p, 0) == SLASH) then
      SkipBlockBody(data, Advance(data, p))
    else if p.ch != NUL then Advance(data, Advance(data, p))
    else p
  }

  /** The comment starts a line comment here. */
  predicate AtLineComment(data: Bytes, p: Parser) {
    p.ch == HASH || (p.ch == SLASH && Peek(data, p, 0) == SLASH)
  }

  /** The cursor is at the start of a block comment. */
  predicate AtBlockComment(data: Bytes, p: Parser) {
    p.ch == SLASH && Peek(data, p, 0) == STAR
  }

  /** `_readComment`: skips white space and comments, stopping at a line
      feed outside a comment (reported as `true`) or at any other byte
      (reported as `false`). */
  function SkipComment(data: Bytes, p: Parser): (r: (bool, Parser))
    requires Valid(data, p)
    ensures Synced(data, p) ==> Synced(data, r.1)
    ensures Stepped(data, p, r.1)
    ensures r.0 ==> r.1.ch == LF
    ensures !r.0 ==> !IsWhite(r.1.ch) && !AtLineComment(data, r.1) && !AtBlockComment(data, r.1)
    decreases Left(data, p)
  {
    if IsWhite(p.ch) then
      if p.ch == LF then (true, p) else SkipComment(data, Advance(data, p))
    else if AtLineComment(data, p) then
      SkipComment(data, SkipToLineEnd(data, p))
    else if AtBlockComment(data, p) then
      SkipComment(data, SkipBlockBody(data, Advance(data, Advance(data, p))))
    else (false, p)
  }

  /** The loop of `_readCommentWithIndent` after its `_readIndent`. */
  function SkipCommentBlockLoop(data: Bytes, p: Parser): (q: Parser)
    requires Valid(data, p)
    ensures Synced(data, p) ==> Synced(data, q)
    ensures Stepped(data, p, q)
    ensures !IsWhite(q.ch) && !AtLineComment(data, q) && !AtBlockComment(data, q)
    decreases Left(data, p)
  {
    var (newline, p1) := SkipComment(data, p);
    if newline then SkipCommentBlockLoop(data, Advance(data, p1)) else p1
  }

  /** `_readCommentWithIndent`: all white space and comments, over any
      number of lines. */
  function SkipIndented(data: Bytes, p: Parser): (q: Parser)
    requires Valid(data, p)
    ensures Synced(data, p) ==> Synced(data, q)
    ensures Stepped(data, p, q)
    ensures !IsWhite(q.ch) && !AtLineComment(data, q) && !AtBlockComment(data, q)
  {
    SkipCommentBlockLoop(data, SkipWhite(data, p))
  }

  function SkipNewlines(data: Bytes, p: Parser): (q: Parser)
    requires Valid(data, p) && !IsLineWhite(p.ch)
    ensures Synced(data, p) ==> Synced(data, q)
    ensures Stepped(data, p, q)
    ensures !IsWhite(q.ch)
    decreases Left(data, p)
  {
    if p.ch == LF then SkipNewlines(data, SkipLineWhite(data, Advance(data, p))) else p
  }

  function SkipCommentLinesLoop(data: Bytes, p: Parser): (q: Parser)
    requires Valid(data, p)
    ensures Synced(data, p) ==> Synced(data, q)
    ensures Stepped(data, p, q)
    ensures !IsWhite(q.ch) && !AtLineComment(data, q) && !AtBlockComment(data, q)
    decreases Left(data, p)
  {
    var (newline, p1) := SkipComment(data, p);
    if newline then SkipCommentLinesLoop(data, SkipLineWhite(data, Advance(data, p1))) else p1
  }

  /** `_readCommentSkipIndent`: all white space and comments, over any
      number of lines. */
  function SkipCommentLines(data: Bytes, p: Parser): (q: Parser)
    requires Valid(data, p)
    ensures Synced(data, p) ==> Synced(data, q)
    ensures Stepped(data, p, q)
    ensures !IsWhite(q.ch) && !AtLineComment(data, q) && !AtBlockComment(data, q)
  {
    SkipCommentLinesLoop(data, SkipNewlines(data, SkipLineWhite(data, p)))
  }

  /** `_hasTrailing`: anything but white space and comments remains. */
  predicate HasTrailing(data: Bytes, p: Parser)
    requires Valid(data, p)
  {
    SkipCommentLines(data, p).ch != NUL
  }

  // ---------------------------------------------------------------------
  // Strings
  // ---------------------------------------------------------------------

  /** `_escapee`: the byte an escape letter stands for, NUL when the letter
      is not an escape. */
  function Escapee(c: byte): (r: byte)
    ensures r != NUL <==> c in {DQUOTE, SQUOTE, BACKSLASH, SLASH, 0x62, 0x66, 0x6e, 0x72, 0x74}
  {
    if c == DQUOTE || c == SQUOTE || c == BACKSLASH || c == SLASH then c
    else if c == 0x62 then BS
    else if c == 0x66 then FF
    else if c == 0x6e then LF
    else if c == 0x72 then CR
    else if c == 0x74 then TAB
    else NUL
  }

  /** `_toUtf8`: the UTF-8 encoding of a code point; code points past
      0x10FFFF are refused. */
  function ToUtf8(u: nat): (r: Option<Bytes>)
    ensures r.Some? <==> u < 0x110000
    ensures r.Some? ==> |r.value| == (if u < 0x80 then 1 else if u < 0x800 then 2 else if u < 0x10000 then 3 else 4)
  {
    if u < 0x80 then Some([u as byte])
    else if u < 0x800 then Some([(0xc0 + (u / 0x40) % 0x20) as byte, (0x80 + u % 0x40) as byte])
    else if u < 0x10000 then
      Some([(0xe0 + (u / 0x1000) % 0x10) as byte, (0x80 + (u / 0x40) % 0x40) as byte, (0x80 + u % 0x40) as byte])
    else if u < 0x110000 then
      Some([(0xf0 + (u / 0x40000) % 0x8) as byte, (0x80 + (u / 0x1000) % 0x40) as byte,
            (0x80 + (u / 0x40) % 0x40) as byte, (0x80 + u % 0x40) as byte])
    else None
  }

  /** The four hexadecimal digits of a `\u` escape, each read with
      `_next`; any other byte is a syntax error. */
  function ReadHex(data: Bytes, p: Parser, count: nat, acc: nat): (r: Result<(nat, Parser)>)
    requires Valid(data, p) && count <= 4 && acc < Pow16(4 - count)
    ensures r.Ok? && Synced(data, p) ==> Synced(data, r.value.1)
    ensures r.Ok? ==> r.value.0 < 0x10000 && Stepped(data, p, r.value.1)
    decreases count
  {
    if count == 0 then Ok((acc, p))
    else
      var q := Advance(data, p);
      if IsHexDigit(q.ch) then ReadHex(data, q, count - 1, acc * 16 + HexValue(q.ch))
      else Fail(SyntaxError)
  }

  function Pow16(n: nat): nat {
    if n == 0 then 1 else 16 * Pow16(n - 1)
  }

  /** The loop of `_readString` after the opening quote. */
  function StringLoop(data: Bytes, p: Parser, exitCh: byte, allowML: bool, res: Bytes): (r: Result<(Bytes, Parser)>)
    requires Valid(data, p)
    ensures r.Ok? && Synced(data, p) ==> Synced(data, r.value.1)
    ensures r.Ok? ==> Progressed(data, p, r.value.1)
    decreases Left(data, p)
  {
    var (more, q) := Next(data, p);
    if !more then Fail(SyntaxError)
    else if q.ch == exitCh then
      var q2 := Advance(data, q);
      if allowML && exitCh == SQUOTE && q2.ch == SQUOTE && |res| == 0 then
        ReadMLString(data, Advance(data, q2))
      else Ok((res, q2))
    else if q.ch == BACKSLASH then
      var q2 := Advance(data, q);
      if q2.ch == 0x75 then
        var h :- ReadHex(data, q2, 4, 0);
        StringLoop(data, h.1, exitCh, allowML, res + ToUtf8(h.0).value)
      else if Escapee(q2.ch) != NUL then StringLoop(data, q2, exitCh, allowML, res + [Escapee(q2.ch)])
      else Fail(SyntaxError)
    else if q.ch == LF || q.ch == CR then Fail(SyntaxError)
    else StringLoop(data, q, exitCh, allowML, res + [q.ch])
  }

  /** `_readString`, called on an opening quote: a single-line string up to
      the same quote, with escapes; with `allowML`, an empty single-quoted
      string followed by a third quote opens a multiline string instead. */
  function ReadString(data: Bytes, p: Parser, allowML: bool): (r: Result<(Bytes, Parser)>)
    requires Valid(data, p) && (p.ch == DQUOTE || p.ch == SQUOTE)
    ensures r.Ok? && Synced(data, p) ==> Synced(data, r.value.1)
    ensures r.Ok? ==> Progressed(data, p, r.value.1)
  {
    StringLoop(data, p, p.ch, allowML, [])
  }

  /** The column of the opening quotes of a multiline string: the bytes
      before them up to a line feed, a NUL or the start of the input, when
      the cursor stands one byte past the third quote. */
  function MLIndent(data: Bytes, p: Parser, indent: nat): nat
    decreases p.at as int - indent
  {
    var c := Peek(data, p, -(indent as int) - 5);
    if c == NUL || c == LF then indent else MLIndent(data, p, indent + 1)
  }

  /** `skipIndent`: up to `skip` white bytes other than a line feed. */
  function SkipIndent(data: Bytes, p: Parser, skip: nat): (q: Parser)
    requires Valid(data, p)
    ensures Synced(data, p) ==> Synced(data, q)
    ensures Stepped(data, p, q)
    decreases skip
  {
    if IsLineWhite(p.ch) && skip > 0 then SkipIndent(data, Advance(data, p), skip - 1) else p
  }

  /** `n` single quotes. */
  function Quotes(n: nat): (r: Bytes)
    ensures |r| == n && forall i | 0 <= i < n :: r[i] == SQUOTE
  {
    seq(n, _ => SQUOTE)
  }

  /** The loop of `_readMLString`: `triple` quotes seen and not yet
      written, `lastLf` telling whether the text so far ends with a line
      feed that the closing quotes would remove. */
  function MLLoop(data: Bytes, p: Parser, indent: nat, triple: nat, lastLf: bool, res: Bytes): (r: Result<(Bytes, Parser)>)
    requires Valid(data, p) && triple < 3
    requires lastLf ==> |res| > 0
    ensures r.Ok? && Synced(data, p) ==> Synced(data, r.value.1)
    ensures r.Ok? ==> Progressed(data, p, r.value.1)
    decreases Left(data, p)
  {
    if p.ch == NUL then Fail(SyntaxError)
    else if p.ch == SQUOTE then
      var q := Advance(data, p);
      if triple + 1 == 3 then Ok((if lastLf then res[..|res| - 1] else res, q))
      else MLLoop(data, q, indent, triple + 1, lastLf, res)
    else
      var flushed := res + Quotes(triple);
      var lf := lastLf && triple == 0;
      if p.ch == LF then
        MLLoop(data, SkipIndent(data, Advance(data, p), indent), indent, 0, true, flushed + [LF])
      else if p.ch != CR then
        MLLoop(data, Advance(data, p), indent, 0, false, flushed + [p.ch])
      else
        MLLoop(data, Advance(data, p), indent, 0, lf, flushed)
  }

  /** `_readMLString`, with the cursor one byte past the opening quotes:
      the rest of the opening line must be blank, each following line loses
      up to `indent` leading blanks, carriage returns are dropped, and a
      line feed right before the closing quotes is removed. */
  function ReadMLString(data: Bytes, p: Parser): (r: Result<(Bytes, Parser)>)
    requires Valid(data, p)
    ensures r.Ok? && Synced(data, p) ==> Synced(data, r.value.1)
    ensures r.Ok? ==> Progressed(data, p, r.value.1)
  {
    var indent := MLIndent(data, p, 0);
    var p1 := SkipLineWhite(data, p);
    var p2 := if p1.ch == LF then SkipIndent(data, Advance(data, p1), indent) else p1;
    MLLoop(data, p2, indent, 0, false, [])
  }

  /** The loop of `_readKeyname` for a name without quotes; `space` is the
      length of the name when the first white byte was met. */
  function KeyLoop(data: Bytes, p: Parser, name: Bytes, space: Option<nat>): (r: Result<(Bytes, Parser)>)
    requires Valid(data, p)
    ensures r.Ok? && Synced(data, p) ==> Synced(data, r.value.1)
    ensures r.Ok? ==> Stepped(data, p, r.value.1) && r.value.1.ch == COLON
    ensures r.Ok? && r.value.1 == p ==> |name| > 0
    decreases Left(data, p)
  {
    if p.ch == COLON then
      if |name| == 0 then Fail(SyntaxError)
      else if space.Some? && space.value != |name| then Fail(SyntaxError)
      else Ok((name, p))
    else if p.ch <= SPACE then
      if p.ch == NUL then Fail(SyntaxError)
      else KeyLoop(data, Advance(data, p), name, if space.None? then Some(|name|) else space)
    else if IsPunctuator(p.ch) then Fail(SyntaxError)
    else KeyLoop(data, Advance(data, p), name + [p.ch], space)
  }

  /** `_readKeyname`: a quoted key (no multiline form), or the bytes up to
      the colon, which stays unread. */
  function ReadKeyname(data: Bytes, p: Parser): (r: Result<(Bytes, Parser)>)
    requires Valid(data, p)
    ensures r.Ok? && Synced(data, p) ==> Synced(data, r.value.1)
    ensures r.Ok? ==> Progressed(data, p, r.value.1)
  {
    if p.ch == DQUOTE || p.ch == SQUOTE then ReadString(data, p, false)
    else KeyLoop(data, p, [], None)
  }

  // ---------------------------------------------------------------------
  // Quoteless values
  // ---------------------------------------------------------------------

  /** The value a quoteless token stands for, if it is a keyword or a
      number: `trimmed` is the token without trailing white space, `chf`
      its first byte. Numbers must start with a digit or a minus sign and
      are parsed from the untrimmed text. */
  function Literal(chf: byte, value: Bytes, trimmed: Bytes): (r: Option<Value>)
    ensures r.Some? ==> r.value.payload.Bool? || r.value.payload.Null? || r.value.payload.Double?
  {
    if chf == 0x66 then (if trimmed == Ascii("false") then Some(Fresh(Bool(false))) else None)
    else if chf == 0x6e then (if trimmed == Ascii("null") then Some(Fresh(Null)) else None)
    else if chf == 0x74 then (if trimmed == Ascii("true") then Some(Fresh(Bool(true))) else None)
    else if chf == MINUS || IsDigit(chf) then
      match ParseNumber(value, false)
      case Some(n) => Some(Fresh(Double(n)))
      case None => None
    else None
  }

  /** What a quoteless value can be: a keyword, a number or a string,
      never an object or an array. */
  predicate Quoteless(v: Value) {
    v.payload.Bool? || v.payload.Null? || v.payload.Double? || v.payload.String?
  }

  /** The bytes at which `_readTfnns` tests what it has read so far. */
  predicate EndsToken(data: Bytes, q: Parser) {
    q.ch == CR || q.ch == LF || q.ch == NUL ||
    q.ch == COMMA || q.ch == RBRACE || q.ch == RBRACKET || q.ch == HASH ||
    (q.ch == SLASH && (Peek(data, q, 0) == SLASH || Peek(data, q, 0) == STAR))
  }

  /** Moves the cursor back over the `back` trailing blanks of a keyword or
      number. As written, `_spool` counts back from `at`, which is one byte
      short when the last `_next` found the end of the input and did not
      move; the corrected form counts that missing byte. */
  function SpoolBack(data: Bytes, q: Parser, back: nat, advanced: bool, asWritten: bool): (r: Parser)
    requires Valid(data, q)
    ensures Synced(data, q) ==> Synced(data, r)
    ensures Valid(data, r)
  {
    if asWritten || advanced then Spool(data, q, -(back as int)) else Spool(data, q, 1 - back as int)
  }

  /** The loop of `_readTfnns`: `value` holds the bytes read so far, the
      first of them read at index `start - 1`. */
  function TfnnsLoop(data: Bytes, start: nat, value: Bytes, p: Parser, asWritten: bool): (r: Result<(Value, Parser)>)
    requires Valid(data, p) && |value| >= 1 && p.at == start + |value| - 1
    ensures r.Ok? && Synced(data, p) ==> Synced(data, r.value.1)
    ensures r.Ok? && Valid(data, r.value.1)
    ensures r.Ok? && !asWritten ==> r.value.1.at > start || r.value.1 == Parser(|data|, NUL)
    ensures r.Ok? ==> Quoteless(r.value.0)
    decreases Left(data, p)
  {
    var (advanced, q) := Next(data, p);
    var eol := q.ch == CR || q.ch == LF || q.ch == NUL;
    if EndsToken(data, q) then
      var trimmed := RTrim(value);
      var lit := Literal(value[0], value, trimmed);
      if lit.Some? then Ok((lit.value, SpoolBack(data, q, |value| - |trimmed|, advanced, asWritten)))
      else if eol then Ok((Fresh(String(trimmed)), q))
      else TfnnsLoop(data, start, value + [q.ch], q, asWritten)
    else TfnnsLoop(data, start, value + [q.ch], q, asWritten)
  }

  function ReadTfnnsWith(data: Bytes, p: Parser, asWritten: bool): (r: Result<(Value, Parser)>)
    requires Valid(data, p)
    ensures r.Ok? && Synced(data, p) ==> Synced(data, r.value.1)
    ensures r.Ok? ==> Valid(data, r.value.1)
    ensures r.Ok? && !asWritten ==> r.value.1.at > p.at || r.value.1 == Parser(|data|, NUL)
    ensures r.Ok? ==> Quoteless(r.value.0)
    ensures r.Fail? <==> IsPunctuator(p.ch)
  {
    if IsPunctuator(p.ch) then Fail(SyntaxError)
    else TfnnsLoop(data, p.at, [p.ch], p, asWritten)
  }

  /** `_readTfnns` with the end-of-input rewind corrected: a quoteless
      value that is not a punctuator. It always moves the cursor on, which
      is what lets every loop of the parser end. */
  function ReadTfnns(data: Bytes, p: Parser): (r: Result<(Value, Parser)>)
    requires Valid(data, p)
    ensures r.Ok? && Synced(data, p) ==> Synced(data, r.value.1)
    ensures r.Ok? ==> Stepped(data, p, r.value.1)
    ensures r.Ok? && p.ch != NUL ==> Progressed(data, p, r.value.1)
    ensures r.Ok? ==> Quoteless(r.value.0)
    ensures r.Fail? <==> IsPunctuator(p.ch)
  {
    ReadTfnnsWith(data, p, false)
  }

  /** `_readTfnns` as written. */
  function ReadTfnnsAsWritten(data: Bytes, p: Parser): (r: Result<(Value, Parser)>)
    requires Valid(data, p)
    ensures r.Ok? && Synced(data, p) ==> Synced(data, r.value.1)
    ensures r.Ok? ==> Valid(data, r.value.1)
    ensures r.Fail? <==> IsPunctuator(p.ch)
  {
    ReadTfnnsWith(data, p, true)
  }

  // ---------------------------------------------------------------------
  // Values, arrays and objects
  // ---------------------------------------------------------------------

  /** What `_readValue` skips after the value: comments on the same line,
      further comment lines, one optional comma and the comments after it. */
  function AfterValue(data: Bytes, p: Parser): (q: Parser)
    requires Valid(data, p)
    ensures Synced(data, p) ==> Synced(data, q)
    ensures Stepped(data, p, q)
  {
    var (newline, p1) := SkipComment(data, p);
    var p2 := if newline then SkipIndented(data, p1) else p1;
    var p3 := if p2.ch == COMMA then
                var a := Advance(data, p2);
                if newline then a else SkipComment(data, a).1
              else p2;
    SkipIndented(data, p3)
  }

  /** The reader `_readValue` chooses by the first byte: an object, an
      array, a quoted string (multiline allowed) or a quoteless value. */
  function ReadBody(data: Bytes, p: Parser): (r: Result<(Value, Parser)>)
    requires Valid(data, p)
    ensures r.Ok? && Synced(data, p) ==> Synced(data, r.value.1)
    ensures r.Ok? ==> Stepped(data, p, r.value.1)
    ensures r.Ok? && p.ch != NUL ==> Progressed(data, p, r.value.1)
    decreases Left(data, p), 3
  {
    if p.ch == LBRACE then ReadObject(data, p, false)
    else if p.ch == LBRACKET then ReadArray(data, p)
    else if p.ch == DQUOTE || p.ch == SQUOTE then
      var s :- ReadString(data, p, true);
      Ok((Fresh(String(s.0)), s.1))
    else ReadTfnns(data, p)
  }

  /** `_readValue`: comments before the value, the value, and what
      follows it up to the next value. */
  function ReadValue(data: Bytes, p: Parser): (r: Result<(Value, Parser)>)
    requires Valid(data, p)
    ensures r.Ok? && Synced(data, p) ==> Synced(data, r.value.1)
    ensures r.Ok? ==> Stepped(data, p, r.value.1)
    ensures r.Ok? && p.ch != NUL ==> Progressed(data, p, r.value.1)
    decreases Left(data, p), 4
  {
    var p1 := SkipCommentLines(data, p);
    var v :- ReadBody(data, p1);
    Ok((v.0, AfterValue(data, v.1)))
  }

  /** `_readArray`, on an opening bracket. */
  function ReadArray(data: Bytes, p: Parser): (r: Result<(Value, Parser)>)
    requires Valid(data, p) && p.ch == LBRACKET
    ensures r.Ok? && Synced(data, p) ==> Synced(data, r.value.1)
    ensures r.Ok? ==> Progressed(data, p, r.value.1)
    ensures r.Ok? ==> r.value.0.payload.Vector?
    decreases Left(data, p), 2
  {
    var p1 := SkipIndented(data, SkipComment(data, Advance(data, p)).1);
    if p1.ch == RBRACKET then Ok((Fresh(Vector([])), Advance(data, p1)))
    else ReadElements(data, p1, [])
  }

  /** The element loop of `_readArray`: values until a closing bracket;
      the end of the input before it is a syntax error. */
  function ReadElements(data: Bytes, p: Parser, items: seq<Value>): (r: Result<(Value, Parser)>)
    requires Valid(data, p)
    ensures r.Ok? && Synced(data, p) ==> Synced(data, r.value.1)
    ensures r.Ok? ==> Progressed(data, p, r.value.1)
    ensures r.Ok? ==> r.value.0.payload.Vector?
    decreases Left(data, p), 5
  {
    if p.ch == NUL then Fail(SyntaxError)
    else
      var v :- ReadValue(data, p);
      if v.1.ch == RBRACKET then Ok((Fresh(Vector(items + [v.0])), Advance(data, v.1)))
      else ReadElements(data, v.1, items + [v.0])
  }

  /** `_readObject`: on an opening brace, or, for the root object without
      braces, anywhere. */
  function ReadObject(data: Bytes, p: Parser, withoutBraces: bool): (r: Result<(Value, Parser)>)
    requires Valid(data, p) && (withoutBraces || p.ch == LBRACE)
    ensures r.Ok? && Synced(data, p) ==> Synced(data, r.value.1)
    ensures r.Ok? ==> Stepped(data, p, r.value.1)
    ensures r.Ok? && p.ch != NUL ==> Progressed(data, p, r.value.1)
    ensures r.Ok? ==> r.value.0.payload.Map?
    decreases Left(data, p), 2
  {
    var p1 := if withoutBraces then p else SkipComment(data, Advance(data, p)).1;
    var p2 := SkipIndented(data, p1);
    if p2.ch == RBRACE && !withoutBraces then Ok((Fresh(Map(map[])), Advance(data, p2)))
    else ReadMembers(data, p2, map[], withoutBraces)
  }

  /** One member of `_readObject`'s loop: a key, the comments up to the
      colon, the colon and a value. */
  function ReadMember(data: Bytes, p: Parser): (r: Result<(Bytes, Value, Parser)>)
    requires Valid(data, p)
    ensures r.Ok? && Synced(data, p) ==> Synced(data, r.value.2)
    ensures r.Ok? ==> Progressed(data, p, r.value.2)
    decreases Left(data, p), 0
  {
    var k :- ReadKeyname(data, p);
    var p1 := SkipCommentLines(data, k.1);
    if p1.ch != COLON then Fail(SyntaxError)
    else
      var v :- ReadValue(data, Advance(data, p1));
      Ok((k.0, v.0, v.1))
  }

  /** The member loop of `_readObject`: members until a closing brace (or,
      without braces, the end of the input). A repeated key replaces the
      earlier value. */
  function ReadMembers(data: Bytes, p: Parser, members: map<Bytes, Value>, withoutBraces: bool): (r: Result<(Value, Parser)>)
    requires Valid(data, p)
    ensures r.Ok? && Synced(data, p) ==> Synced(data, r.value.1)
    ensures r.Ok? ==> Stepped(data, p, r.value.1)
    ensures r.Ok? && p.ch != NUL ==> Progressed(data, p, r.value.1)
    ensures r.Ok? ==> r.value.0.payload.Map?
    decreases Left(data, p), 1
  {
    if p.ch == NUL then
      if withoutBraces then Ok((Fresh(Map(members)), p)) else Fail(SyntaxError)
    else
      var m :- ReadMember(data, p);
      var members' := members[m.0 := m.1];
      if m.2.ch == RBRACE && !withoutBraces then Ok((Fresh(Map(members')), Advance(data, m.2)))
      else ReadMembers(data, m.2, members', withoutBraces)
  }

  /** `_rootValue` on the whole input: a braced object or bracketed array
      if the input starts with one; otherwise an object without braces if
      that reads without error and without trailing content; otherwise a
      single value. Content after the root is a syntax error. */
  function Unmarshal(data: Bytes): (r: Result<Value>)
    ensures r.Ok? && SkipIndented(data, Start).ch == LBRACE ==> r.value.payload.Map?
    ensures r.Ok? && SkipIndented(data, Start).ch == LBRACKET ==> r.value.payload.Vector?
  {
    var p := SkipIndented(data, Start);
    if p.ch == LBRACE || p.ch == LBRACKET then
      var v :- if p.ch == LBRACE then ReadObject(data, p, false) else ReadArray(data, p);
      var q := SkipIndented(data, SkipComment(data, v.1).1);
      if HasTrailing(data, q) then Fail(SyntaxError) else Ok(v.0)
    else
      var braceless := ReadObject(data, Start, true);
      if braceless.Ok? && !HasTrailing(data, braceless.value.1) then Ok(braceless.value.0)
      else
        var v :- ReadValue(data, SkipIndented(data, Start));
        if HasTrailing(data, v.1) then Fail(SyntaxError) else Ok(v.0)
  }
}

=== FILE: decoder_facts.dfy ===
/** Properties of the decoder of src/hjson_decode.cpp: what the string,
    key and quoteless readers accept and refuse, what the container loops
    keep, and how the root is chosen. */
module DecoderFacts {
  import opened Bytes
  import opened Outcome
  import opened NumberLexer
  import opened Values
  import opened Decoder
  import opened Encoder

  // ---------------------------------------------------------------------
  // Escapes
  // ---------------------------------------------------------------------

  /** `_escapee` reads every two-byte escape of `_meta` back as the byte
      it was written for. */
  lemma EscapeeInvertsMeta(c: byte)
    requires Meta(c).Some?
    ensures Escapee(Meta(c).value[1]) == c
  {
  }

  /** Conversely, every escape letter but the two the encoder never writes
      (the single quote and the slash) is what `_meta` writes for the byte
      it stands for. */
  lemma MetaInvertsEscapee(l: byte)
    requires Escapee(l) != NUL && l != SQUOTE && l != SLASH
    ensures Meta(Escapee(l)) == Some([BACKSLASH, l])
  {
  }

  /** A backslash followed by a byte that is neither `u` nor an escape
      letter is a syntax error. */
  lemma UnknownEscapeFails(data: Bytes, i: nat, c: byte, exitCh: byte, allowML: bool, res: Bytes)
    requires i + 1 < |data| && data[i] == BACKSLASH && exitCh != BACKSLASH
    requires data[i + 1] != 0x75 && Escapee(data[i + 1]) == NUL
    ensures StringLoop(data, Parser(i, c), exitCh, allowML, res) == Fail(SyntaxError)
  {
  }

  /** A `\u` escape needs four hexadecimal digits: a byte among the next
      four that is not one, or the end of the input before them, fails. */
  lemma {:induction false} ReadHexRejects(data: Bytes, p: Parser, count: nat, acc: nat, k: nat)
    requires Valid(data, p) && count <= 4 && acc < Pow16(4 - count) && k < count
    requires forall j | p.at <= j < p.at + k :: j < |data| && IsHexDigit(data[j])
    requires p.at + k >= |data| || !IsHexDigit(data[p.at + k])
    ensures ReadHex(data, p, count, acc).Fail?
    decreases count
  {
    if k > 0 {
      assert p.at < |data| && IsHexDigit(data[p.at]);
      var d := data[p.at];
      ReadHexRejects(data, Parser(p.at + 1, d), count - 1, acc * 16 + HexValue(d), k - 1);
    }
  }

  // ---------------------------------------------------------------------
  // Single-line strings
  // ---------------------------------------------------------------------

  /** A byte the string loop copies as it is. */
  predicate Plain(c: byte, exitCh: byte) {
    c != exitCh && c != BACKSLASH && c != LF && c != CR
  }

  /** The bytes from `i` up to `k` are all plain. */
  predicate PlainRun(data: Bytes, i: nat, k: nat, exitCh: byte) {
    i <= k <= |data| && forall j | i <= j < k :: Plain(data[j], exitCh)
  }

  /** A raw line feed or carriage return inside a single-line string is a
      syntax error, however many plain bytes come before it. */
  lemma {:induction false} RawLineBreakFails(data: Bytes, i: nat, k: nat, c: byte, exitCh: byte, allowML: bool, res: Bytes)
    requires PlainRun(data, i, k, exitCh) && k < |data| && IsBreak(data[k]) && !IsBreak(exitCh)
    ensures StringLoop(data, Parser(i, c), exitCh, allowML, res) == Fail(SyntaxError)
    decreases k - i
  {
    if i < k {
      RawLineBreakFails(data, i + 1, k, data[i], exitCh, allowML, res + [data[i]]);
    }
  }

  /** The end of the input before the closing quote is a syntax error. */
  lemma {:induction false} UnclosedStringFails(data: Bytes, i: nat, c: byte, exitCh: byte, allowML: bool, res: Bytes)
    requires PlainRun(data, i, |data|, exitCh)
    ensures StringLoop(data, Parser(i, c), exitCh, allowML, res) == Fail(SyntaxError)
    decreases |data| - i
  {
    if i < |data| {
      UnclosedStringFails(data, i + 1, data[i], exitCh, allowML, res + [data[i]]);
    }
  }

  /** Plain bytes are copied unchanged up to the closing quote, which is
      read. */
  lemma {:induction false} PlainStringRead(data: Bytes, i: nat, k: nat, c: byte, exitCh: byte, allowML: bool, res: Bytes)
    requires PlainRun(data, i, k, exitCh) && k < |data| && data[k] == exitCh
    requires !(allowML && exitCh == SQUOTE && |res + data[i..k]| == 0 && k + 1 < |data| && data[k + 1] == SQUOTE)
    ensures StringLoop(data, Parser(i, c), exitCh, allowML, res) ==
            Ok((res + data[i..k], Advance(data, Parser(k + 1, exitCh))))
    decreases k - i
  {
    if i < k {
      assert res + data[i..k] == (res + [data[i]]) + data[i + 1..k];
      PlainStringRead(data, i + 1, k, data[i], exitCh, allowML, res + [data[i]]);
    } else {
      assert res + data[i..k] == res;
    }
  }

  // ---------------------------------------------------------------------
  // Where multiline strings start
  // ---------------------------------------------------------------------

  /** Three single quotes open a multiline string only when the caller
      allows it (values do, keys do not): with `allowML`, the reader goes
      on with `_readMLString` after the third quote; without, it reads the
      empty string and leaves the third quote unread. */
  lemma ThreeQuotes(data: Bytes, i: nat)
    requires i + 2 < |data| && data[i] == SQUOTE && data[i + 1] == SQUOTE && data[i + 2] == SQUOTE
    ensures ReadString(data, Parser(i + 1, SQUOTE), true) == ReadMLString(data, Advance(data, Parser(i + 3, SQUOTE)))
    ensures ReadString(data, Parser(i + 1, SQUOTE), false) == Ok(([], Parser(i + 3, SQUOTE)))
    ensures ReadKeyname(data, Parser(i + 1, SQUOTE)) == Ok(([], Parser(i + 3, SQUOTE)))
  {
  }

  // ---------------------------------------------------------------------
  // Key names
  // ---------------------------------------------------------------------

  /** A byte a name without quotes can hold. */
  predicate NameByte(c: byte) {
    SPACE < c && !IsPunctuator(c)
  }

  /** A name read without quotes is never empty and holds neither white
      space (nor any byte up to a blank) nor a punctuator; it ends at the
      colon, which stays unread. */
  lemma {:induction false} KeyLoopName(data: Bytes, p: Parser, name: Bytes, space: Option<nat>)
    requires Valid(data, p)
    requires forall j | 0 <= j < |name| :: NameByte(name[j])
    requires KeyLoop(data, p, name, space).Ok?
    ensures var r := KeyLoop(data, p, name, space).value;
      |r.0| > 0 && (forall j | 0 <= j < |r.0| :: NameByte(r.0[j])) && r.1.ch == COLON
    decreases Left(data, p)
  {
    if p.ch != COLON {
      if p.ch <= SPACE {
        KeyLoopName(data, Advance(data, p), name, if space.None? then Some(|name|) else space);
      } else {
        KeyLoopName(data, Advance(data, p), name + [p.ch], space);
      }
    }
  }

  /** An empty name before the colon, the end of the input and a
      punctuator all fail the key loop. */
  lemma KeyLoopRefuses(data: Bytes, p: Parser, space: Option<nat>)
    requires Valid(data, p)
    ensures p.ch == COLON ==> KeyLoop(data, p, [], space) == Fail(SyntaxError)
    ensures p.ch == NUL ==> forall name :: KeyLoop(data, p, name, space) == Fail(SyntaxError)
    ensures p.ch != COLON && IsPunctuator(p.ch) ==> forall name :: KeyLoop(data, p, name, space) == Fail(SyntaxError)
  {
  }

  /** White space inside a name fails (`a b:`), white space just before
      the colon does not (`a :` reads as `a`). */
  lemma KeyLoopSpaces()
    ensures KeyLoop([0x61, SPACE, 0x62, COLON], Parser(1, 0x61), [], None) == Fail(SyntaxError)
    ensures KeyLoop([0x61, SPACE, COLON], Parser(1, 0x61), [], None) == Ok(([0x61], Parser(3, COLON)))
  {
    InnerSpace();
    SpaceBeforeColon();
  }

  lemma InnerSpace()
    ensures KeyLoop([0x61, SPACE, 0x62, COLON], Parser(1, 0x61), [], None) == Fail(SyntaxError)
  {
    var data: Bytes := [0x61, SPACE, 0x62, COLON];
    assert KeyLoop(data, Parser(4, COLON), [0x61, 0x62], Some(1)) == Fail(SyntaxError);
    assert KeyLoop(data, Parser(3, 0x62), [0x61], Some(1)) == KeyLoop(data, Parser(4, COLON), [0x61] + [0x62], Some(1));
    assert [0x61 as byte] + [0x62 as byte] == [0x61 as byte, 0x62];
    assert KeyLoop(data, Parser(2, SPACE), [0x61], None) == KeyLoop(data, Parser(3, 0x62), [0x61], Some(1));
    assert KeyLoop(data, Parser(1, 0x61), [], None) == KeyLoop(data, Parser(2, SPACE), [] + [0x61], None);
    assert [] + [0x61 as byte] == [0x61 as byte];
  }

  lemma SpaceBeforeColon()
    ensures KeyLoop([0x61, SPACE, COLON], Parser(1, 0x61), [], None) == Ok(([0x61], Parser(3, COLON)))
  {
    var data: Bytes := [0x61, SPACE, COLON];
    assert KeyLoop(data, Parser(3, COLON), [0x61], Some(1)) == Ok(([0x61], Parser(3, COLON)));
    assert KeyLoop(data, Parser(2, SPACE), [0x61], None) == KeyLoop(data, Parser(3, COLON), [0x61], Some(1));
    assert KeyLoop(data, Parser(1, 0x61), [], None) == KeyLoop(data, Parser(2, SPACE), [] + [0x61], None);
    assert [] + [0x61 as byte] == [0x61 as byte];
  }

  // ---------------------------------------------------------------------
  // Quoteless values: the rewind at the end of the input
  // ---------------------------------------------------------------------

  /** The text `1` and a blank, with the cursor on the `1`. */
  const OneBlank: Bytes := [0x31, SPACE]

  lemma OneBlankIsOne()
    ensures ParseNumber(OneBlank, false) == Some(Int(1))
  {
    var p := Parts(false, [0x31], None, None);
    assert OneBlank == Compose(p) + [SPACE] + [];
    assert DecimalValue([0x31]) == 1;
    ParseComposed(p, [SPACE], [], false);
  }

  /** The number token `1` followed by a blank and the end of the input.
      As written, `_readTfnns` spools back over the blank from a cursor
      that the last `_next` did not move, and lands on the `1` it started
      from: inside an array (`[1 `), `_readArray` would call it again at
      the same place without end. */
  lemma TfnnsAsWrittenStalls()
    ensures ReadTfnnsAsWritten(OneBlank, Parser(1, 0x31)) == Ok((Fresh(Double(Int(1))), Parser(1, 0x31)))
  {
    TfnnsEnd(true);
  }

  /** Corrected, the rewind counts the byte the last `_next` did not read,
      and the cursor stays at the end of the input. */
  lemma TfnnsCorrectedMoves()
    ensures ReadTfnns(OneBlank, Parser(1, 0x31)) == Ok((Fresh(Double(Int(1))), Parser(2, NUL)))
  {
    TfnnsEnd(false);
  }

  lemma TfnnsEnd(asWritten: bool)
    ensures ReadTfnnsWith(OneBlank, Parser(1, 0x31), asWritten) ==
            Ok((Fresh(Double(Int(1))), if asWritten then Parser(1, 0x31) else Parser(2, NUL)))
  {
    var data := OneBlank;
    OneBlankIsOne();
    assert RTrim(OneBlank) == [0x31];
    assert Literal(0x31, OneBlank, [0x31]) == Some(Fresh(Double(Int(1))));
    assert [0x31] + [SPACE] == OneBlank;
    assert TfnnsLoop(data, 1, [0x31], Parser(1, 0x31), asWritten) ==
           TfnnsLoop(data, 1, [0x31] + [SPACE], Parser(2, SPACE), asWritten);
  }

  // ---------------------------------------------------------------------
  // Quoteless values: what is read
  // ---------------------------------------------------------------------

  /** The cursor after `_next` has read the byte at index `e`, or has
      found the end of the input there. */
  function ReadTo(data: Bytes, e: nat): Parser
    requires e <= |data|
  {
    if e < |data| then Parser(e + 1, data[e]) else Parser(|data|, NUL)
  }

  /** `q` lies just after the first `k` bytes (at the end of the input
      when `k` lies beyond it), with the byte before it current or NUL at
      the end. */
  predicate Behind(data: Bytes, q: Parser, k: nat) {
    Synced(data, q) && q.at == if k <= |data| then k else |data|
  }

  /** A quoteless token that starts with `c` and continues with the bytes
      from `start` up to `j`. */
  function Token(c: byte, data: Bytes, start: nat, j: nat): Bytes
    requires start <= j <= |data|
  {
    [c] + data[start..j]
  }

  predicate IsEolByte(b: byte) {
    b == CR || b == LF || b == NUL
  }

  /** `_readTfnns` reads on past the byte at `j`: if that byte may end the
      token, the token so far is no keyword or number and the byte does
      not end the line. */
  predicate ReadsOn(data: Bytes, c: byte, start: nat, j: nat)
    requires start <= j < |data|
  {
    var v := Token(c, data, start, j);
    EndsToken(data, ReadTo(data, j)) ==> Literal(c, v, RTrim(v)).None? && !IsEolByte(data[j])
  }

  /** The loop of `_readTfnns` takes in every byte it reads on past. */
  lemma {:induction false} TfnnsRun(data: Bytes, c: byte, start: nat, q: Parser, e: nat, asWritten: bool)
    requires start <= q.at <= e <= |data|
    requires forall j | q.at <= j < e :: ReadsOn(data, c, start, j)
    ensures TfnnsLoop(data, start, Token(c, data, start, q.at), q, asWritten) ==
            TfnnsLoop(data, start, Token(c, data, start, e), if e == q.at then q else Parser(e, data[e - 1]), asWritten)
    decreases e - q.at
  {
    if q.at < e {
      var v := Token(c, data, start, q.at);
      var q' := ReadTo(data, q.at);
      assert ReadsOn(data, c, start, q.at);
      assert v + [q'.ch] == Token(c, data, start, q'.at);
      TfnnsRun(data, c, start, q', e, asWritten);
    }
  }

  /** The stop of `_readTfnns` on a keyword or number: a token that reads
      on up to index `e`, where the next byte may end it and the token is
      then a keyword or a number, is that keyword or number, and the
      cursor is left just after it, its trailing blanks given back. */
  lemma TfnnsLiteral(data: Bytes, p: Parser, e: nat)
    requires p.at <= e <= |data| && !IsPunctuator(p.ch)
    requires forall j | p.at <= j < e :: ReadsOn(data, p.ch, p.at, j)
    requires EndsToken(data, ReadTo(data, e))
    requires var v := Token(p.ch, data, p.at, e); Literal(p.ch, v, RTrim(v)).Some?
    ensures var v := Token(p.ch, data, p.at, e); var t := RTrim(v); var r := ReadTfnns(data, p);
      r.Ok? && r.value.0 == Literal(p.ch, v, t).value && Behind(data, r.value.1, p.at + |t|) &&
      (|t| == |v| && e < |data| ==> r.value.1 == ReadTo(data, e))
  {
    assert Token(p.ch, data, p.at, p.at) == [p.ch];
    TfnnsRun(data, p.ch, p.at, p, e, false);
    TfnnsStops(data, p, e);
  }

  /** What the loop of `_readTfnns` returns at a byte that may end the
      token, when the token stops there. */
  lemma TfnnsStops(data: Bytes, p: Parser, e: nat)
    requires p.at <= e <= |data|
    requires EndsToken(data, ReadTo(data, e))
    ensures var v := Token(p.ch, data, p.at, e); var t := RTrim(v); var lit := Literal(p.ch, v, t);
      var qe := if e == p.at then p else Parser(e, data[e - 1]);
      var r := TfnnsLoop(data, p.at, v, qe, false);
      (lit.Some? ==> r.Ok? && r.value.0 == lit.value && Behind(data, r.value.1, p.at + |t|) &&
                     (|t| == |v| && e < |data| ==> r.value.1 == ReadTo(data, e))) &&
      (lit.None? && IsEolByte(ReadTo(data, e).ch) ==> r == Ok((Fresh(String(t)), ReadTo(data, e))))
  {
    var v := Token(p.ch, data, p.at, e);
    var t := RTrim(v);
    assert v[0] == p.ch;
    var qe := if e == p.at then p else Parser(e, data[e - 1]);
    assert Decoder.Next(data, qe) == (e < |data|, ReadTo(data, e));
    if Literal(p.ch, v, t).Some? {
      assert |t| >= 1;
      SpoolBehind(data, e, p.at + |t|);
    }
  }

  /** Giving back the bytes after the first `k` from the cursor after
      index `e` leaves the cursor just after those `k` bytes. */
  lemma SpoolBehind(data: Bytes, e: nat, k: nat)
    requires 1 <= k <= e + 1 && e <= |data|
    ensures Behind(data, SpoolBack(data, ReadTo(data, e), e + 1 - k, e < |data|, false), k)
  {
  }

  /** The stop of `_readTfnns` on a string: a token that reads on up to
      the end of its line is the string of its bytes without trailing
      blanks, and the cursor is left on the line end. */
  lemma TfnnsString(data: Bytes, p: Parser, e: nat)
    requires p.at <= e <= |data| && !IsPunctuator(p.ch)
    requires forall j | p.at <= j < e :: ReadsOn(data, p.ch, p.at, j)
    requires e == |data| || IsEolByte(data[e])
    requires var v := Token(p.ch, data, p.at, e); Literal(p.ch, v, RTrim(v)).None?
    ensures ReadTfnns(data, p) == Ok((Fresh(String(RTrim(Token(p.ch, data, p.at, e)))), ReadTo(data, e)))
  {
    assert Token(p.ch, data, p.at, p.at) == [p.ch];
    TfnnsRun(data, p.ch, p.at, p, e, false);
    TfnnsStops(data, p, e);
  }

  /** Which quoteless tokens `Literal` takes for a keyword or a number:
      exactly `true`, `false` and `null` (trailing blanks aside), and
      exactly the tokens that start with a digit or a minus sign and that
      `ParseNumber` reads in full. */
  lemma LiteralCases(c: byte, v: Bytes, t: Bytes)
    ensures Literal(c, v, t) == Some(Fresh(Bool(true))) <==> c == 0x74 && t == Ascii("true")
    ensures Literal(c, v, t) == Some(Fresh(Bool(false))) <==> c == 0x66 && t == Ascii("false")
    ensures Literal(c, v, t) == Some(Fresh(Null)) <==> c == 0x6e && t == Ascii("null")
    ensures (exists n :: Literal(c, v, t) == Some(Fresh(Double(n)))) <==>
              (c == MINUS || IsDigit(c)) && ParseNumber(v, false).Some?
    ensures (c == MINUS || IsDigit(c)) && ParseNumber(v, false).Some? ==>
              Literal(c, v, t) == Some(Fresh(Double(ParseNumber(v, false).value)))
  {
  }

  /** A single digit is the integer it stands for. */
  lemma OneDigitNumber(d: byte)
    requires IsDigit(d)
    ensures ParseNumber([d], false) == Some(Int(d as int - 0x30))
  {
    var p := Parts(false, [d], None, None);
    assert Compose(p) + [] + [] == [d];
    assert DecimalValue([d]) == d as int - 0x30;
    ParseComposed(p, [], [], false);
  }

  /** A one-digit token ended by a comma, a closing bracket or a line
      feed is that integer, and the cursor stops on the byte that ends it. */
  lemma OneDigitToken(data: Bytes, i: nat)
    requires 0 < i < |data| && IsDigit(data[i - 1])
    requires data[i] == COMMA || data[i] == RBRACKET || data[i] == LF
    ensures ReadTfnns(data, Parser(i, data[i - 1])) == Ok((Fresh(Double(Int(data[i - 1] as int - 0x30))), Parser(i + 1, data[i])))
  {
    var d := data[i - 1];
    OneDigitNumber(d);
    assert Token(d, data, i, i) == [d];
    assert RTrim([d]) == [d];
    TfnnsLiteral(data, Parser(i, d), i);
  }

  /** On a byte that is neither white space nor the start of a comment,
      the skipping readers stay where they are. */
  lemma Significant(data: Bytes, p: Parser)
    requires Valid(data, p) && !IsWhite(p.ch) && !AtLineComment(data, p) && !AtBlockComment(data, p)
    ensures SkipComment(data, p) == (false, p)
    ensures SkipIndented(data, p) == p
    ensures SkipCommentLines(data, p) == p
  {
  }

  /** A one-digit value inside an array, followed by a closing bracket, or
      by a comma or a line feed and then a digit or a closing bracket: the
      value is that integer and the cursor stops on the byte after the
      separator. */
  lemma DigitElement(data: Bytes, i: nat, j: nat)
    requires 0 < i < |data| && IsDigit(data[i - 1])
    requires data[i] == RBRACKET ||
             ((data[i] == COMMA || data[i] == LF) && i + 1 < |data| && (IsDigit(data[i + 1]) || data[i + 1] == RBRACKET))
    requires j == if data[i] == RBRACKET then i + 1 else i + 2
    ensures j <= |data|
    ensures ReadValue(data, Parser(i, data[i - 1])) == Ok((Fresh(Double(Int(data[i - 1] as int - 0x30))), Parser(j, data[j - 1])))
  {
    var p := Parser(i, data[i - 1]);
    Significant(data, p);
    OneDigitToken(data, i);
    var q := Parser(i + 1, data[i]);
    if data[i] == RBRACKET {
      Significant(data, q);
    } else {
      var a := Parser(i + 2, data[i + 1]);
      Significant(data, a);
      if data[i] == LF {
        assert SkipComment(data, q) == (true, q);
        assert SkipWhite(data, q) == a;
      }
    }
  }

  // ---------------------------------------------------------------------
  // Containers
  // ---------------------------------------------------------------------

  /** The element loop keeps the elements read so far, in order, and adds
      at least one. */
  lemma {:induction false} ElementsKept(data: Bytes, p: Parser, items: seq<Value>)
    requires Valid(data, p) && ReadElements(data, p, items).Ok?
    ensures var r := ReadElements(data, p, items).value.0.payload.items;
      |items| < |r| && r[..|items|] == items
    decreases Left(data, p)
  {
    var x, q := ElementsStep(data, p, items);
    if q.ch != RBRACKET {
      ElementsKept(data, q, items + [x]);
      PrefixOfLonger(items, x, ReadElements(data, q, items + [x]).value.0.payload.items);
    }
  }

  /** One element read by the element loop. */
  lemma ElementsStep(data: Bytes, p: Parser, items: seq<Value>) returns (x: Value, q: Parser)
    requires Valid(data, p) && ReadElements(data, p, items).Ok?
    ensures Valid(data, q) && Left(data, q) < Left(data, p)
    ensures q.ch == RBRACKET ==> ReadElements(data, p, items) == Ok((Fresh(Vector(items + [x])), Advance(data, q)))
    ensures q.ch != RBRACKET ==> ReadElements(data, p, items) == ReadElements(data, q, items + [x])
  {
    var v := ReadValue(data, p).value;
    x, q := v.0, v.1;
  }

  lemma PrefixOfLonger(items: seq<Value>, x: Value, r: seq<Value>)
    requires |items| + 1 < |r| && r[..|items| + 1] == items + [x]
    ensures |items| < |r| && r[..|items|] == items
  {
    assert r[..|items|] == r[..|items| + 1][..|items|];
  }

  /** The member loop keeps every key read so far: a later member with the
      same key replaces the value, never the key. */
  lemma {:induction false} MembersKept(data: Bytes, p: Parser, members: map<Bytes, Value>, withoutBraces: bool)
    requires Valid(data, p) && ReadMembers(data, p, members, withoutBraces).Ok?
    ensures members.Keys <= ReadMembers(data, p, members, withoutBraces).value.0.payload.entries.Keys
    decreases Left(data, p)
  {
    if p.ch != NUL {
      var m := ReadMember(data, p).value;
      if !(m.2.ch == RBRACE && !withoutBraces) {
        MembersKept(data, m.2, members[m.0 := m.1], withoutBraces);
      }
    }
  }

  /** The member loop's result is the members it started with, overridden
      by the members it reads: whether it succeeds, where it stops and
      what it reads do not depend on the members it started with. */
  lemma {:induction false} MembersOverride(data: Bytes, p: Parser, members: map<Bytes, Value>, withoutBraces: bool)
    requires Valid(data, p)
    ensures var r := ReadMembers(data, p, members, withoutBraces);
      var r0 := ReadMembers(data, p, map[], withoutBraces);
      (r.Ok? <==> r0.Ok?) &&
      (r.Ok? ==> r.value.1 == r0.value.1 && r.value.0.payload.entries == members + r0.value.0.payload.entries)
    decreases Left(data, p)
  {
    if p.ch == NUL {
      assert members + map[] == members;
    } else if ReadMember(data, p).Ok? {
      var m := ReadMember(data, p).value;
      var one := map[m.0 := m.1];
      OverrideAssoc(members, m.0, m.1, ReadMembers(data, m.2, map[], withoutBraces));
      if !(m.2.ch == RBRACE && !withoutBraces) {
        MembersOverride(data, m.2, members[m.0 := m.1], withoutBraces);
        MembersOverride(data, m.2, one, withoutBraces);
      }
    }
  }

  /** Adding one entry and then a read map is adding the entry and the
      read map at once. */
  lemma OverrideAssoc(a: map<Bytes, Value>, k: Bytes, v: Value, r: Result<(Value, Parser)>)
    ensures a + map[k := v] == a[k := v]
    ensures r.Ok? && r.value.0.payload.Map? ==>
      a + (map[k := v] + r.value.0.payload.entries) == a[k := v] + r.value.0.payload.entries
  {
  }

  /** A member whose key comes again later loses to the later one: the
      result holds the first member's value only when no later member
      has its key. */
  lemma LaterMemberWins(data: Bytes, p: Parser, members: map<Bytes, Value>, withoutBraces: bool)
    requires Valid(data, p) && p.ch != NUL && ReadMembers(data, p, members, withoutBraces).Ok?
    ensures ReadMember(data, p).Ok?
    ensures var m := ReadMember(data, p).value;
      var entries := ReadMembers(data, p, members, withoutBraces).value.0.payload.entries;
      var closes := m.2.ch == RBRACE && !withoutBraces;
      var rest := ReadMembers(data, m.2, map[], withoutBraces);
      var later := if closes || rest.Fail? then map[] else rest.value.0.payload.entries;
      (!closes ==> rest.Ok?) && m.0 in entries && entries[m.0] == (if m.0 in later then later[m.0] else m.1) &&
      entries == members[m.0 := m.1] + later
  {
    MembersSplit(data, p, members, withoutBraces);
    var m := ReadMember(data, p).value;
    var rest := ReadMembers(data, m.2, map[], withoutBraces);
    var later: map<Bytes, Value> := if (m.2.ch == RBRACE && !withoutBraces) || rest.Fail? then map[] else rest.value.0.payload.entries;
    OverrideLookup(members[m.0 := m.1], later, m.0);
  }

  /** The entries of a member loop are the first member over `members`,
      overridden by whatever the rest of the loop reads on its own. */
  lemma MembersSplit(data: Bytes, p: Parser, members: map<Bytes, Value>, withoutBraces: bool)
    requires Valid(data, p) && p.ch != NUL && ReadMembers(data, p, members, withoutBraces).Ok?
    ensures ReadMember(data, p).Ok?
    ensures var m := ReadMember(data, p).value;
      var entries := ReadMembers(data, p, members, withoutBraces).value.0.payload.entries;
      var closes := m.2.ch == RBRACE && !withoutBraces;
      var rest := ReadMembers(data, m.2, map[], withoutBraces);
      var later := if closes || rest.Fail? then map[] else rest.value.0.payload.entries;
      (!closes ==> rest.Ok?) && entries == members[m.0 := m.1] + later
  {
    var m := ReadMember(data, p).value;
    var members' := members[m.0 := m.1];
    var later: map<Bytes, Value> := map[];
    if !(m.2.ch == RBRACE && !withoutBraces) {
      MembersOverride(data, m.2, members', withoutBraces);
      later := ReadMembers(data, m.2, map[], withoutBraces).value.0.payload.entries;
    } else {
      assert members' + later == members';
    }
  }

  /** In `a + b` a key of `a` keeps its value unless `b` has it too. */
  lemma OverrideLookup(a: map<Bytes, Value>, b: map<Bytes, Value>, k: Bytes)
    requires k in a
    ensures k in a + b && (a + b)[k] == if k in b then b[k] else a[k]
  {
  }

  /** The element loop reads a run of values: when each value read stops
      on the next and the last stops on a closing bracket, the array holds
      the values read from the `k`-th on, in order, after `items`. The
      cursors between values are wherever `_readValue` leaves them, so a
      comma after a value is optional and one before the bracket allowed. */
  lemma {:induction false} ElementsRead(data: Bytes, ps: seq<Parser>, xs: seq<Value>, k: nat, items: seq<Value>)
    requires k < |xs| && |ps| == |xs| + 1
    requires forall i | 0 <= i < |xs| :: Valid(data, ps[i]) && ps[i].ch != NUL
    requires forall i {:trigger ReadValue(data, ps[i])} | 0 <= i < |xs| :: ReadValue(data, ps[i]) == Ok((xs[i], ps[i + 1]))
    requires forall i | 1 <= i < |xs| :: ps[i].ch != RBRACKET
    requires ps[|xs|].ch == RBRACKET
    ensures Valid(data, ps[|xs|])
    ensures ReadElements(data, ps[k], items) == Ok((Fresh(Vector(items + xs[k..])), Advance(data, ps[|xs|])))
    decreases |xs| - k
  {
    ElementStep(data, ps[k], items, xs[k], ps[k + 1]);
    if k + 1 < |xs| {
      ElementsRead(data, ps, xs, k + 1, items + [xs[k]]);
    }
    TakeOne(items, xs, k);
  }

  lemma TakeOne(items: seq<Value>, xs: seq<Value>, k: nat)
    requires k < |xs|
    ensures items + [xs[k]] + xs[k + 1..] == items + xs[k..]
    ensures k + 1 == |xs| ==> items + xs[k..] == items + [xs[k]]
  {
    assert xs[k..] == [xs[k]] + xs[k + 1..];
  }

  /** At `from` and after it, `data` holds no byte `c`. */
  predicate Absent(data: Bytes, from: nat, c: byte) {
    forall j | from <= j < |data| :: data[j] != c
  }

  /** The byte before `from` is not `c` either. */
  lemma AbsentBefore(data: Bytes, from: nat, c: byte)
    requires 0 < from <= |data| && data[from - 1] != c && Absent(data, from, c)
    ensures Absent(data, from - 1, c)
  {
  }

  /** A cursor never moves back. */
  lemma SteppedOn(data: Bytes, p: Parser, q: Parser)
    requires Valid(data, p) && Stepped(data, p, q)
    ensures p.at <= q.at
  {
  }

  /** A synced cursor on a byte other than NUL and the blank stands just
      after that byte. */
  lemma SyncedByte(data: Bytes, q: Parser)
    requires Synced(data, q) && q.ch != NUL && q.ch != SPACE
    ensures 0 < q.at && data[q.at - 1] == q.ch
  {
  }

  /** The element loop fails when no closing bracket follows: an array cut
      off after any number of elements is a syntax error. */
  lemma {:induction false} ElementsUnclosedFail(data: Bytes, p: Parser, items: seq<Value>, from: nat)
    requires Synced(data, p) && from < p.at && Absent(data, from, RBRACKET)
    ensures ReadElements(data, p, items).Fail?
    decreases Left(data, p)
  {
    if p.ch != NUL && ReadValue(data, p).Ok? {
      var v := ReadValue(data, p).value;
      SteppedOn(data, p, v.1);
      if v.1.ch == RBRACKET {
        SyncedByte(data, v.1);
      } else {
        ElementsUnclosedFail(data, v.1, items + [v.0], from);
      }
    }
  }

  /** The member loop inside braces fails when no closing brace follows. */
  lemma {:induction false} MembersUnclosedFail(data: Bytes, p: Parser, members: map<Bytes, Value>, from: nat)
    requires Synced(data, p) && from < p.at && Absent(data, from, RBRACE)
    ensures ReadMembers(data, p, members, false).Fail?
    decreases Left(data, p)
  {
    if p.ch != NUL && ReadMember(data, p).Ok? {
      var m := ReadMember(data, p).value;
      SteppedOn(data, p, m.2);
      if m.2.ch == RBRACE {
        SyncedByte(data, m.2);
      } else {
        MembersUnclosedFail(data, m.2, members[m.0 := m.1], from);
      }
    }
  }

  /** Where `_readArray` and `_readObject` stand after the opening
      bracket or brace and the comments that follow it. */
  lemma Opened(data: Bytes, p: Parser) returns (p1: Parser)
    requires Synced(data, p) && (p.ch == LBRACKET || p.ch == LBRACE)
    ensures p1 == SkipIndented(data, SkipComment(data, Advance(data, p)).1)
    ensures Synced(data, p1) && p.at <= p1.at && 0 < p.at && data[p.at - 1] == p.ch
  {
    SyncedByte(data, p);
    p1 := SkipIndented(data, SkipComment(data, Advance(data, p)).1);
    SteppedOn(data, p, p1);
  }

  /** `_readArray` on an opening bracket that no closing bracket follows
      fails, however many elements it reads first. */
  lemma ArrayUnclosedFails(data: Bytes, p: Parser)
    requires Synced(data, p) && p.ch == LBRACKET && Absent(data, p.at, RBRACKET)
    ensures ReadArray(data, p).Fail?
  {
    var p1 := Opened(data, p);
    AbsentBefore(data, p.at, RBRACKET);
    if p1.ch == RBRACKET {
      SyncedByte(data, p1);
    } else {
      ElementsUnclosedFail(data, p1, [], p.at - 1);
    }
  }

  /** `_readObject` on an opening brace that no closing brace follows
      fails, however many members it reads first. */
  lemma ObjectUnclosedFails(data: Bytes, p: Parser)
    requires Synced(data, p) && p.ch == LBRACE && Absent(data, p.at, RBRACE)
    ensures ReadObject(data, p, false).Fail?
  {
    var p2 := Opened(data, p);
    AbsentBefore(data, p.at, RBRACE);
    if p2.ch == RBRACE {
      SyncedByte(data, p2);
    } else {
      MembersUnclosedFail(data, p2, map[], p.at - 1);
    }
  }

  /** `[1,2`: the array is cut off after two elements. */
  lemma CutOffArrayFails()
    ensures ReadArray([LBRACKET, 0x31, COMMA, 0x32], Parser(1, LBRACKET)).Fail?
  {
    ArrayUnclosedFails([LBRACKET, 0x31, COMMA, 0x32], Parser(1, LBRACKET));
  }

  // ---------------------------------------------------------------------
  // The root
  // ---------------------------------------------------------------------

  /** Skipping white space over nothing but white space ends at the end of
      the input. */
  lemma {:induction false} WhiteToEnd(data: Bytes, p: Parser)
    requires Valid(data, p) && IsWhite(p.ch)
    requires forall k | p.at <= k < |data| :: IsWhite(data[k])
    ensures SkipWhite(data, p) == Parser(|data|, NUL)
    decreases |data| - p.at
  {
    var q := Advance(data, p);
    if p.at < |data| {
      WhiteToEnd(data, q);
    }
  }

  /** An input of nothing but white space, the empty input included, is
      an empty MAP: the braces-less object reads no member. */
  lemma BlankInputIsEmptyMap(data: Bytes)
    requires forall k | 0 <= k < |data| :: IsWhite(data[k])
    ensures Unmarshal(data) == Ok(Fresh(Map(map[])))
  {
    WhiteToEnd(data, Start);
    var e := Parser(|data|, NUL);
    assert SkipIndented(data, Start) == e;
    assert ReadObject(data, Start, true) == Ok((Fresh(Map(map[])), e));
    assert !HasTrailing(data, e);
  }

  /** The root reader sees first: the input with its leading white space
      and comments skipped. */
  function RootStart(data: Bytes): Parser {
    SkipIndented(data, Start)
  }

  /** An input that starts with a brace or a bracket is read as that
      object or array and never without braces: it succeeds exactly when
      the braced reader succeeds and nothing but white space and comments
      follows. */
  lemma BracedRoot(data: Bytes)
    requires RootStart(data).ch == LBRACE || RootStart(data).ch == LBRACKET
    ensures var p := RootStart(data);
      var v := if p.ch == LBRACE then ReadObject(data, p, false) else ReadArray(data, p);
      var r := Unmarshal(data);
      (r.Ok? <==> v.Ok? && !HasTrailing(data, SkipIndented(data, SkipComment(data, v.value.1).1))) &&
      (r.Ok? ==> r.value == v.value.0) &&
      (r.Ok? ==> if p.ch == LBRACE then r.value.payload.Map? else r.value.payload.Vector?)
  {
  }

  /** A root bracket or brace that is never closed is a syntax error, even
      though the input could be read without braces. */
  lemma RootUnclosedFails(data: Bytes)
    requires var p := RootStart(data);
      (p.ch == LBRACE && Absent(data, p.at, RBRACE)) || (p.ch == LBRACKET && Absent(data, p.at, RBRACKET))
    ensures Unmarshal(data).Fail?
  {
    var p := RootStart(data);
    if p.ch == LBRACE {
      ObjectUnclosedFails(data, p);
    } else {
      ArrayUnclosedFails(data, p);
    }
  }

  /** `{}x`: content after a closed root is a syntax error. */
  lemma TrailingAfterRootFails()
    ensures Unmarshal([LBRACE, RBRACE, 0x78]).Fail?
  {
    var data := [LBRACE, RBRACE, 0x78];
    var p := Parser(1, LBRACE);
    Significant(data, p);
    assert SkipWhite(data, Start) == p;
    var q := Parser(2, RBRACE);
    Significant(data, q);
    var x := Parser(3, 0x78);
    Significant(data, x);
    assert ReadObject(data, p, false) == Ok((Fresh(Map(map[])), x));
    BracedRoot(data);
  }

  /** Otherwise the root is an object without braces when that reads
      without error and without trailing content. */
  lemma BracelessRoot(data: Bytes)
    requires RootStart(data).ch != LBRACE && RootStart(data).ch != LBRACKET
    requires var b := ReadObject(data, Start, true); b.Ok? && !HasTrailing(data, b.value.1)
    ensures Unmarshal(data) == Ok(ReadObject(data, Start, true).value.0)
    ensures Unmarshal(data).value.payload.Map?
  {
  }

  /** And when it does not, the root is a single value, which must not be
      followed by anything but white space and comments. */
  lemma SingleValueRoot(data: Bytes)
    requires RootStart(data).ch != LBRACE && RootStart(data).ch != LBRACKET
    requires var b := ReadObject(data, Start, true); b.Fail? || HasTrailing(data, b.value.1)
    ensures var v := ReadValue(data, RootStart(data)); var r := Unmarshal(data);
      (r.Ok? <==> v.Ok? && !HasTrailing(data, v.value.1)) && (r.Ok? ==> r.value == v.value.0)
  {
  }

  /** A two-element array of one-digit numbers, the elements separated by
      a comma or a line feed, with or without a comma before the bracket. */
  lemma TwoDigitArray(data: Bytes)
    requires |data| >= 5 && data[0] == LBRACKET && IsDigit(data[1]) && IsDigit(data[3])
    requires data[2] == COMMA || data[2] == LF
    requires (|data| == 5 && data[4] == RBRACKET) || (|data| == 6 && data[4] == COMMA && data[5] == RBRACKET)
    ensures Unmarshal(data) == Ok(Fresh(Vector([Fresh(Double(Int(data[1] as int - 0x30))), Fresh(Double(Int(data[3] as int - 0x30)))])))
  {
    var p := Parser(1, LBRACKET);
    Significant(data, p);
    assert SkipWhite(data, Start) == p;
    var a := Parser(2, data[1]);
    Significant(data, a);
    assert Advance(data, p) == a;
    TwoDigitElements(data);
    var e := Parser(|data|, NUL);
    Significant(data, e);
    BracedRoot(data);
  }

  lemma TwoDigitElements(data: Bytes)
    requires |data| >= 5 && data[0] == LBRACKET && IsDigit(data[1]) && IsDigit(data[3])
    requires data[2] == COMMA || data[2] == LF
    requires (|data| == 5 && data[4] == RBRACKET) || (|data| == 6 && data[4] == COMMA && data[5] == RBRACKET)
    ensures ReadElements(data, Parser(2, data[1]), []) ==
            Ok((Fresh(Vector([Fresh(Double(Int(data[1] as int - 0x30))), Fresh(Double(Int(data[3] as int - 0x30)))])), Parser(|data|, NUL)))
  {
    var x := Fresh(Double(Int(data[1] as int - 0x30)));
    var y := Fresh(Double(Int(data[3] as int - 0x30)));
    var b := Parser(4, data[3]);
    DigitElement(data, 2, 4);
    ElementStep(data, Parser(2, data[1]), [], x, b);
    Pair(x, y);
    LastDigitElement(data, [x]);
  }

  lemma Pair(x: Value, y: Value)
    ensures [] + [x] == [x] && [x] + [y] == [x, y]
  {
  }

  lemma LastDigitElement(data: Bytes, items: seq<Value>)
    requires |data| >= 5 && IsDigit(data[3])
    requires (|data| == 5 && data[4] == RBRACKET) || (|data| == 6 && data[4] == COMMA && data[5] == RBRACKET)
    ensures ReadElements(data, Parser(4, data[3]), items) ==
            Ok((Fresh(Vector(items + [Fresh(Double(Int(data[3] as int - 0x30)))])), Parser(|data|, NUL)))
  {
    var c := Parser(|data|, data[|data| - 1]);
    DigitElement(data, 4, |data|);
    ElementStep(data, Parser(4, data[3]), items, Fresh(Double(Int(data[3] as int - 0x30))), c);
  }

  /** `_readValue` chooses its reader by the first byte after the
      comments: a brace reads an object, a bracket an array, a quote a
      string; any other punctuator is a syntax error, and anything else is
      a quoteless value, which is never an object or an array. */
  lemma ValueKinds(data: Bytes, p: Parser)
    requires Valid(data, p)
    ensures var c := SkipCommentLines(data, p).ch; var r := ReadValue(data, p);
      (c == LBRACE && r.Ok? ==> r.value.0.payload.Map?) &&
      (c == LBRACKET && r.Ok? ==> r.value.0.payload.Vector?) &&
      ((c == DQUOTE || c == SQUOTE) && r.Ok? ==> r.value.0.payload.String?) &&
      (IsPunctuator(c) && c != LBRACE && c != LBRACKET ==> r.Fail?) &&
      (!IsPunctuator(c) && c != DQUOTE && c != SQUOTE ==>
         r.Ok? && r.value.0 == ReadTfnns(data, SkipCommentLines(data, p)).value.0 && Quoteless(r.value.0))
  {
  }

  /** One round of the element loop, on a value that reads. */
  lemma ElementStep(data: Bytes, p: Parser, items: seq<Value>, x: Value, q: Parser)
    requires Valid(data, p) && p.ch != NUL && ReadValue(data, p) == Ok((x, q))
    ensures Valid(data, q)
    ensures ReadElements(data, p, items) ==
            if q.ch == RBRACKET then Ok((Fresh(Vector(items + [x])), Advance(data, q))) else ReadElements(data, q, items + [x])
  {
  }

  /** `[1,2]`, `[1\n2]` and `[1,2,]` are the same array: commas between
      values are optional and one before the bracket is allowed. */
  lemma OptionalCommas()
    ensures var one2 := Ok(Fresh(Vector([Fresh(Double(Int(1))), Fresh(Double(Int(2)))])));
      Unmarshal([LBRACKET, 0x31, COMMA, 0x32, RBRACKET]) == one2 &&
      Unmarshal([LBRACKET, 0x31, LF, 0x32, RBRACKET]) == one2 &&
      Unmarshal([LBRACKET, 0x31, COMMA, 0x32, COMMA, RBRACKET]) == one2
  {
    TwoDigitArray([LBRACKET, 0x31, COMMA, 0x32, RBRACKET]);
    TwoDigitArray([LBRACKET, 0x31, LF, 0x32, RBRACKET]);
    TwoDigitArray([LBRACKET, 0x31, COMMA, 0x32, COMMA, RBRACKET]);
  }
}

=== FILE: encoder.dfy ===
/** The Hjson encoder of src/hjson_encode.cpp with comment output switched
    off. The C++ writes into an output stream; here every writer returns
    the bytes it would write. The pattern tests of the C++ (`std::regex`
    with the ECMAScript grammar, where `.` matches anything but CR and LF
    and `^`, `$` anchor at the ends of the text) are written out as
    predicates over byte positions. */
module Encoder {
  import opened Bytes
  import opened Outcome
  import opened NumberLexer
  import opened KeyOrder
  import opened Values

  /** `EncoderOptions`, without the commentary switch (always off here)
      and without `unknownAsNull`, which the encoder never reads. */
  datatype Options = Options(
    eol: Bytes,
    bracesSameLine: bool,
    quoteAlways: bool,
    quoteKeys: bool,
    indentBy: Bytes,
    allowMinusZero: bool,
    separator: bool,
    emitRootBraces: bool)

  /** `DefaultOptions`. */
  const DefaultOptions: Options := Options([LF], false, false, false, [SPACE, SPACE], false, false, true)

  const TripleQuote: Bytes := [SQUOTE, SQUOTE, SQUOTE]

  // ---------------------------------------------------------------------
  // Escapes
  // ---------------------------------------------------------------------

  /** `_meta`: the two-byte escape of the bytes that have one. */
  function Meta(c: byte): (r: Option<Bytes>)
    ensures r.Some? ==> |r.value| == 2 && r.value[0] == BACKSLASH
    ensures r.Some? <==> c in {BS, TAB, LF, FF, CR, DQUOTE, BACKSLASH}
  {
    if c == BS then Some([BACKSLASH, 0x62])
    else if c == TAB then Some([BACKSLASH, 0x74])
    else if c == LF then Some([BACKSLASH, 0x6e])
    else if c == FF then Some([BACKSLASH, 0x66])
    else if c == CR then Some([BACKSLASH, 0x72])
    else if c == DQUOTE then Some([BACKSLASH, DQUOTE])
    else if c == BACKSLASH then Some([BACKSLASH, BACKSLASH])
    else None
  }

  /** The length of the UTF-8 sequence a lead byte opens, 0 for a byte
      that cannot lead one. */
  function SequenceLength(b: byte): (n: nat)
    ensures n <= 4
  {
    if b < 0x80 then 1
    else if b < 0xc0 then 0
    else if b < 0xe0 then 2
    else if b < 0xf0 then 3
    else if b < 0xf8 then 4
    else 0
  }

  /** The payload bits of a lead byte. */
  function LeadBits(b: byte, n: nat): nat {
    if n == 1 then b as nat
    else if n == 2 then b as nat % 0x20
    else if n == 3 then b as nat % 0x10
    else b as nat % 0x08
  }

  /** The continuation bytes `s[i..n]` folded into `acc`; a byte below
      0x80 fails. Nothing else about a continuation byte is checked. */
  function Trailers(s: Bytes, i: nat, n: nat, acc: nat): (r: Option<nat>)
    requires 1 <= i <= n <= |s|
    decreases n - i
  {
    if i == n then Some(acc)
    else if s[i] < 0x80 then None
    else Trailers(s, i + 1, n, acc * 0x40 + s[i] as nat % 0x40)
  }

  /** `_fromUtf8`: the code point at the front of `s` and the number of
      bytes it takes, or None where the C++ returns -1. */
  function FromUtf8(s: Bytes): (r: Option<(nat, nat)>)
    ensures r.Some? ==> |s| > 0 && r.value.1 == SequenceLength(s[0]) && 1 <= r.value.1 <= |s|
  {
    if |s| == 0 then None
    else
      var n := SequenceLength(s[0]);
      if n == 0 || |s| < n then None
      else
        match Trailers(s, 1, n, LeadBits(s[0], n))
        case None => None
        case Some(u) => Some((u, n))
  }

  lemma {:induction false} TrailersRefuse(s: Bytes, i: nat, n: nat, acc: nat)
    requires 1 <= i <= n <= |s|
    ensures Trailers(s, i, n, acc).None? <==> exists j :: i <= j < n && s[j] < 0x80
    decreases n - i
  {
    if i < n && s[i] >= 0x80 {
      TrailersRefuse(s, i + 1, n, acc * 0x40 + s[i] as nat % 0x40);
    }
  }

  /** `_fromUtf8` refuses exactly an empty text, a byte that cannot lead a
      sequence, a sequence cut short by the end, and a continuation byte
      below 0x80. */
  lemma FromUtf8Refuses(s: Bytes)
    ensures FromUtf8(s).None? <==>
      |s| == 0 || SequenceLength(s[0]) == 0 || |s| < SequenceLength(s[0]) ||
      exists j :: 1 <= j < SequenceLength(s[0]) && s[j] < 0x80
  {
    if |s| > 0 && SequenceLength(s[0]) > 0 && |s| >= SequenceLength(s[0]) {
      TrailersRefuse(s, 1, SequenceLength(s[0]), LeadBits(s[0], SequenceLength(s[0])));
    }
  }

  /** A code point below 0x10000 as `std::hex` with `std::setw(4)` and a
      zero fill prints it: four lower-case digits. */
  function Hex4(u: nat): (r: Bytes)
    requires u < 0x10000
    ensures |r| == 4 && forall i | 0 <= i < 4 :: IsHexDigit(r[i])
    ensures ((HexValue(r[0]) * 16 + HexValue(r[1])) * 16 + HexValue(r[2])) * 16 + HexValue(r[3]) == u
  {
    var a := u / 0x10;
    var b := a / 0x10;
    var c := b / 0x10;
    assert u == a * 0x10 + u % 0x10 && a == b * 0x10 + a % 0x10 && b == c * 0x10 + b % 0x10;
    [HexDigit(c), HexDigit(b % 0x10), HexDigit(a % 0x10), HexDigit(u % 0x10)]
  }

  /** The `while (nS)` loop of `_quoteReplace`: a `\u` escape per UTF-8
      sequence, the rest written unchanged once a sequence fails. Code
      points reaching the printer stay below 0x10000, since every match is
      one byte or one of the three-byte-at-most sequences of `InvisibleAt`;
      a longer sequence is written unchanged. */
  function UnicodeEscapes(m: Bytes): (r: Bytes)
    decreases |m|
  {
    if |m| == 0 then []
    else
      match FromUtf8(m)
      case None => m
      case Some((u, n)) =>
        if u < 0x10000 then [BACKSLASH, 0x75] + Hex4(u) + UnicodeEscapes(m[n..]) else m
  }

  /** What `_quoteReplace` writes for one match. */
  function Replacement(m: Bytes): (r: Bytes)
    requires |m| > 0
  {
    match Meta(m[0])
    case Some(e) => e
    case None => UnicodeEscapes(m)
  }

  // ---------------------------------------------------------------------
  // The pattern tests
  // ---------------------------------------------------------------------

  /** The length of a match of the sequences every pattern treats like
      control characters (`commonRange`), at `s[i]`; 0 when there is none.
      The alternatives differ in their first two bytes, so at most one
      matches. */
  function InvisibleAt(s: Bytes, i: nat): (n: nat)
    ensures n == 0 || n == 2 || n == 3
    ensures n > 0 ==> i + n <= |s| && s[i] >= 0xc2
  {
    if i + 2 <= |s| &&
       ((s[i] == 0xc2 && s[i + 1] == 0xad) ||
        (s[i] == 0xd8 && 0x80 <= s[i + 1] <= 0x84) ||
        (s[i] == 0xdc && s[i + 1] == 0x8f)) then 2
    else if i + 3 <= |s| &&
       ((s[i] == 0xe1 && s[i + 1] == 0x9e && (s[i + 2] == 0xb4 || s[i + 2] == 0xb5)) ||
        (s[i] == 0xe2 && s[i + 1] == 0x80 && (s[i + 2] == 0x8c || s[i + 2] == 0x8f)) ||
        (s[i] == 0xe2 && s[i + 1] == 0x80 && 0xa8 <= s[i + 2] <= 0xaf) ||
        (s[i] == 0xe2 && s[i + 1] == 0x81 && 0xa0 <= s[i + 2] <= 0xaf) ||
        (s[i] == 0xef && s[i + 1] == 0xbb && s[i + 2] == 0xbf) ||
        (s[i] == 0xef && s[i + 1] == 0xbf && 0xb0 <= s[i + 2] <= 0xbf)) then 3
    else 0
  }

  /** The length of a `needsEscape` match at `s[i]`, 0 when there is none:
      a backslash, a double quote, a control byte or an invisible
      sequence. */
  function EscapeAt(s: Bytes, i: nat): (n: nat)
    requires i < |s|
    ensures n <= 3 && i + n <= |s|
    ensures n == 1 <==> s[i] == BACKSLASH || s[i] == DQUOTE || s[i] < SPACE
  {
    if s[i] == BACKSLASH || s[i] == DQUOTE || s[i] < SPACE then 1 else InvisibleAt(s, i)
  }

  /** `needsEscape` finds a match. */
  predicate NeedsEscape(s: Bytes) {
    exists i | 0 <= i < |s| :: EscapeAt(s, i) > 0
  }

  /** A control byte or the start of an invisible sequence. */
  predicate Unprintable(s: Bytes, i: nat)
    requires i < |s|
  {
    s[i] < SPACE || InvisibleAt(s, i) > 0
  }

  /** The bytes a quoteless string must not start with. */
  predicate QuotelessStopper(c: byte) {
    c in {DQUOTE, SQUOTE, HASH, LBRACE, RBRACE, LBRACKET, RBRACKET, COLON, COMMA}
  }

  /** `needsQuotes` finds a match: the text starts with white space, a
      quote, a comment or a punctuator, ends with white space, or holds
      something unprintable. */
  predicate NeedsQuotes(s: Bytes) {
    (|s| > 0 &&
     (IsSpace(s[0]) || QuotelessStopper(s[0]) ||
      HasAt(s, 0, [SLASH, STAR]) || HasAt(s, 0, [SLASH, SLASH]) ||
      IsSpace(s[|s| - 1]))) ||
    exists i | 0 <= i < |s| :: Unprintable(s, i)
  }

  /** A byte a multiline string cannot hold: a control byte other than a
      tab, a line feed or a carriage return, or an invisible sequence. */
  predicate MLUnprintable(s: Bytes, i: nat)
    requires i < |s|
  {
    (s[i] < SPACE && s[i] != TAB && s[i] != LF && s[i] != CR) || InvisibleAt(s, i) > 0
  }

  /** `needsEscapeML` finds a match: three single quotes, nothing but
      white space, or something a multiline string cannot hold. */
  predicate NeedsEscapeML(s: Bytes) {
    Contains(s, TripleQuote) ||
    (|s| > 0 && forall i | 0 <= i < |s| :: IsSpace(s[i])) ||
    exists i | 0 <= i < |s| :: MLUnprintable(s, i)
  }

  /** The first index from `i` on that is not `std::isspace`. */
  function SpacesEnd(s: Bytes, i: nat): (j: nat)
    requires i <= |s|
    ensures i <= j <= |s|
    ensures forall k | i <= k < j :: IsSpace(s[k])
    ensures j == |s| || !IsSpace(s[j])
    decreases |s| - i
  {
    if i < |s| && IsSpace(s[i]) then SpacesEnd(s, i + 1) else i
  }

  /** What may follow a keyword in a string that `startsWithKeyword`
      matches: nothing, or a comma, a closing bracket or brace or a comment
      start and then anything on the same line. */
  predicate CommentOrEnd(r: Bytes) {
    r == [] ||
    ((r[0] in {COMMA, RBRACKET, RBRACE, HASH} || HasAt(r, 0, [SLASH, SLASH]) || HasAt(r, 0, [SLASH, STAR])) &&
     forall i | 0 <= i < |r| :: r[i] != LF && r[i] != CR)
  }

  /** `s` is the keyword `kw`, white space, and what `CommentOrEnd`
      allows. Taking all the white space loses no match, because nothing
      that may follow it starts with white space. */
  predicate KeywordAt(s: Bytes, kw: Bytes) {
    HasAt(s, 0, kw) && CommentOrEnd(s[SpacesEnd(s, |kw|)..])
  }

  /** `startsWithKeyword` matches: the text would read back as `true`,
      `false` or `null`. */
  predicate StartsWithKeyword(s: Bytes) {
    KeywordAt(s, Ascii("true")) || KeywordAt(s, Ascii("false")) || KeywordAt(s, Ascii("null"))
  }

  /** A `needsEscapeName` match at `s[i]`. The corrected test also counts
      every control byte, which the decoder reads as white space in a
      name. */
  predicate NameBreakAt(s: Bytes, i: nat, asWritten: bool)
    requires i < |s|
  {
    s[i] in {COMMA, LBRACE, LBRACKET, RBRACE, RBRACKET, COLON, HASH, DQUOTE, SQUOTE} ||
    IsSpace(s[i]) || HasAt(s, i, [SLASH, SLASH]) || HasAt(s, i, [SLASH, STAR]) ||
    (!asWritten && s[i] < SPACE)
  }

  predicate NeedsEscapeName(s: Bytes, asWritten: bool) {
    exists i | 0 <= i < |s| :: NameBreakAt(s, i, asWritten)
  }

  // ---------------------------------------------------------------------
  // Writers
  // ---------------------------------------------------------------------

  /** `indentBy` repeated `n` times. */
  function Indentation(opt: Options, n: nat): (r: Bytes)
    ensures |r| == n * |opt.indentBy|
    ensures forall i | 0 <= i < |r| :: r[i] in opt.indentBy
  {
    if n == 0 then [] else opt.indentBy + Indentation(opt, n - 1)
  }

  /** `_writeIndent`: a line break and `n` indentations. */
  function WriteIndent(opt: Options, n: nat): Bytes {
    opt.eol + Indentation(opt, n)
  }

  /** The bytes of `s` one step of `_quoteReplace` covers from index `j`:
      a single byte left alone, or one whole match. */
  function UnitLength(s: Bytes, j: nat): (k: nat)
    requires j < |s|
    ensures 1 <= k && j + k <= |s|
  {
    if EscapeAt(s, j) == 0 then 1 else EscapeAt(s, j)
  }

  /** What `_quoteReplace` writes for the unit at `j`. */
  function UnitText(s: Bytes, j: nat): Bytes
    requires j < |s|
  {
    if EscapeAt(s, j) == 0 then [s[j]] else Replacement(s[j..j + EscapeAt(s, j)])
  }

  /** `_quoteReplace` from index `i`: every `needsEscape` match, found
      left to right, replaced by its escape, the bytes between matches
      kept. */
  function ReplaceFrom(s: Bytes, i: nat): (r: Bytes)
    requires i <= |s|
    ensures |r| >= |s| - i
    decreases |s| - i
  {
    if i == |s| then [] else UnitTextLength(s, i); UnitText(s, i) + ReplaceFrom(s, i + UnitLength(s, i))
  }

  /** Each `\u` escape (six bytes) stands for at most four bytes. */
  lemma {:induction false} UnicodeEscapesLength(m: Bytes)
    ensures |UnicodeEscapes(m)| >= |m|
    decreases |m|
  {
    if |m| > 0 {
      match FromUtf8(m)
      case None =>
      case Some((u, n)) =>
        if u < 0x10000 {
          UnicodeEscapesLength(m[n..]);
        }
    }
  }

  /** The text written for one unit is at least as long as the unit. */
  lemma UnitTextLength(s: Bytes, j: nat)
    requires j < |s|
    ensures |UnitText(s, j)| >= UnitLength(s, j)
  {
    var n := EscapeAt(s, j);
    if n > 0 {
      var m := s[j..j + n];
      if Meta(m[0]).Some? {
        assert n == 1;
      } else {
        UnicodeEscapesLength(m);
      }
    }
  }


  /** `_quoteReplace`. */
  function QuoteReplace(s: Bytes): (r: Bytes)
    ensures |r| >= |s|
  {
    ReplaceFrom(s, 0)
  }

  predicate IsBreak(c: byte) {
    c == LF || c == CR
  }

  /** The index of the first line break of `s`, `|s|` when there is none. */
  function LineEnd(s: Bytes): (e: nat)
    ensures e <= |s| && (e < |s| ==> IsBreak(s[e]))
    ensures forall i | 0 <= i < e :: !IsBreak(s[i])
    decreases |s|
  {
    if |s| == 0 || IsBreak(s[0]) then 0 else 1 + LineEnd(s[1..])
  }

  /** The lines the loop of `_mlString` writes for `s`: the `lineBreak`
      pattern tries `\r` before `\r\n`, so every CR and every LF ends a line
      of its own. Each line goes on a new line, indented one level deeper
      than the value unless it is empty. */
  function MLLines(opt: Options, level: nat, s: Bytes): (r: Bytes)
    decreases |s|
  {
    var e := LineEnd(s);
    WriteIndent(opt, if e == 0 then 0 else level + 1) + s[..e] +
    (if e == |s| then [] else MLLines(opt, level, s[e + 1..]))
  }

  /** The one-line form `_mlString` uses for a text without line breaks.
      Read back, the decoder drops leading white space and lets a final
      single quote join the closing ones, so the corrected writer keeps
      this form for texts that neither start with white space nor end with
      a single quote. */
  predicate OneLine(s: Bytes, asWritten: bool) {
    (forall i | 0 <= i < |s| :: !IsBreak(s[i])) &&
    (asWritten || !(|s| > 0 && (IsWhite(s[0]) || s[|s| - 1] == SQUOTE)))
  }

  /** `_mlString` at indent `level`. */
  function MLString(opt: Options, level: nat, s: Bytes, sep: Bytes, asWritten: bool): (r: Bytes)
    ensures |r| >= 6 && r[|r| - 3..] == TripleQuote
  {
    if OneLine(s, asWritten) then sep + TripleQuote + s + TripleQuote
    else
      WriteIndent(opt, level + 1) + TripleQuote + MLLines(opt, level, s) +
      WriteIndent(opt, level + 1) + TripleQuote
  }

  /** `r` is `sep` followed by one double-quoted JSON string. */
  predicate DoubleQuoted(r: Bytes, sep: Bytes) {
    |r| >= |sep| + 2 && r[..|sep|] == sep && r[|sep|] == DQUOTE && r[|r| - 1] == DQUOTE
  }

  /** `_quote` for a string value at indent `level`. Under `quoteAlways`
      every string is double-quoted; a root string is never written in
      the multiline form. */
  function Quote(opt: Options, level: nat, s: Bytes, sep: Bytes, isRoot: bool, asWritten: bool): (r: Bytes)
    ensures opt.quoteAlways ==> DoubleQuoted(r, sep)
    ensures isRoot ==> r == sep + s || DoubleQuoted(r, sep)
  {
    if |s| == 0 then QuotedText(sep, []); sep + [DQUOTE, DQUOTE]
    else if opt.quoteAlways || NeedsQuotes(s) || StartsWithNumber(s) || StartsWithKeyword(s) then
      if !NeedsEscape(s) then QuotedText(sep, s); sep + [DQUOTE] + s + [DQUOTE]
      else if !opt.quoteAlways && !NeedsEscapeML(s) && !isRoot then MLString(opt, level, s, sep, asWritten)
      else QuotedText(sep, QuoteReplace(s)); sep + [DQUOTE] + QuoteReplace(s) + [DQUOTE]
    else sep + s
  }

  /** `body` between double quotes after `sep`. */
  lemma QuotedText(sep: Bytes, body: Bytes)
    ensures DoubleQuoted(sep + [DQUOTE] + body + [DQUOTE], sep)
  {
    assert (sep + [DQUOTE] + body + [DQUOTE])[..|sep|] == sep;
  }

  /** `_quoteName`. */
  function QuoteName(opt: Options, name: Bytes, asWritten: bool): (r: Bytes)
    ensures r == name || (|r| >= 2 && r[0] == DQUOTE && r[|r| - 1] == DQUOTE)
    ensures |r| >= |name|
  {
    if |name| == 0 then [DQUOTE, DQUOTE]
    else if opt.quoteKeys || NeedsEscapeName(name, asWritten) then
      [DQUOTE] + (if NeedsEscape(name) then QuoteReplace(name) else name) + [DQUOTE]
    else name
  }

  /** The decimal digits of `n`. */
  function Digits(n: nat): (r: Bytes)
    ensures |r| >= 1 && forall i | 0 <= i < |r| :: IsDigit(r[i])
  {
    if n < 10 then [(0x30 + n) as byte] else Digits(n / 10) + [(0x30 + n % 10) as byte]
  }

  /** An integral DOUBLE as the stream prints it, for magnitudes below
      10^15 (fifteen significant digits). */
  function IntText(i: int): Bytes {
    if i < 0 then [MINUS] + Digits(-i) else Digits(i)
  }

  /** A decimal lexeme that stands for minus zero. */
  predicate NegativeZero(l: Bytes) {
    var p := PartsOf(l);
    p.negative &&
    (forall i | 0 <= i < |p.intDigits| :: p.intDigits[i] == 0x30) &&
    (p.frac.Some? ==> forall i | 0 <= i < |p.frac.value| :: p.frac.value[i] == 0x30)
  }

  /** The text of a DOUBLE: `null` for NaN and the infinities, `0` for
      minus zero unless `allowMinusZero`; a decimal is written as its
      lexeme, which stands for the fifteen-digit rendering of the C++. */
  function NumberText(opt: Options, n: Number): (r: Bytes)
    ensures n.Int? ==> |r| > 0 && (r[0] == MINUS <==> n.i < 0) &&
                       forall k | (if n.i < 0 then 1 else 0) <= k < |r| :: IsDigit(r[k])
    ensures n.Dbl? && (n.f.NaN? || n.f.Infinity?) ==> r == Ascii("null")
    ensures n.Dbl? && n.f.Decimal? && NegativeZero(n.f.lexeme) && !opt.allowMinusZero ==> r == Ascii("0")
  {
    match n
    case Int(i) => IntText(i)
    case Dbl(NaN) => Ascii("null")
    case Dbl(Infinity(_)) => Ascii("null")
    case Dbl(Decimal(l)) => if NegativeZero(l) && !opt.allowMinusZero then Ascii("0") else l
  }

  /** How a container opens: on a new line at its own indent, unless the
      caller asked for none or braces stay on the same line. */
  function Opening(opt: Options, level: nat, noIndent: bool, sep: Bytes): (r: Bytes)
    ensures noIndent || opt.bracesSameLine ==> r == sep
    ensures !noIndent && !opt.bracesSameLine ==> |r| >= |opt.eol| && r[..|opt.eol|] == opt.eol
  {
    if !noIndent && !opt.bracesSameLine then WriteIndent(opt, level) else sep
  }

  /** `_str`: the text of `v` at indent `level`. */
  function Str(opt: Options, v: Value, level: nat, noIndent: bool, sep: Bytes, isRoot: bool, asWritten: bool): (r: Bytes)
    ensures !Defined(v) ==> r == sep
    ensures v.payload.Vector? ==> |r| > 0 && r[|r| - 1] == RBRACKET
    ensures v.payload.Map? && !isRoot ==> |r| > 0 && r[|r| - 1] == RBRACE
    decreases v, 3
  {
    match v.payload
    case Double(n) => sep + NumberText(opt, n)
    case String(s) => Quote(opt, level, s, sep, isRoot, asWritten)
    case Vector(_) => VectorStr(opt, v, level, noIndent, sep, asWritten)
    case Map(_) => MapStr(opt, v, level, noIndent, sep, isRoot, asWritten)
    case Undefined => sep
    case Null => sep + Ascii("null")
    case Bool(b) => sep + (if b then Ascii("true") else Ascii("false"))
  }

  /** The VECTOR branch of `_str`: `[]` when empty, otherwise the opening,
      one line per defined element and the closing bracket on a line of
      its own. */
  function VectorStr(opt: Options, v: Value, level: nat, noIndent: bool, sep: Bytes, asWritten: bool): (r: Bytes)
    requires v.payload.Vector?
    ensures |r| > 0 && r[|r| - 1] == RBRACKET
    decreases v, 2
  {
    if |v.payload.items| == 0 then sep + [LBRACKET, RBRACKET]
    else
      Opening(opt, level, noIndent, sep) + [LBRACKET] +
      Elements(opt, v, 0, level + 1, true, asWritten) +
      WriteIndent(opt, level) + [RBRACKET]
  }

  /** The MAP branch of `_str`: `{}` when empty, otherwise the members in
      key order between braces, which a root MAP drops unless
      `emitRootBraces`. */
  function MapStr(opt: Options, v: Value, level: nat, noIndent: bool, sep: Bytes, isRoot: bool, asWritten: bool): (r: Bytes)
    requires v.payload.Map?
    ensures !isRoot ==> |r| > 0 && r[|r| - 1] == RBRACE
    decreases v, 2
  {
    var m := v.payload.entries;
    if |m| == 0 then sep + [LBRACE, RBRACE]
    else
      var braces := !isRoot || opt.emitRootBraces;
      var inner := if braces then level + 1 else level;
      Opening(opt, level, noIndent, sep) + (if braces then [LBRACE] else []) +
      Members(opt, v, SortedKeys(m), 0, inner, true, asWritten) +
      WriteIndent(opt, level) + (if braces then [RBRACE] else []) +
      (if isRoot && opt.emitRootBraces then WriteIndent(opt, 0) else [])
  }

  /** Where the parts of a bracketed text stand: the head, the opening
      byte, the body, the closing byte and a tail. */
  lemma Framed(a: Bytes, o: byte, b1: Bytes, b2: Bytes, c: byte, t: Bytes)
    ensures var r := a + [o] + b1 + b2 + [c] + t;
      && |r| > |a| + |t| && r[..|a|] == a && r[|a|] == o && r[|r| - |t| - 1..] == [c] + t
  {
    var r := a + [o] + b1 + b2 + [c] + t;
    assert r[..|a|] == a;
    assert r[|r| - |t| - 1..] == [c] + t;
  }

  /** A VECTOR written without indent starts right after the separator
      with its opening bracket. */
  lemma VectorOpens(opt: Options, v: Value, level: nat, sep: Bytes, isRoot: bool, asWritten: bool)
    ensures var r := Str(opt, v, level, true, sep, isRoot, asWritten);
      v.payload.Vector? ==> |r| > |sep| && r[..|sep|] == sep && r[|sep|] == LBRACKET
  {
    if !v.payload.Vector? {
    } else if |v.payload.items| > 0 {
      var e := Elements(opt, v, 0, level + 1, true, asWritten);
      var w := WriteIndent(opt, level);
      assert Str(opt, v, level, true, sep, isRoot, asWritten) == sep + [LBRACKET] + e + w + [RBRACKET] + [];
      Framed(sep, LBRACKET, e, w, RBRACKET, []);
    } else {
      assert (sep + [LBRACKET, RBRACKET])[..|sep|] == sep;
    }
  }

  /** A MAP written without indent, with braces, starts right after the
      separator with its opening brace; a non-empty root MAP with
      `emitRootBraces` ends with the closing brace and a line break. */
  lemma MapFrame(opt: Options, v: Value, level: nat, sep: Bytes, isRoot: bool, asWritten: bool)
    ensures var r := Str(opt, v, level, true, sep, isRoot, asWritten);
      v.payload.Map? && (!isRoot || opt.emitRootBraces) ==> |r| > |sep| && r[..|sep|] == sep && r[|sep|] == LBRACE
    ensures var r := Str(opt, v, level, true, sep, isRoot, asWritten);
      v.payload.Map? && |v.payload.entries| > 0 && isRoot && opt.emitRootBraces ==>
        |r| > |WriteIndent(opt, 0)| && r[|r| - |WriteIndent(opt, 0)| - 1..] == [RBRACE] + WriteIndent(opt, 0)
  {
    if !v.payload.Map? || (isRoot && !opt.emitRootBraces) {
    } else if |v.payload.entries| > 0 {
      var m := v.payload.entries;
      var ms := Members(opt, v, SortedKeys(m), 0, level + 1, true, asWritten);
      var w := WriteIndent(opt, level);
      var t := if isRoot then WriteIndent(opt, 0) else [];
      MapText(opt, v, level, sep, isRoot, asWritten);
      Framed(sep, LBRACE, ms, w, RBRACE, t);
    } else {
      assert (sep + [LBRACE, RBRACE])[..|sep|] == sep;
    }
  }

  /** The text of a non-empty MAP written with braces and without indent. */
  lemma MapText(opt: Options, v: Value, level: nat, sep: Bytes, isRoot: bool, asWritten: bool)
    requires v.payload.Map? && |v.payload.entries| > 0 && (!isRoot || opt.emitRootBraces)
    ensures Str(opt, v, level, true, sep, isRoot, asWritten) ==
            sep + [LBRACE] + Members(opt, v, SortedKeys(v.payload.entries), 0, level + 1, true, asWritten) +
            WriteIndent(opt, level) + [RBRACE] + (if isRoot then WriteIndent(opt, 0) else [])
  {
  }

  /** The element loop of `_str` for a VECTOR from index `i`: each defined
      element on a line of its own, commas only with `separator`. */
  function Elements(opt: Options, v: Value, i: nat, inner: nat, first: bool, asWritten: bool): (r: Bytes)
    requires v.payload.Vector? && i <= |v.payload.items|
    decreases v, 1, |v.payload.items| - i
  {
    var items := v.payload.items;
    if i == |items| then []
    else if !Defined(items[i]) then Elements(opt, v, i + 1, inner, first, asWritten)
    else
      (if !first && opt.separator then [COMMA] else []) +
      WriteIndent(opt, inner) + Str(opt, items[i], inner, true, [], false, asWritten) +
      Elements(opt, v, i + 1, inner, false, asWritten)
  }

  /** The member loop of `_str` for a MAP, over its keys in map order from
      position `i`. */
  function Members(opt: Options, v: Value, keys: seq<Bytes>, i: nat, inner: nat, first: bool, asWritten: bool): (r: Bytes)
    requires v.payload.Map? && keys == SortedKeys(v.payload.entries) && i <= |keys|
    decreases v, 1, |keys| - i
  {
    var m := v.payload.entries;
    if i == |keys| then []
    else
      assert keys[i] in m;
      var x := m[keys[i]];
      if !Defined(x) then Members(opt, v, keys, i + 1, inner, first, asWritten)
      else
        (if !first && opt.separator then [COMMA] else []) +
        WriteIndent(opt, inner) + QuoteName(opt, keys[i], asWritten) + [COLON] +
        Str(opt, x, inner, false, [SPACE], false, asWritten) +
        Members(opt, v, keys, i + 1, inner, false, asWritten)
  }

  /** The element loop writes nothing when every element left is
      UNDEFINED. */
  lemma {:induction false} ElementsEmpty(opt: Options, v: Value, i: nat, inner: nat, first: bool, asWritten: bool)
    requires v.payload.Vector? && i <= |v.payload.items|
    requires forall j | i <= j < |v.payload.items| :: !Defined(v.payload.items[j])
    ensures Elements(opt, v, i, inner, first, asWritten) == []
    decreases |v.payload.items| - i
  {
    if i < |v.payload.items| {
      assert !Defined(v.payload.items[i]);
      ElementsEmpty(opt, v, i + 1, inner, first, asWritten);
    }
  }

  /** Conversely, an element left that is defined makes the loop write at
      least one end of line, since each element it writes starts on a new
      line. */
  lemma {:induction false} ElementsWritten(opt: Options, v: Value, i: nat, j: nat, inner: nat, first: bool, asWritten: bool)
    requires v.payload.Vector? && i <= j < |v.payload.items| && Defined(v.payload.items[j])
    ensures |Elements(opt, v, i, inner, first, asWritten)| >= |opt.eol|
    decreases j - i
  {
    var items := v.payload.items;
    if Defined(items[i]) {
      var c := if !first && opt.separator then [COMMA] else [];
      assert Elements(opt, v, i, inner, first, asWritten) ==
             c + WriteIndent(opt, inner) + Str(opt, items[i], inner, true, [], false, asWritten) +
             Elements(opt, v, i + 1, inner, false, asWritten);
    } else {
      assert i != j;
      assert Elements(opt, v, i, inner, first, asWritten) == Elements(opt, v, i + 1, inner, first, asWritten);
      ElementsWritten(opt, v, i + 1, j, inner, first, asWritten);
    }
  }

  /** The member loop writes nothing when every member left holds
      UNDEFINED. */
  lemma {:induction false} MembersEmpty(opt: Options, v: Value, keys: seq<Bytes>, i: nat, inner: nat, first: bool, asWritten: bool)
    requires v.payload.Map? && keys == SortedKeys(v.payload.entries) && i <= |keys|
    requires forall j | i <= j < |keys| :: keys[j] in v.payload.entries && !Defined(v.payload.entries[keys[j]])
    ensures Members(opt, v, keys, i, inner, first, asWritten) == []
    decreases |keys| - i
  {
    if i < |keys| {
      assert keys[i] in v.payload.entries && !Defined(v.payload.entries[keys[i]]);
      MemberSkipped(opt, v, keys, i, inner, first, asWritten);
      MembersEmpty(opt, v, keys, i + 1, inner, first, asWritten);
    }
  }

  /** Conversely, a member left that holds a defined value makes the loop
      write at least one end of line, since each member it writes starts on
      a new line; so with a non-empty end of line the loop writes nothing
      only when every member left holds UNDEFINED. */
  lemma {:induction false} MembersWritten(opt: Options, v: Value, keys: seq<Bytes>, i: nat, j: nat, inner: nat,
                                          first: bool, asWritten: bool)
    requires v.payload.Map? && keys == SortedKeys(v.payload.entries) && i <= j < |keys|
    requires keys[j] in v.payload.entries && Defined(v.payload.entries[keys[j]])
    ensures |Members(opt, v, keys, i, inner, first, asWritten)| >= |opt.eol|
    decreases j - i
  {
    var m := v.payload.entries;
    assert keys[i] in m;
    if Defined(m[keys[i]]) {
      MemberLine(opt, v, keys, i, inner, first, asWritten);
    } else {
      assert i != j;
      MemberSkipped(opt, v, keys, i, inner, first, asWritten);
      MembersWritten(opt, v, keys, i + 1, j, inner, first, asWritten);
    }
  }

  /** A member holding UNDEFINED adds nothing. */
  lemma MemberSkipped(opt: Options, v: Value, keys: seq<Bytes>, i: nat, inner: nat, first: bool, asWritten: bool)
    requires v.payload.Map? && keys == SortedKeys(v.payload.entries) && i < |keys|
    requires keys[i] in v.payload.entries && !Defined(v.payload.entries[keys[i]])
    ensures Members(opt, v, keys, i, inner, first, asWritten) == Members(opt, v, keys, i + 1, inner, first, asWritten)
  {
  }

  /** A member the loop writes takes at least one end of line. */
  lemma MemberLine(opt: Options, v: Value, keys: seq<Bytes>, i: nat, inner: nat, first: bool, asWritten: bool)
    requires v.payload.Map? && keys == SortedKeys(v.payload.entries) && i < |keys|
    requires keys[i] in v.payload.entries && Defined(v.payload.entries[keys[i]])
    ensures |Members(opt, v, keys, i, inner, first, asWritten)| >= |opt.eol|
  {
    var m := v.payload.entries;
    var c := if !first && opt.separator then [COMMA] else [];
    assert Members(opt, v, keys, i, inner, first, asWritten) ==
           c + WriteIndent(opt, inner) + QuoteName(opt, keys[i], asWritten) + [COLON] +
           Str(opt, m[keys[i]], inner, false, [SPACE], false, asWritten) +
           Members(opt, v, keys, i + 1, inner, false, asWritten);
  }

  /** `MarshalWithOptions`: `separator` forces `quoteAlways`. A root
      string is bare or double-quoted, and always double-quoted with
      `separator`. */
  function MarshalWith(opt: Options, v: Value, asWritten: bool): (r: Bytes)
    ensures v.payload.String? ==> r == v.payload.s || DoubleQuoted(r, [])
    ensures v.payload.String? && opt.separator ==> DoubleQuoted(r, [])
  {
    var o := if opt.separator then opt.(quoteAlways := true) else opt;
    Str(o, v, 0, true, [], true, asWritten)
  }

  /** The writer with the corrected `_mlString` one-line rule and the
      corrected `needsEscapeName`. A root VECTOR is the whole text from
      `[` to `]`; a root MAP with `emitRootBraces` starts with `{`. */
  function MarshalWithOptions(opt: Options, v: Value): (r: Bytes)
    ensures v.payload.Vector? ==> |r| > 0 && r[0] == LBRACKET && r[|r| - 1] == RBRACKET
    ensures v.payload.Map? && opt.emitRootBraces ==> |r| > 0 && r[0] == LBRACE
  {
    var o := if opt.separator then opt.(quoteAlways := true) else opt;
    VectorOpens(o, v, 0, [], true, false);
    MapFrame(o, v, 0, [], true, false);
    MarshalWith(opt, v, false)
  }

  /** `Marshal`: the default options. A non-empty root MAP is written
      between braces, followed by a line feed. */
  function Marshal(v: Value): (r: Bytes)
    ensures v.payload.Map? && |v.payload.entries| > 0 ==>
              |r| >= 3 && r[0] == LBRACE && r[|r| - 2..] == [RBRACE, LF]
  {
    MapFrame(DefaultOptions, v, 0, [], true, false);
    assert WriteIndent(DefaultOptions, 0) == [LF];
    MarshalWithOptions(DefaultOptions, v)
  }
}

=== FILE: encoder_facts.dfy ===
/** Properties of the encoder of src/hjson_encode.cpp: when a string or a
    key is written without quotes, what the options force, and how numbers
    and containers are laid out. */
module EncoderFacts {
  import opened Bytes
  import opened Outcome
  import opened NumberLexer
  import opened KeyOrder
  import opened Values
  import opened Encoder

  // ---------------------------------------------------------------------
  // When a string goes without quotes
  // ---------------------------------------------------------------------

  /** A block-form multiline string ends with the closing quotes. */
  lemma BlockEnd(opt: Options, level: nat, s: Bytes, sep: Bytes, asWritten: bool)
    requires !OneLine(s, asWritten)
    ensures var r := MLString(opt, level, s, sep, asWritten);
      |r| >= 3 && r[|r| - 3..] == TripleQuote
  {
  }

  /** A text that ends with three quotes is not the bare text of a string
      that goes to `_mlString`: the string would hold three quotes or
      consist of quotes only, and neither reaches the multiline form. */
  lemma NotBareText(r: Bytes, sep: Bytes, s: Bytes)
    requires NeedsEscape(s) && !NeedsEscapeML(s)
    requires |r| >= 3 && r[|r| - 3..] == TripleQuote
    ensures r != sep + s
  {
    if r == sep + s {
      if |s| >= 3 {
        assert s[|s| - 3..] == r[|r| - 3..];
        assert HasAt(s, |s| - 3, TripleQuote);
        assert false;
      } else {
        forall i | 0 <= i < |s|
          ensures EscapeAt(s, i) == 0
        {
          assert s[i] == r[|r| - 3..][3 - |s| + i];
        }
        assert false;
      }
    }
  }

  /** `_quote` writes a string bare exactly when it is not empty,
      `quoteAlways` is off and none of `needsQuotes`, `startsWithNumber`
      and `startsWithKeyword` matches: so "true", "42", " x" and "#x" are
      always quoted. */
  lemma QuoteBareIff(opt: Options, level: nat, s: Bytes, sep: Bytes, isRoot: bool, asWritten: bool)
    ensures Quote(opt, level, s, sep, isRoot, asWritten) == sep + s <==>
      |s| > 0 && !opt.quoteAlways && !NeedsQuotes(s) && !StartsWithNumber(s) && !StartsWithKeyword(s)
  {
    var r := Quote(opt, level, s, sep, isRoot, asWritten);
    if |s| > 0 && (opt.quoteAlways || NeedsQuotes(s) || StartsWithNumber(s) || StartsWithKeyword(s)) {
      if NeedsEscape(s) {
        if !opt.quoteAlways && !NeedsEscapeML(s) && !isRoot {
          if OneLine(s, asWritten) {
            assert |r| == |sep| + |s| + 6;
          } else {
            BlockEnd(opt, level, s, sep, asWritten);
            NotBareText(r, sep, s);
          }
        } else {
          assert |r| >= |sep| + |s| + 2;
        }
      } else {
        assert |r| == |sep| + |s| + 2;
      }
    }
  }

  /** With `separator` set, `MarshalWithOptions` quotes every non-empty
      string value, and never in the multiline form. */
  lemma SeparatorQuotesStrings(opt: Options, s: Bytes)
    requires opt.separator && |s| > 0
    ensures MarshalWithOptions(opt, Fresh(String(s))) ==
            [DQUOTE] + (if NeedsEscape(s) then QuoteReplace(s) else s) + [DQUOTE]
  {
  }

  // ---------------------------------------------------------------------
  // When a key goes without quotes
  // ---------------------------------------------------------------------

  /** `_quoteName` writes a key bare exactly when it is not empty,
      `quoteKeys` is off and `needsEscapeName` does not match; an empty key
      is `""`. */
  lemma QuoteNameBareIff(opt: Options, name: Bytes, asWritten: bool)
    ensures QuoteName(opt, name, asWritten) == name <==>
      |name| > 0 && !opt.quoteKeys && !NeedsEscapeName(name, asWritten)
    ensures |name| == 0 ==> QuoteName(opt, name, asWritten) == [DQUOTE, DQUOTE]
  {
    if |name| > 0 && (opt.quoteKeys || NeedsEscapeName(name, asWritten)) {
      assert |QuoteName(opt, name, asWritten)| >= |name| + 2;
    }
  }

  /** A key holding a comma, a colon, a blank or a comment opener is
      quoted. */
  lemma NameBreaksQuote(opt: Options, name: Bytes, i: nat)
    requires i < |name|
    requires name[i] in {COMMA, COLON, SPACE} || HasAt(name, i, [SLASH, SLASH]) || HasAt(name, i, [SLASH, STAR])
    ensures QuoteName(opt, name, true) != name && QuoteName(opt, name, false) != name
  {
    assert NameBreakAt(name, i, true) && NameBreakAt(name, i, false);
    QuoteNameBareIff(opt, name, true);
    QuoteNameBareIff(opt, name, false);
  }

  // ---------------------------------------------------------------------
  // Numbers
  // ---------------------------------------------------------------------

  /** NaN and the infinities are written as `null`; minus zero as `0`
      unless `allowMinusZero`. */
  lemma NumberTextSpecial(opt: Options, neg: bool)
    ensures NumberText(opt, Dbl(NaN)) == Ascii("null")
    ensures NumberText(opt, Dbl(Infinity(neg))) == Ascii("null")
    ensures NumberText(opt, Dbl(Decimal([MINUS, 0x30]))) == if opt.allowMinusZero then [MINUS, 0x30] else Ascii("0")
  {
    MinusZeroParts();
  }

  lemma MinusZeroParts()
    ensures NegativeZero([MINUS, 0x30])
  {
    var p := Parts(true, [0x30], None, None);
    assert [MINUS, 0x30] == Compose(p) + [];
    PartsOfCompose(p, []);
  }

  /** The digits of `n` have the value `n`. */
  lemma {:induction false} DigitsValue(n: nat)
    ensures DecimalValue(Digits(n)) == n
  {
    if n >= 10 {
      DigitsValue(n / 10);
      var d := Digits(n);
      assert d[..|d| - 1] == Digits(n / 10);
    }
  }

  /** The digits of `n` have no leading zero, unless `n` is 0 itself. */
  lemma {:induction false} DigitsLead(n: nat)
    ensures IntPartOk(Digits(n))
    ensures n > 0 ==> Digits(n)[0] != 0x30
  {
    if n >= 10 {
      DigitsLead(n / 10);
    }
  }

  /** An integer as the encoder writes it reads back through
      `tryParseNumber` as the same integer, for the magnitudes the fifteen
      digits of the stream keep exact. */
  lemma IntTextRoundTrip(i: int)
    requires -1_000_000_000_000_000 < i < 1_000_000_000_000_000
    ensures ParseNumber(IntText(i), false) == Some(Int(i))
  {
    var p := IntTextParts(i);
    ParseComposed(p, [], [], false);
  }

  /** The parts of an integer's text. */
  lemma IntTextParts(i: int) returns (p: Parts)
    requires -1_000_000_000_000_000 < i < 1_000_000_000_000_000
    ensures PartsWellFormed(p) && |p.intDigits| > 0 && p.exp.None? && IntPartOk(p.intDigits)
    ensures IntText(i) == Compose(p) + [] + []
    ensures ValueOf(p) == Some(Int(i))
  {
    var n: nat := if i < 0 then -i else i;
    p := Parts(i < 0, Digits(n), None, None);
    DigitsValue(n);
    DigitsLead(n);
    assert IntValue(p) == Some(i);
  }

  /** The same through the number writer. */
  lemma NumberTextRoundTrip(opt: Options, i: int)
    requires -1_000_000_000_000_000 < i < 1_000_000_000_000_000
    ensures ParseNumber(NumberText(opt, Int(i)), false) == Some(Int(i))
  {
    IntTextRoundTrip(i);
  }

  // ---------------------------------------------------------------------
  // Containers
  // ---------------------------------------------------------------------

  /** Empty containers are `[]` and `{}`, and UNDEFINED is written as
      nothing. */
  lemma EmptyContainers(opt: Options, level: nat, noIndent: bool, sep: Bytes, isRoot: bool, asWritten: bool)
    ensures Str(opt, Fresh(Vector([])), level, noIndent, sep, isRoot, asWritten) == sep + [LBRACKET, RBRACKET]
    ensures Str(opt, Fresh(Map(map[])), level, noIndent, sep, isRoot, asWritten) == sep + [LBRACE, RBRACE]
    ensures Str(opt, Nothing, level, noIndent, sep, isRoot, asWritten) == sep
  {
  }

  /** The number value `n` as a fresh DOUBLE. */
  function Num(n: int): Value {
    Fresh(Double(Int(n)))
  }

  /** `[3,4,5]` is written one element per line, indented by two blanks:
      "[\n  3\n  4\n  5\n]". */
  lemma VectorLayout()
    ensures Marshal(Fresh(Vector([Num(3), Num(4), Num(5)]))) ==
            [LBRACKET, LF, SPACE, SPACE, 0x33, LF, SPACE, SPACE, 0x34, LF, SPACE, SPACE, 0x35, LF, RBRACKET]
  {
    ThreeLines(Fresh(Vector([Num(3), Num(4), Num(5)])), 3, 4, 5);
  }

  /** A root vector of three one-digit integers, with the default options:
      one line per element, indented by two blanks, and the closing bracket
      on a line of its own. */
  lemma ThreeLines(v: Value, a: nat, b: nat, c: nat)
    requires v.payload.Vector? && v.payload.items == [Num(a), Num(b), Num(c)] && a < 10 && b < 10 && c < 10
    ensures Marshal(v) ==
            [LBRACKET, LF, SPACE, SPACE, (0x30 + a) as byte, LF, SPACE, SPACE, (0x30 + b) as byte,
             LF, SPACE, SPACE, (0x30 + c) as byte, LF, RBRACKET]
  {
    var e := Elements(DefaultOptions, v, 0, 1, true, false);
    ThreeElements(v, a, b, c);
    MarshalVector(v);
    assert [LBRACKET] + e + [LF, RBRACKET] ==
           [LBRACKET, LF, SPACE, SPACE, (0x30 + a) as byte, LF, SPACE, SPACE, (0x30 + b) as byte,
            LF, SPACE, SPACE, (0x30 + c) as byte, LF, RBRACKET];
  }

  /** The element lines of three one-digit integers at the first level. */
  lemma ThreeElements(v: Value, a: nat, b: nat, c: nat)
    requires v.payload.Vector? && v.payload.items == [Num(a), Num(b), Num(c)] && a < 10 && b < 10 && c < 10
    ensures Elements(DefaultOptions, v, 0, 1, true, false) ==
            [LF, SPACE, SPACE, (0x30 + a) as byte, LF, SPACE, SPACE, (0x30 + b) as byte,
             LF, SPACE, SPACE, (0x30 + c) as byte]
  {
    ElementLine(v, 0, a, true);
    ElementLine(v, 1, b, false);
    ElementLine(v, 2, c, false);
    assert Elements(DefaultOptions, v, 3, 1, false, false) == [];
  }

  /** A non-empty vector at the root, with the default options: the
      brackets around the elements, the closing one on a line of its own. */
  lemma MarshalVector(v: Value)
    requires v.payload.Vector? && |v.payload.items| > 0
    ensures Marshal(v) == [LBRACKET] + Elements(DefaultOptions, v, 0, 1, true, false) + [LF, RBRACKET]
  {
    var d := DefaultOptions;
    var e := Elements(d, v, 0, 1, true, false);
    assert Marshal(v) == MarshalWithOptions(d, v) == MarshalWith(d, v, false);
    assert MarshalWith(d, v, false) == Str(d, v, 0, true, [], true, false) == VectorStr(d, v, 0, true, [], false);
    assert VectorStr(d, v, 0, true, [], false) == Opening(d, 0, true, []) + [LBRACKET] + e + WriteIndent(d, 0) + [RBRACKET];
    assert WriteIndent(d, 0) == [LF];
  }

  /** A one-digit element of a vector at the first level, with the
      default options: a line feed, two blanks and the digit. */
  lemma ElementLine(v: Value, i: nat, k: nat, first: bool)
    requires v.payload.Vector? && i < |v.payload.items| && v.payload.items[i] == Num(k) && k < 10
    ensures Elements(DefaultOptions, v, i, 1, first, false) ==
            [LF, SPACE, SPACE, (0x30 + k) as byte] + Elements(DefaultOptions, v, i + 1, 1, false, false)
  {
    assert WriteIndent(DefaultOptions, 1) == [LF, SPACE, SPACE];
    assert Str(DefaultOptions, Num(k), 1, true, [], false, false) == [(0x30 + k) as byte];
  }

  /** A root MAP whose members are all UNDEFINED is not empty, so it is
      written with its braces on lines of their own, and, as the code
      writes a root object with `emitRootBraces`, a final line break:
      "{\n}\n". */
  lemma UndefinedOnlyMap(m: map<Bytes, Value>)
    requires |m| > 0 && forall k | k in m :: !Defined(m[k])
    ensures Marshal(Fresh(Map(m))) == [LBRACE, LF, RBRACE, LF]
  {
    var v := Fresh(Map(m));
    var d := DefaultOptions;
    assert v.payload == Map(m);
    MembersEmpty(d, v, SortedKeys(m), 0, 1, true, false);
    assert Marshal(v) == MarshalWithOptions(d, v) == MarshalWith(d, v, false);
    assert MarshalWith(d, v, false) == Str(d, v, 0, true, [], true, false);
    assert Str(d, v, 0, true, [], true, false) == MapStr(d, v, 0, true, [], true, false);
    assert Opening(d, 0, true, []) == [] && WriteIndent(d, 0) == [LF];
    assert MapStr(d, v, 0, true, [], true, false) == [] + [LBRACE] + [] + [LF] + [RBRACE] + [LF];
  }
}

=== FILE: key_order.dfy ===
/** The order in which a MAP value keeps and visits its keys. Maps are
    `std::map<std::string, Value>`, whose `std::less<std::string>` compares
    byte by byte as unsigned characters, a proper prefix coming first. */
module KeyOrder {
  import opened Bytes

  /** `a` sorts strictly before `b`. */
  predicate Less(a: Bytes, b: Bytes) {
    if |a| == 0 then |b| > 0
    else if |b| == 0 then false
    else if a[0] != b[0] then a[0] < b[0]
    else Less(a[1..], b[1..])
  }

  predicate LessEq(a: Bytes, b: Bytes) {
    a == b || Less(a, b)
  }

  lemma {:induction false} Irreflexive(a: Bytes)
    ensures !Less(a, a)
  {
    if |a| > 0 {
      Irreflexive(a[1..]);
    }
  }

  /** Exactly one of `Less(a, b)`, `a == b` and `Less(b, a)` holds. */
  lemma {:induction false} Trichotomy(a: Bytes, b: Bytes)
    ensures Less(a, b) || a == b || Less(b, a)
    ensures !(Less(a, b) && Less(b, a))
    ensures Less(a, b) ==> a != b
  {
    if |a| > 0 && |b| > 0 && a[0] == b[0] {
      Trichotomy(a[1..], b[1..]);
      if a[1..] == b[1..] {
        assert a == [a[0]] + a[1..] && b == [b[0]] + b[1..];
      }
    }
    if Less(a, b) && a == b {
      Irreflexive(a);
    }
  }

  lemma {:induction false} Transitive(a: Bytes, b: Bytes, c: Bytes)
    requires Less(a, b) && Less(b, c)
    ensures Less(a, c)
  {
    if |a| > 0 && |b| > 0 && |c| > 0 && a[0] == b[0] && b[0] == c[0] {
      Transitive(a[1..], b[1..], c[1..]);
    }
  }

  lemma AntisymmetricAll()
    ensures forall a: Bytes, b: Bytes :: LessEq(a, b) && LessEq(b, a) ==> a == b
  {
    forall a: Bytes, b: Bytes | LessEq(a, b) && LessEq(b, a)
      ensures a == b
    {
      Trichotomy(a, b);
    }
  }

  lemma {:induction false} MinExists(s: set<Bytes>)
    requires s != {}
    ensures exists k :: k in s && forall y | y in s :: LessEq(k, y)
    decreases |s|
  {
    var x :| x in s;
    var rest := s - {x};
    if rest == {} {
      assert s == {x};
    } else {
      MinExists(rest);
      var m :| m in rest && forall y | y in rest :: LessEq(m, y);
      Trichotomy(x, m);
      if Less(x, m) {
        forall y | y in s
          ensures LessEq(x, y)
        {
          if y != x {
            assert LessEq(m, y);
            if m != y {
              Transitive(x, m, y);
            }
          }
        }
      } else {
        assert forall y | y in s :: LessEq(m, y);
      }
    }
  }

  /** The least key of a non-empty set. */
  function Least(s: set<Bytes>): (k: Bytes)
    requires s != {}
    ensures k in s
    ensures forall y | y in s :: LessEq(k, y)
  {
    MinExists(s);
    AntisymmetricAll();
    var k :| k in s && forall y | y in s :: LessEq(k, y);
    k
  }

  /** The keys of `s` in map iteration order: strictly increasing, holding
      every key exactly once. */
  function Sorted(s: set<Bytes>): (r: seq<Bytes>)
    ensures |r| == |s|
    ensures forall k :: k in r <==> k in s
    ensures forall i, j | 0 <= i < j < |r| :: Less(r[i], r[j])
    decreases |s|
  {
    if s == {} then []
    else
      var k := Least(s);
      var rest := Sorted(s - {k});
      assert forall j | 0 <= j < |rest| :: Less(k, rest[j]) by {
        forall j | 0 <= j < |rest|
          ensures Less(k, rest[j])
        {
          assert rest[j] in s - {k};
        }
      }
      [k] + rest
  }

  /** The keys of a map in iteration order. */
  function SortedKeys<V>(m: map<Bytes, V>): (r: seq<Bytes>)
    ensures |r| == |m|
    ensures forall k :: k in r <==> k in m
    ensures forall i, j | 0 <= i < j < |r| :: Less(r[i], r[j])
  {
    Sorted(m.Keys)
  }

  /** The iteration order depends on the key set alone. */
  lemma SortedKeysOfKeys<V, W>(a: map<Bytes, V>, b: map<Bytes, W>)
    requires a.Keys == b.Keys
    ensures SortedKeys(a) == SortedKeys(b)
  {
  }

  /** Two strictly increasing sequences with the same elements are equal:
      the iteration order is determined by the key set alone. */
  lemma {:induction false} SortedUnique(a: seq<Bytes>, b: seq<Bytes>)
    requires forall i, j | 0 <= i < j < |a| :: Less(a[i], a[j])
    requires forall i, j | 0 <= i < j < |b| :: Less(b[i], b[j])
    requires forall k :: k in a <==> k in b
    ensures a == b
  {
    assert |a| > 0 ==> a[0] in b;
    assert |b| > 0 ==> b[0] in a;
    if |a| > 0 && |b| > 0 {
      if a[0] != b[0] {
        assert a[0] in b && b[0] in a;
        var i :| 0 <= i < |b| && b[i] == a[0];
        var j :| 0 <= j < |a| && a[j] == b[0];
        assert i > 0 && j > 0;
        Transitive(a[0], a[j], a[0]);
        Irreflexive(a[0]);
      }
      forall k
        ensures k in a[1..] <==> k in b[1..]
      {
        if k in a[1..] {
          var i :| 1 <= i < |a| && a[i] == k;
          Trichotomy(a[0], a[i]);
          assert k in a && k in b;
          var m :| 0 <= m < |b| && b[m] == k;
          assert m != 0;
          assert b[1..][m - 1] == k;
        }
        if k in b[1..] {
          var i :| 1 <= i < |b| && b[i] == k;
          Trichotomy(b[0], b[i]);
          assert k in b && k in a;
          var m :| 0 <= m < |a| && a[m] == k;
          assert m != 0;
          assert a[1..][m - 1] == k;
        }
      }
      SortedUnique(a[1..], b[1..]);
      assert a == [a[0]] + a[1..] && b == [b[0]] + b[1..];
    }
  }
}

=== FILE: ml_round_trip.dfy ===
/** The multiline string form: what `_mlString` writes, `_readMLString`
    reads back, for texts without carriage returns. The decoder removes
    from each line at most as many blanks as the opening quotes are
    indented, so the encoder's indentation, one level deeper than the
    value, comes off exactly and leading blanks of a line survive. */
module MultilineRoundTrip {
  import opened Bytes
  import opened Outcome
  import opened Decoder
  import opened Encoder

  // ---------------------------------------------------------------------
  // Bytes at a position of the input

  /** The bytes `u` stand in `data` from index `a` on. */
  predicate At(data: Bytes, a: nat, u: Bytes)
    decreases |u|
  {
    a + |u| <= |data| && (|u| == 0 || (data[a] == u[0] && At(data, a + 1, u[1..])))
  }

  lemma {:induction false} AtAppend(data: Bytes, a: nat, u: Bytes, v: Bytes)
    ensures At(data, a, u + v) <==> At(data, a, u) && At(data, a + |u|, v)
    decreases |u|
  {
    if |u| == 0 {
      assert u + v == v;
    } else {
      assert (u + v)[1..] == u[1..] + v;
      AtAppend(data, a + 1, u[1..], v);
    }
  }

  lemma {:induction false} AtIndex(data: Bytes, a: nat, u: Bytes, j: nat)
    requires At(data, a, u) && j < |u|
    ensures data[a + j] == u[j]
    decreases j
  {
    if j > 0 {
      AtIndex(data, a + 1, u[1..], j - 1);
    }
  }

  /** A sequence stands where it was put. */
  lemma {:induction false} AtConcat(pre: Bytes, u: Bytes, post: Bytes)
    ensures At(pre + u + post, |pre|, u)
    decreases |u|
  {
    if |u| > 0 {
      assert (pre + u + post)[|pre|] == u[0];
      assert pre + u + post == (pre + [u[0]]) + u[1..] + post;
      AtConcat(pre + [u[0]], u[1..], post);
    }
  }

  // ---------------------------------------------------------------------
  // Three quotes in a row

  /** Three single quotes start at `i`. */
  predicate TripleAt(s: Bytes, i: nat)
    requires i + 2 < |s|
  {
    s[i] == SQUOTE && s[i + 1] == SQUOTE && s[i + 2] == SQUOTE
  }

  /** No three single quotes in a row. */
  predicate NoTriple(s: Bytes) {
    forall i | 0 <= i && i + 2 < |s| :: !TripleAt(s, i)
  }

  lemma NoTripleIff(s: Bytes)
    ensures !Contains(s, TripleQuote) <==> NoTriple(s)
  {
    if !NoTriple(s) {
      var i :| 0 <= i && i + 2 < |s| && TripleAt(s, i);
      assert s[i..i + 3] == TripleQuote;
      assert HasAt(s, i, TripleQuote);
    }
    if Contains(s, TripleQuote) {
      var i :| 0 <= i <= |s| && HasAt(s, i, TripleQuote);
      assert s[i..i + 3][0] == s[i] && s[i..i + 3][1] == s[i + 1] && s[i..i + 3][2] == s[i + 2];
      assert TripleAt(s, i);
    }
  }

  /** Suffixes keep `NoTriple`. */
  lemma NoTripleSuffix(s: Bytes, k: nat)
    requires NoTriple(s) && k <= |s|
    ensures NoTriple(s[k..])
  {
    forall i | 0 <= i && i + 2 < |s[k..]|
      ensures !TripleAt(s[k..], i)
    {
      assert !TripleAt(s, k + i);
      assert s[k..][i] == s[k + i] && s[k..][i + 1] == s[k + i + 1] && s[k..][i + 2] == s[k + i + 2];
    }
  }

  /** Prefixes keep `NoTriple`. */
  lemma NoTriplePrefix(s: Bytes, k: nat)
    requires NoTriple(s) && k <= |s|
    ensures NoTriple(s[..k])
  {
    forall i | 0 <= i && i + 2 < |s[..k]|
      ensures !TripleAt(s[..k], i)
    {
      assert !TripleAt(s, i);
      assert s[..k][i] == s[i] && s[..k][i + 1] == s[i + 1] && s[..k][i + 2] == s[i + 2];
    }
  }

  /** The pending quotes and the rest of a line that starts with a quote. */
  lemma QuoteShift(t: nat, l: Bytes)
    requires |l| > 0 && l[0] == SQUOTE && t < 3 && NoTriple(Quotes(t) + l)
    ensures t + 1 < 3 && Quotes(t + 1) + l[1..] == Quotes(t) + l
  {
    var q := Quotes(t) + l;
    if t == 2 {
      assert TripleAt(q, 0);
    }
    assert Quotes(t + 1) + l[1..] == q;
  }

  /** The rest of a line after a byte that flushes the pending quotes. */
  lemma ByteShift(t: nat, l: Bytes)
    requires |l| > 0 && NoTriple(Quotes(t) + l)
    ensures NoTriple(Quotes(0) + l[1..])
  {
    NoTripleSuffix(Quotes(t) + l, t + 1);
    assert (Quotes(t) + l)[t + 1..] == Quotes(0) + l[1..];
  }

  // ---------------------------------------------------------------------
  // Steps of the reader

  /** A byte the multiline reader keeps as it is. */
  predicate LineByte(c: byte) {
    c != NUL && c != LF && c != CR
  }

  /** One step of the multiline loop on a single quote that does not
      close the string. */
  lemma QuoteStep(data: Bytes, y: nat, w: nat, t: nat, lastLf: bool, res: Bytes)
    requires y + 1 < |data| && data[y] == SQUOTE && t + 1 < 3
    requires lastLf ==> |res| > 0
    ensures MLLoop(data, Parser(y + 1, data[y]), w, t, lastLf, res) ==
            MLLoop(data, Parser(y + 2, data[y + 1]), w, t + 1, lastLf, res)
  {
  }

  /** One step of the multiline loop on a byte kept as it is. */
  lemma ByteStep(data: Bytes, y: nat, w: nat, t: nat, lastLf: bool, res: Bytes)
    requires y + 1 < |data| && LineByte(data[y]) && data[y] != SQUOTE && t < 3
    requires lastLf ==> |res| > 0
    ensures MLLoop(data, Parser(y + 1, data[y]), w, t, lastLf, res) ==
            MLLoop(data, Parser(y + 2, data[y + 1]), w, 0, false, res + Quotes(t) + [data[y]])
  {
  }

  /** One step of the multiline loop on a line feed. */
  lemma LineFeedStep(data: Bytes, y: nat, w: nat, t: nat, lastLf: bool, res: Bytes)
    requires y < |data| && data[y] == LF && t < 3
    requires lastLf ==> |res| > 0
    ensures MLLoop(data, Parser(y + 1, data[y]), w, t, lastLf, res) ==
            MLLoop(data, SkipIndent(data, Advance(data, Parser(y + 1, LF)), w), w, 0, true, res + Quotes(t) + [LF])
  {
  }

  /** Three single quotes close the string; a line feed just before them
      is dropped. */
  lemma CloseRead(data: Bytes, z: nat, w: nat, lastLf: bool, res: Bytes)
    requires At(data, z, TripleQuote)
    requires lastLf ==> |res| > 0
    ensures MLLoop(data, Parser(z + 1, data[z]), w, 0, lastLf, res) ==
            Ok((if lastLf then res[..|res| - 1] else res, Advance(data, Parser(z + 3, SQUOTE))))
  {
    AtIndex(data, z, TripleQuote, 0);
    AtIndex(data, z, TripleQuote, 1);
    AtIndex(data, z, TripleQuote, 2);
    assert MLLoop(data, Parser(z + 1, SQUOTE), w, 0, lastLf, res) == MLLoop(data, Parser(z + 2, SQUOTE), w, 1, lastLf, res);
    assert MLLoop(data, Parser(z + 2, SQUOTE), w, 1, lastLf, res) == MLLoop(data, Parser(z + 3, SQUOTE), w, 2, lastLf, res);
  }

  /** `skipIndent` over blanks `b`, stopping at the limit `w` or at the
      first byte that is not a blank. */
  lemma {:induction false} SkipBlanks(data: Bytes, x: nat, b: Bytes, w: nat)
    requires At(data, x, b) && x + |b| < |data| && |b| <= w
    requires forall j | 0 <= j < |b| :: IsLineWhite(b[j])
    requires |b| == w || !IsLineWhite(data[x + |b|])
    ensures SkipIndent(data, Parser(x + 1, data[x]), w) == Parser(x + |b| + 1, data[x + |b|])
    decreases |b|
  {
    if |b| > 0 {
      assert IsLineWhite(b[0]);
      SkipBlanks(data, x + 1, b[1..], w - 1);
    }
  }

  /** From the cursor on a line feed, stepping past it and skipping the
      indentation lands on the byte after the blanks `b`. */
  lemma SkipLineIndent(data: Bytes, x: nat, b: Bytes, w: nat, c: byte)
    requires At(data, x, b) && x + |b| < |data| && |b| <= w
    requires forall j | 0 <= j < |b| :: IsLineWhite(b[j])
    requires |b| == w || !IsLineWhite(data[x + |b|])
    ensures SkipIndent(data, Advance(data, Parser(x, c)), w) == Parser(x + |b| + 1, data[x + |b|])
  {
    assert Advance(data, Parser(x, c)) == Parser(x + 1, data[x]);
    SkipBlanks(data, x, b, w);
  }

  /** One line up to its line feed: pending quotes and the line's bytes go
      to the result, then the line feed, and the next line's indentation
      is skipped. */
  lemma {:induction false} LineRead(data: Bytes, y: nat, l: Bytes, w: nat, t: nat, lastLf: bool, res: Bytes,
                                    out: Bytes, z: nat)
    requires At(data, y, l) && y + |l| < |data| && data[y + |l|] == LF
    requires forall k | 0 <= k < |l| :: LineByte(l[k])
    requires t < 3 && NoTriple(Quotes(t) + l)
    requires lastLf ==> |res| > 0
    requires out == res + Quotes(t) + l + [LF] && z == y + |l| + 1
    ensures MLLoop(data, Parser(y + 1, data[y]), w, t, lastLf, res) ==
            MLLoop(data, SkipIndent(data, Advance(data, Parser(z, LF)), w), w, 0, true, out)
    decreases |l|, 1
  {
    if |l| == 0 {
      LineFeedStep(data, y, w, t, lastLf, res);
      assert out == res + Quotes(t) + [LF];
    } else if l[0] == SQUOTE {
      QuoteLineRead(data, y, l, w, t, lastLf, res, out, z);
    } else {
      ByteLineRead(data, y, l, w, t, lastLf, res, out, z);
    }
  }

  /** `LineRead` on a line starting with a single quote: the quote is held
      back as pending. */
  lemma {:induction false} QuoteLineRead(data: Bytes, y: nat, l: Bytes, w: nat, t: nat, lastLf: bool, res: Bytes,
                                         out: Bytes, z: nat)
    requires At(data, y, l) && y + |l| < |data| && data[y + |l|] == LF
    requires forall k | 0 <= k < |l| :: LineByte(l[k])
    requires t < 3 && NoTriple(Quotes(t) + l)
    requires lastLf ==> |res| > 0
    requires out == res + Quotes(t) + l + [LF] && z == y + |l| + 1
    requires |l| > 0 && l[0] == SQUOTE
    ensures MLLoop(data, Parser(y + 1, data[y]), w, t, lastLf, res) ==
            MLLoop(data, SkipIndent(data, Advance(data, Parser(z, LF)), w), w, 0, true, out)
    decreases |l|, 0
  {
    LineTail(data, y, l);
    QuoteShift(t, l);
    QuoteStep(data, y, w, t, lastLf, res);
    assert out == res + Quotes(t + 1) + l[1..] + [LF];
    LineRead(data, y + 1, l[1..], w, t + 1, lastLf, res, out, z);
  }

  /** `LineRead` on a line starting with any other byte: the pending quotes
      and the byte go to the result. */
  lemma {:induction false} ByteLineRead(data: Bytes, y: nat, l: Bytes, w: nat, t: nat, lastLf: bool, res: Bytes,
                                        out: Bytes, z: nat)
    requires At(data, y, l) && y + |l| < |data| && data[y + |l|] == LF
    requires forall k | 0 <= k < |l| :: LineByte(l[k])
    requires t < 3 && NoTriple(Quotes(t) + l)
    requires lastLf ==> |res| > 0
    requires out == res + Quotes(t) + l + [LF] && z == y + |l| + 1
    requires |l| > 0 && l[0] != SQUOTE
    ensures MLLoop(data, Parser(y + 1, data[y]), w, t, lastLf, res) ==
            MLLoop(data, SkipIndent(data, Advance(data, Parser(z, LF)), w), w, 0, true, out)
    decreases |l|, 0
  {
    var res' := res + Quotes(t) + [l[0]];
    LineTail(data, y, l);
    ByteShift(t, l);
    ByteStep(data, y, w, t, lastLf, res);
    assert out == res' + Quotes(0) + l[1..] + [LF];
    LineRead(data, y + 1, l[1..], w, 0, false, res', out, z);
  }

  /** A non-empty line at `y`: its first byte is there, and the rest of it
      follows. */
  lemma LineTail(data: Bytes, y: nat, l: Bytes)
    requires At(data, y, l) && |l| > 0
    requires forall k | 0 <= k < |l| :: LineByte(l[k])
    ensures data[y] == l[0] && At(data, y + 1, l[1..])
    ensures forall k | 0 <= k < |l[1..]| :: LineByte(l[1..][k])
  {
  }

  /** A non-empty run of line bytes whose last byte is not a single quote:
      all of it goes to the result and no quote is left pending. */
  lemma {:induction false} RunRead(data: Bytes, y: nat, l: Bytes, w: nat, t: nat, lastLf: bool, res: Bytes,
                                   out: Bytes, z: nat)
    requires |l| > 0 && l[|l| - 1] != SQUOTE
    requires At(data, y, l) && y + |l| < |data|
    requires forall k | 0 <= k < |l| :: LineByte(l[k])
    requires t < 3 && NoTriple(Quotes(t) + l)
    requires lastLf ==> |res| > 0
    requires out == res + Quotes(t) + l && z == y + |l|
    ensures MLLoop(data, Parser(y + 1, data[y]), w, t, lastLf, res) ==
            MLLoop(data, Parser(z + 1, data[z]), w, 0, false, out)
    decreases |l|
  {
    assert data[y] == l[0];
    if |l| == 1 {
      ByteStep(data, y, w, t, lastLf, res);
      assert out == res + Quotes(t) + [l[0]];
    } else {
      assert At(data, y + 1, l[1..]);
      assert data[y + 1] == l[1..][0];
      assert l[1..][|l[1..]| - 1] == l[|l| - 1];
      assert forall k | 0 <= k < |l[1..]| :: LineByte(l[1..][k]);
      if l[0] == SQUOTE {
        QuoteShift(t, l);
        QuoteStep(data, y, w, t, lastLf, res);
        assert out == res + Quotes(t + 1) + l[1..];
        RunRead(data, y + 1, l[1..], w, t + 1, lastLf, res, out, z);
      } else {
        var res' := res + Quotes(t) + [l[0]];
        ByteShift(t, l);
        ByteStep(data, y, w, t, lastLf, res);
        assert out == res' + Quotes(0) + l[1..];
        RunRead(data, y + 1, l[1..], w, 0, false, res', out, z);
      }
    }
  }


  // ---------------------------------------------------------------------
  // The lines the encoder writes

  /** The encoder's indentation is made of blanks the decoder may skip. */
  predicate BlankIndent(opt: Options) {
    forall k | 0 <= k < |opt.indentBy| :: IsLineWhite(opt.indentBy[k])
  }

  lemma BlankIndentation(opt: Options, n: nat)
    requires BlankIndent(opt)
    ensures forall j | 0 <= j < |Indentation(opt, n)| :: IsLineWhite(Indentation(opt, n)[j])
  {
    var r := Indentation(opt, n);
    forall j | 0 <= j < |r|
      ensures IsLineWhite(r[j])
    {
      assert r[j] in opt.indentBy;
      var k :| 0 <= k < |opt.indentBy| && opt.indentBy[k] == r[j];
    }
  }

  /** The closing line: a line break, the indentation, three quotes. */
  function Closing(opt: Options, level: nat): Bytes {
    WriteIndent(opt, level + 1) + TripleQuote
  }

  /** The line part of a multiline string followed by its closing line. */
  function Body(opt: Options, level: nat, s: Bytes): Bytes {
    MLLines(opt, level, s) + Closing(opt, level)
  }

  /** The indentation written before the first line of `s`. */
  function FirstIndent(opt: Options, level: nat, s: Bytes): Bytes {
    Indentation(opt, if LineEnd(s) == 0 then 0 else level + 1)
  }

  /** What follows the first line of `s`. */
  function AfterFirst(opt: Options, level: nat, s: Bytes): Bytes {
    if LineEnd(s) == |s| then Closing(opt, level) else Body(opt, level, s[LineEnd(s) + 1..])
  }

  lemma BodyShape(opt: Options, level: nat, s: Bytes)
    requires opt.eol == [LF]
    ensures Body(opt, level, s) == [LF] + FirstIndent(opt, level, s) + s[..LineEnd(s)] + AfterFirst(opt, level, s)
    ensures |AfterFirst(opt, level, s)| > 0 && AfterFirst(opt, level, s)[0] == LF
  {
    BodySplit(opt, level, s);
    AfterFirstStart(opt, level, s);
  }

  /** `Body` splits into the first line and what follows it. */
  lemma BodySplit(opt: Options, level: nat, s: Bytes)
    requires opt.eol == [LF]
    ensures Body(opt, level, s) == [LF] + FirstIndent(opt, level, s) + s[..LineEnd(s)] + AfterFirst(opt, level, s)
  {
    var tail := MLLinesShape(opt, level, s);
    Regroup4([LF], FirstIndent(opt, level, s), s[..LineEnd(s)], tail, Closing(opt, level));
  }

  /** `MLLines` is the first line and the lines after it. */
  lemma MLLinesShape(opt: Options, level: nat, s: Bytes) returns (tail: Bytes)
    requires opt.eol == [LF]
    ensures MLLines(opt, level, s) == ([LF] + FirstIndent(opt, level, s)) + s[..LineEnd(s)] + tail
    ensures tail + Closing(opt, level) == AfterFirst(opt, level, s)
  {
    tail := if LineEnd(s) == |s| then [] else MLLines(opt, level, s[LineEnd(s) + 1..]);
  }

  /** What follows the first line starts a new line. */
  lemma AfterFirstStart(opt: Options, level: nat, s: Bytes)
    requires opt.eol == [LF]
    ensures |AfterFirst(opt, level, s)| > 0 && AfterFirst(opt, level, s)[0] == LF
  {
    var e := LineEnd(s);
    assert Closing(opt, level)[0] == LF;
    if e < |s| {
      var rest := s[e + 1..];
      assert MLLines(opt, level, rest)[0] == LF;
      assert Body(opt, level, rest)[0] == LF;
    }
  }

  /** Concatenation regrouped. */
  lemma Regroup4(a: Bytes, b: Bytes, c: Bytes, d: Bytes, z: Bytes)
    ensures (a + b) + c + d + z == a + b + c + (d + z)
  {
  }

  lemma BodyLength(opt: Options, level: nat, s: Bytes)
    requires opt.eol == [LF]
    ensures |Body(opt, level, s)| == 1 + |FirstIndent(opt, level, s)| + LineEnd(s) + |AfterFirst(opt, level, s)|
  {
    BodyShape(opt, level, s);
  }

  /** The first line of `s` is made of bytes the reader keeps and holds
      no three quotes in a row. */
  lemma FirstLine(s: Bytes)
    requires forall k | 0 <= k < |s| :: s[k] != NUL && s[k] != CR
    requires NoTriple(s)
    ensures var line := s[..LineEnd(s)];
      (forall j | 0 <= j < |line| :: LineByte(line[j])) && NoTriple(Quotes(0) + line)
  {
    var line := s[..LineEnd(s)];
    NoTriplePrefix(s, LineEnd(s));
    assert Quotes(0) + line == line;
  }

  /** A slice holding four parts holds the last three at their places. */
  lemma AtParts(data: Bytes, a: nat, p: Bytes, u: Bytes, v: Bytes, z: Bytes)
    requires At(data, a, p + u + v + z)
    ensures At(data, a + |p|, u)
    ensures At(data, a + |p| + |u|, v)
    ensures At(data, a + |p| + |u| + |v|, z)
  {
    AtAppend(data, a, p + u + v, z);
    AtAppend(data, a, p + u, v);
    AtAppend(data, a, p, u);
  }

  /** The bytes written from a line feed on, laid out for reading. */
  lemma BodyLayout(opt: Options, level: nat, data: Bytes, x: nat, s: Bytes)
    requires opt.eol == [LF] && 1 <= x && At(data, x - 1, Body(opt, level, s))
    ensures var e := LineEnd(s);
      var ind := FirstIndent(opt, level, s);
      var y := x + |ind|;
      && At(data, x, ind)
      && At(data, y, s[..e])
      && At(data, y + e, AfterFirst(opt, level, s))
      && y + e < |data| && data[y + e] == LF
  {
    BodyShape(opt, level, s);
    AtParts(data, x - 1, [LF], FirstIndent(opt, level, s), s[..LineEnd(s)], AfterFirst(opt, level, s));
  }

  /** Reading the first line of a body: its indentation comes off, its
      bytes and a line feed go to the result, and the cursor ends on the
      line feed that starts what follows. */
  lemma FirstLineRead(opt: Options, level: nat, data: Bytes, x: nat, s: Bytes, lastLf: bool, res: Bytes,
                      x': nat, res': Bytes)
    requires opt.eol == [LF] && BlankIndent(opt)
    requires 1 <= x && At(data, x - 1, Body(opt, level, s))
    requires forall k | 0 <= k < |s| :: s[k] != NUL && s[k] != CR
    requires NoTriple(s)
    requires lastLf ==> |res| > 0
    requires x' == x + |FirstIndent(opt, level, s)| + LineEnd(s) + 1 && res' == res + s[..LineEnd(s)] + [LF]
    ensures At(data, x' - 1, AfterFirst(opt, level, s))
    ensures var w := |Indentation(opt, level + 1)|;
      MLLoop(data, SkipIndent(data, Advance(data, Parser(x, LF)), w), w, 0, lastLf, res) ==
      MLLoop(data, SkipIndent(data, Advance(data, Parser(x', LF)), w), w, 0, true, res')
  {
    var w := |Indentation(opt, level + 1)|;
    var e := LineEnd(s);
    var ind := FirstIndent(opt, level, s);
    BodyLayout(opt, level, data, x, s);
    BlankIndentation(opt, if e == 0 then 0 else level + 1);
    FirstLine(s);
    IndentedLineRead(data, x, ind, s[..e], w, lastLf, res, x', res');
  }

  /** One indented line from the cursor on the line feed before it: the
      blanks `ind` come off and the line goes to the result. */
  lemma IndentedLineRead(data: Bytes, x: nat, ind: Bytes, line: Bytes, w: nat, lastLf: bool, res: Bytes,
                         x': nat, res': Bytes)
    requires At(data, x, ind) && At(data, x + |ind|, line)
    requires x + |ind| + |line| < |data| && data[x + |ind| + |line|] == LF
    requires |ind| <= w && forall j | 0 <= j < |ind| :: IsLineWhite(ind[j])
    requires |ind| == w || !IsLineWhite(data[x + |ind|])
    requires (forall j | 0 <= j < |line| :: LineByte(line[j])) && NoTriple(Quotes(0) + line)
    requires lastLf ==> |res| > 0
    requires x' == x + |ind| + |line| + 1 && res' == res + line + [LF]
    ensures MLLoop(data, SkipIndent(data, Advance(data, Parser(x, LF)), w), w, 0, lastLf, res) ==
            MLLoop(data, SkipIndent(data, Advance(data, Parser(x', LF)), w), w, 0, true, res')
  {
    SkipLineIndent(data, x, ind, w, LF);
    assert Quotes(0) == [];
    assert res' == res + Quotes(0) + line + [LF];
    LineRead(data, x + |ind|, line, w, 0, lastLf, res, res', x');
  }


  /** The lines of `s` and the closing line read back as `s`, from the
      cursor on the line feed that starts them; `out` is what the reader
      returns and `close` where the closing quotes end. */
  lemma {:induction false} BodyRead(opt: Options, level: nat, data: Bytes, x: nat, s: Bytes, lastLf: bool, res: Bytes,
                                    out: Bytes, close: nat)
    requires opt.eol == [LF] && BlankIndent(opt)
    requires 1 <= x && At(data, x - 1, Body(opt, level, s))
    requires forall k | 0 <= k < |s| :: s[k] != NUL && s[k] != CR
    requires NoTriple(s)
    requires lastLf ==> |res| > 0
    requires out == res + s && close == x - 1 + |Body(opt, level, s)|
    ensures var w := |Indentation(opt, level + 1)|;
      MLLoop(data, SkipIndent(data, Advance(data, Parser(x, LF)), w), w, 0, lastLf, res) ==
      Ok((out, Advance(data, Parser(close, SQUOTE))))
    decreases |s|
  {
    var e := LineEnd(s);
    var res' := res + s[..e] + [LF];
    var x' := x + |FirstIndent(opt, level, s)| + e + 1;
    FirstLineRead(opt, level, data, x, s, lastLf, res, x', res');
    BodyLength(opt, level, s);
    if e < |s| {
      var s' := RestOfBody(opt, level, s, e);
      Rejoin(res, s, e);
      BodyRead(opt, level, data, x', s', true, res', out, close);
    } else {
      DropLast(res, s);
      ClosingTail(opt, level, data, x', res', out, close);
    }
  }

  /** The closing line read from the line feed that starts it: the line
      feed before the quotes is dropped. */
  lemma ClosingTail(opt: Options, level: nat, data: Bytes, x: nat, res: Bytes, out: Bytes, close: nat)
    requires opt.eol == [LF] && BlankIndent(opt) && |res| > 0
    requires 1 <= x && At(data, x - 1, Closing(opt, level))
    requires out == res[..|res| - 1] && close == x - 1 + |Closing(opt, level)|
    ensures var w := |Indentation(opt, level + 1)|;
      MLLoop(data, SkipIndent(data, Advance(data, Parser(x, LF)), w), w, 0, true, res) ==
      Ok((out, Advance(data, Parser(close, SQUOTE))))
  {
    var b := Indentation(opt, level + 1);
    var w := |b|;
    AtAppend(data, x - 1, [LF] + b, TripleQuote);
    AtAppend(data, x - 1, [LF], b);
    AtIndex(data, x + w, TripleQuote, 0);
    BlankIndentation(opt, level + 1);
    SkipLineIndent(data, x, b, w, LF);
    CloseRead(data, x + w, w, true, res);
  }

  /** After the first line break, what follows is the body of the rest of
      the text, which keeps the first line's restrictions. */
  lemma RestOfBody(opt: Options, level: nat, s: Bytes, e: nat) returns (rest: Bytes)
    requires e == LineEnd(s) < |s|
    requires forall k | 0 <= k < |s| :: s[k] != NUL && s[k] != CR
    requires NoTriple(s)
    ensures rest == s[e + 1..] && AfterFirst(opt, level, s) == Body(opt, level, rest)
    ensures forall k | 0 <= k < |rest| :: rest[k] != NUL && rest[k] != CR
    ensures NoTriple(rest)
  {
    rest := s[e + 1..];
    NoTripleSuffix(s, e + 1);
  }

  /** The first line, its line feed and the rest make up `s` again. */
  lemma Rejoin(res: Bytes, s: Bytes, e: nat)
    requires e < |s| && s[e] == LF
    ensures res + s[..e] + [LF] + s[e + 1..] == res + s
  {
    assert s == s[..e] + [LF] + s[e + 1..];
  }

  /** The line feed before the closing quotes comes off again. */
  lemma DropLast(res: Bytes, s: Bytes)
    ensures var r := res + s[..|s|] + [LF]; r[..|r| - 1] == res + s
  {
    assert s[..|s|] == s;
  }

  // ---------------------------------------------------------------------
  // The whole string

  /** The indentation `_readMLString` measures: `w` bytes other than a
      line feed or NUL between a line feed and the opening quotes, which
      end four bytes before the cursor. */
  lemma {:induction false} MLIndentIs(data: Bytes, p: Parser, i: nat, w: nat)
    requires i <= w && w + 5 <= p.at <= |data|
    requires forall k | p.at - 4 - w <= k < p.at - 4 - i :: data[k] != NUL && data[k] != LF
    requires data[p.at - 5 - w] == LF
    ensures MLIndent(data, p, i) == w
    decreases w - i
  {
    assert Peek(data, p, -(i as int) - 5) == data[p.at - 5 - i];
    if i < w {
      MLIndentIs(data, p, i + 1, w);
    }
  }

  /** The opening quotes, read from the first of them, lead into the
      multiline reader. */
  lemma OpenRead(data: Bytes, a: nat)
    requires At(data, a, TripleQuote) && a + 3 < |data|
    ensures ReadString(data, Parser(a + 1, SQUOTE), true) == ReadMLString(data, Parser(a + 4, data[a + 3]))
  {
    AtIndex(data, a, TripleQuote, 1);
    AtIndex(data, a, TripleQuote, 2);
  }

  /** Where `_mlString`'s opening quotes stand in what it writes. */
  function OpeningAt(opt: Options, level: nat, s: Bytes, sep: Bytes, asWritten: bool): nat {
    if OneLine(s, asWritten) then |sep| else 1 + |Indentation(opt, level + 1)|
  }

  /** A slice holding three parts holds each at its place. */
  lemma AtThree(data: Bytes, a: nat, u: Bytes, v: Bytes, z: Bytes)
    requires At(data, a, u + v + z)
    ensures At(data, a, u) && At(data, a + |u|, v) && At(data, a + |u| + |v|, z)
  {
    AtAppend(data, a, u + v, z);
    AtAppend(data, a, u, v);
  }

  /** `_readMLString` after opening quotes that stand alone on their line
      behind `w` blanks, with the cursor on the line feed that ends that
      line: the indentation is `w` and the loop starts on the next line. */
  lemma MLOpen(data: Bytes, x: nat, w: nat)
    requires w + 5 <= x <= |data|
    requires data[x - 5 - w] == LF
    requires forall j | x - 4 - w <= j < x - 4 :: IsLineWhite(data[j])
    ensures ReadMLString(data, Parser(x, LF)) ==
            MLLoop(data, SkipIndent(data, Advance(data, Parser(x, LF)), w), w, 0, false, [])
  {
    forall k | x - 4 - w <= k < x - 4
      ensures data[k] != NUL && data[k] != LF
    {
      assert IsLineWhite(data[k]);
    }
    MLIndentIs(data, Parser(x, LF), 0, w);
  }

  /** Opening quotes alone on their line, after blank indentation `w`
      wide: the loop starts after the line feed that follows them and the
      next line's indentation. */
  lemma BlockOpen(data: Bytes, x: nat, w: nat)
    requires w + 5 <= x <= |data| && data[x - 1] == LF
    requires At(data, x - 4, TripleQuote)
    requires data[x - 5 - w] == LF
    requires forall j | x - 4 - w <= j < x - 4 :: IsLineWhite(data[j])
    ensures ReadString(data, Parser(x - 3, SQUOTE), true) ==
            MLLoop(data, SkipIndent(data, Advance(data, Parser(x, LF)), w), w, 0, false, [])
  {
    OpenRead(data, x - 4);
    MLOpen(data, x, w);
  }

  /** The block form's parts in `data`: a line feed and `w` blanks before
      the opening quotes at `x - 4`, the body from the line feed at
      `x - 1`, and the closing quotes ending at `close`. */
  predicate BlockPlaced(opt: Options, level: nat, data: Bytes, s: Bytes, x: nat, w: nat, close: nat)
  {
    && 5 + w <= x <= |data| && data[x - 1] == LF
    && At(data, x - 4, TripleQuote) && At(data, x - 1, Body(opt, level, s))
    && close == x - 1 + |Body(opt, level, s)|
    && data[x - 5 - w] == LF
    && forall j | x - 4 - w <= j < x - 4 :: IsLineWhite(data[j])
  }

  /** Where the parts of the block form stand. */
  lemma BlockLayout(opt: Options, level: nat, s: Bytes, sep: Bytes, asWritten: bool, data: Bytes, start: nat)
    requires opt.eol == [LF] && BlankIndent(opt)
    requires !OneLine(s, asWritten)
    requires At(data, start, MLString(opt, level, s, sep, asWritten))
    ensures var w := |Indentation(opt, level + 1)|;
      BlockPlaced(opt, level, data, s, start + 5 + w, w, start + |MLString(opt, level, s, sep, asWritten)|)
  {
    var b := Indentation(opt, level + 1);
    var body := Body(opt, level, s);
    assert MLString(opt, level, s, sep, asWritten) == [LF] + b + TripleQuote + body;
    BodyStart(opt, level, s);
    BlankIndentation(opt, level + 1);
    BlockAt(data, start, b, body);
  }

  /** The body starts with a line feed. */
  lemma BodyStart(opt: Options, level: nat, s: Bytes)
    requires opt.eol == [LF]
    ensures |Body(opt, level, s)| > 0 && Body(opt, level, s)[0] == LF
  {
    BodySplit(opt, level, s);
  }

  /** A line feed, blanks `b`, the opening quotes and a body starting with
      a line feed, laid out from `start`. */
  lemma BlockAt(data: Bytes, start: nat, b: Bytes, body: Bytes)
    requires At(data, start, [LF] + b + TripleQuote + body)
    requires |body| > 0 && body[0] == LF
    requires forall j | 0 <= j < |b| :: IsLineWhite(b[j])
    ensures var x := start + 5 + |b|;
      && At(data, x - 4, TripleQuote)
      && At(data, x - 1, body)
      && x - 1 + |body| == start + |[LF] + b + TripleQuote + body|
      && x <= |data| && data[x - 1] == LF && data[start] == LF
      && forall j | x - 4 - |b| <= j < x - 4 :: IsLineWhite(data[j])
  {
    var x := start + 5 + |b|;
    AtThree(data, start, [LF] + b, TripleQuote, body);
    AtAppend(data, start, [LF], b);
    AtIndex(data, x - 1, body, 0);
    AtIndex(data, start, [LF], 0);
    forall j | x - 4 - |b| <= j < x - 4
      ensures IsLineWhite(data[j])
    {
      AtIndex(data, start + 1, b, j - start - 1);
    }
  }

  /** Text the multiline form may hold has no NUL and no triple quote. */
  lemma MLPrintable(s: Bytes)
    requires !NeedsEscapeML(s)
    ensures forall k | 0 <= k < |s| :: s[k] != NUL
    ensures NoTriple(s)
  {
    forall k | 0 <= k < |s|
      ensures s[k] != NUL
    {
      assert !MLUnprintable(s, k);
    }
    NoTripleIff(s);
  }

  /** The block form read from its opening quotes: blank indentation on a
      line of its own before them, the body after them. */
  lemma BlockRead(opt: Options, level: nat, data: Bytes, s: Bytes, x: nat, w: nat, close: nat)
    requires opt.eol == [LF] && BlankIndent(opt)
    requires !NeedsEscapeML(s)
    requires forall k | 0 <= k < |s| :: s[k] != CR
    requires w == |Indentation(opt, level + 1)|
    requires BlockPlaced(opt, level, data, s, x, w, close)
    ensures ReadString(data, Parser(x - 3, SQUOTE), true) == Ok((s, Advance(data, Parser(close, SQUOTE))))
  {
    BlockOpen(data, x, w);
    MLPrintable(s);
    assert s == [] + s;
    BodyRead(opt, level, data, x, s, false, [], s, close);
  }

  /** The block form reads back as the text it was written from. */
  lemma BlockRoundTrip(opt: Options, level: nat, s: Bytes, sep: Bytes, asWritten: bool, data: Bytes, start: nat)
    requires opt.eol == [LF] && BlankIndent(opt)
    requires !OneLine(s, asWritten) && !NeedsEscapeML(s)
    requires forall k | 0 <= k < |s| :: s[k] != CR
    requires At(data, start, MLString(opt, level, s, sep, asWritten))
    ensures var a := start + OpeningAt(opt, level, s, sep, asWritten);
      ReadString(data, Parser(a + 1, SQUOTE), true) ==
      Ok((s, Advance(data, Parser(start + |MLString(opt, level, s, sep, asWritten)|, SQUOTE))))
  {
    var w := |Indentation(opt, level + 1)|;
    var close := start + |MLString(opt, level, s, sep, asWritten)|;
    assert OpeningAt(opt, level, s, sep, asWritten) == 1 + w;
    BlockLayout(opt, level, s, sep, asWritten, data, start);
    BlockRead(opt, level, data, s, start + 5 + w, w, close);
  }

  /** The one-line form, kept by the corrected writer for texts that
      neither start with white space nor end with a single quote, reads
      back as the text. */
  lemma OneLineRoundTrip(opt: Options, level: nat, s: Bytes, sep: Bytes, data: Bytes, start: nat)
    requires OneLine(s, false) && |s| > 0 && !NeedsEscapeML(s)
    requires At(data, start, MLString(opt, level, s, sep, false))
    ensures var a := start + OpeningAt(opt, level, s, sep, false);
      ReadString(data, Parser(a + 1, SQUOTE), true) ==
      Ok((s, Advance(data, Parser(start + |MLString(opt, level, s, sep, false)|, SQUOTE))))
  {
    var a := start + |sep|;
    assert MLString(opt, level, s, sep, false) == sep + TripleQuote + s + TripleQuote;
    AtParts(data, start, sep, TripleQuote, s, TripleQuote);
    OneLineBytes(s);
    OneLineRead(data, s, a);
  }

  /** The bytes of a one-line text the writer accepts are line bytes, and
      the text holds no three quotes in a row. */
  lemma OneLineBytes(s: Bytes)
    requires OneLine(s, false) && !NeedsEscapeML(s)
    ensures forall k | 0 <= k < |s| :: LineByte(s[k])
    ensures NoTriple(Quotes(0) + s)
  {
    MLPrintable(s);
    assert Quotes(0) + s == s;
  }

  /** The one-line form read from its opening quotes. */
  lemma OneLineRead(data: Bytes, s: Bytes, a: nat)
    requires |s| > 0 && !IsWhite(s[0]) && s[|s| - 1] != SQUOTE
    requires forall k | 0 <= k < |s| :: LineByte(s[k])
    requires NoTriple(Quotes(0) + s)
    requires At(data, a, TripleQuote) && At(data, a + 3, s) && At(data, a + 3 + |s|, TripleQuote)
    ensures ReadString(data, Parser(a + 1, SQUOTE), true) == Ok((s, Advance(data, Parser(a + 6 + |s|, SQUOTE))))
  {
    var y := a + 3;
    AtIndex(data, y, s, 0);
    AtIndex(data, y + |s|, TripleQuote, 0);
    OpenRead(data, a);
    SameLineOpen(data, y);
    OneLineBody(data, y, s, MLIndent(data, Parser(y + 1, data[y]), 0));
  }

  /** Opening quotes followed by a byte that is neither blank nor a line
      feed: the loop starts on that byte. */
  lemma SameLineOpen(data: Bytes, y: nat)
    requires y < |data| && !IsLineWhite(data[y]) && data[y] != LF
    ensures ReadMLString(data, Parser(y + 1, data[y])) ==
            MLLoop(data, Parser(y + 1, data[y]), MLIndent(data, Parser(y + 1, data[y]), 0), 0, false, [])
  {
  }

  /** A one-line body and the closing quotes read back as the body. */
  lemma OneLineBody(data: Bytes, y: nat, s: Bytes, w: nat)
    requires |s| > 0 && s[|s| - 1] != SQUOTE
    requires forall k | 0 <= k < |s| :: LineByte(s[k])
    requires NoTriple(Quotes(0) + s)
    requires At(data, y, s) && At(data, y + |s|, TripleQuote)
    ensures MLLoop(data, Parser(y + 1, data[y]), w, 0, false, []) == Ok((s, Advance(data, Parser(y + |s| + 3, SQUOTE))))
  {
    var z := y + |s|;
    AtIndex(data, z, TripleQuote, 0);
    assert [] + Quotes(0) + s == s;
    RunRead(data, y, s, w, 0, false, [], s, z);
    CloseRead(data, z, w, false, s);
  }

  /** `_mlString`'s output, wherever it stands in the input, read from
      its first quote gives back the text, for every text the corrected
      writer sends to it. */
  lemma MLStringRoundTrip(opt: Options, level: nat, s: Bytes, sep: Bytes, data: Bytes, start: nat)
    requires opt.eol == [LF] && BlankIndent(opt)
    requires |s| > 0 && !NeedsEscapeML(s)
    requires forall k | 0 <= k < |s| :: s[k] != CR
    requires At(data, start, MLString(opt, level, s, sep, false))
    ensures var a := start + OpeningAt(opt, level, s, sep, false);
      ReadString(data, Parser(a + 1, SQUOTE), true) ==
      Ok((s, Advance(data, Parser(start + |MLString(opt, level, s, sep, false)|, SQUOTE))))
  {
    if OneLine(s, false) {
      OneLineRoundTrip(opt, level, s, sep, data, start);
    } else {
      BlockRoundTrip(opt, level, s, sep, false, data, start);
    }
  }

  /** A text that starts with a blank, and that the writer as written
      still sends to the one-line form. */
  const LeadingBlank: Bytes := [SPACE, DQUOTE]

  /** What the as-written `_mlString` makes of `LeadingBlank` on its own:
      three quotes, the blank, the double quote, three quotes. */
  const LeadingBlankText: Bytes := [SQUOTE, SQUOTE, SQUOTE, SPACE, DQUOTE, SQUOTE, SQUOTE, SQUOTE]

  /** Read back from its first quote, the one-line form of `LeadingBlank`
      loses the blank: the reader skips white space after the opening
      quotes. The corrected writer sends such texts to the block form,
      which `MLStringRoundTrip` shows to read back whole. */
  lemma LeadingBlankAsWritten()
    ensures OneLine(LeadingBlank, true) && !OneLine(LeadingBlank, false)
    ensures MLString(DefaultOptions, 0, LeadingBlank, [], true) == LeadingBlankText
    ensures ReadString(LeadingBlankText, Parser(1, SQUOTE), true) == Ok(([DQUOTE], Parser(8, NUL)))
  {
    var data := LeadingBlankText;
    assert [] + TripleQuote + (LeadingBlank + TripleQuote) == data;
    AtConcat([], TripleQuote, LeadingBlank + TripleQuote);
    OpenRead(data, 0);
    LeadingBlankLoop();
  }

  /** The multiline reader on `LeadingBlankText` after the opening quotes. */
  lemma LeadingBlankLoop()
    ensures ReadMLString(LeadingBlankText, Parser(4, SPACE)) == Ok(([DQUOTE], Parser(8, NUL)))
  {
    var data := LeadingBlankText;
    var p := Parser(4, SPACE);
    assert MLIndent(data, p, 0) == 0;
    assert SkipLineWhite(data, p) == Parser(5, DQUOTE);
    assert [] + Quotes(0) + [DQUOTE] == [DQUOTE];
    assert MLLoop(data, Parser(5, DQUOTE), 0, 0, false, []) == MLLoop(data, Parser(6, SQUOTE), 0, 0, false, [DQUOTE]);
    assert MLLoop(data, Parser(6, SQUOTE), 0, 0, false, [DQUOTE]) == MLLoop(data, Parser(7, SQUOTE), 0, 1, false, [DQUOTE]);
    assert MLLoop(data, Parser(7, SQUOTE), 0, 1, false, [DQUOTE]) == MLLoop(data, Parser(8, SQUOTE), 0, 2, false, [DQUOTE]);
    assert MLLoop(data, Parser(8, SQUOTE), 0, 2, false, [DQUOTE]) == Ok(([DQUOTE], Parser(8, NUL)));
  }
}

=== FILE: number_lexer.dfy ===
/** The number scanner of src/hjson_parsenumber.cpp: `tryParseNumber` decides
    whether a byte string is a number literal and, if so, whether it is an
    int64 or a double; `startsWithNumber` is its "stop at the next token"
    mode. The floating-point back-ends are reduced to what decides success:
    the lexeme must be complete and its value must not round to infinity. */
module NumberLexer {
  import opened Bytes
  import opened Outcome

  /** A double that did not come out as an int64. A finite double is known
      only by the decimal lexeme it was read from. */
  datatype Float = Decimal(lexeme: Bytes) | NaN | Infinity(negative: bool)

  /** A lexed number: `Int` when the lexeme converts completely to int64. */
  datatype Number = Int(i: int) | Dbl(f: Float)

  const INT64_MIN: int := -0x8000_0000_0000_0000
  const INT64_MAX: int := 0x7fff_ffff_ffff_ffff

  /** 2^1024 - 2^970: the smallest magnitude that rounds to infinity in
      IEEE-754 binary64 with round-to-nearest-even. */
  const DOUBLE_OVERFLOW: int := 179769313486231580793728971405303415079934132710037826936173778980444968292764750946649017977587207096330286416692887910946555547851940402630657488671505820681908902000708383676273854845817711531764475730270069855571366959622842914819860834936475292719074168444365510704342711559699508093042880177904174497792

  // ---------------------------------------------------------------------
  // The scanner state and `_next`
  // ---------------------------------------------------------------------

  /** The scanner's `indexNext` and current byte `ch` (0 past the end). */
  datatype Scan = Scan(indexNext: nat, ch: byte)

  /** The byte at `i`, or 0 past the end, which is what the scanner sees. */
  function ByteAt(t: Bytes, i: nat): byte {
    if i < |t| then t[i] else NUL
  }

  /** The scanner state whose current byte is the one at index `i`. */
  function At(t: Bytes, i: nat): Scan
    requires i <= |t|
  {
    Scan(i + 1, ByteAt(t, i))
  }

  /** `_next`: reads the byte at `indexNext`; past the end it yields 0 and
      advances `indexNext` once more, to `|t| + 1`, and no further. */
  function Next(t: Bytes, s: Scan): (r: (bool, Scan))
    requires s.indexNext <= |t| + 1
    ensures r.1.indexNext <= |t| + 1
    ensures r.0 <==> s.indexNext < |t|
    ensures !r.0 ==> r.1 == Scan(|t| + 1, NUL)
    ensures 1 <= s.indexNext && s == At(t, s.indexNext - 1) ==>
              r.1 == At(t, if s.indexNext <= |t| then s.indexNext else |t|)
  {
    if s.indexNext < |t| then (true, Scan(s.indexNext + 1, t[s.indexNext]))
    else (false, Scan(|t| + 1, NUL))
  }

  // ---------------------------------------------------------------------
  // The grammar, stated over positions
  // ---------------------------------------------------------------------

  predicate AllDigits(s: Bytes) {
    forall i | 0 <= i < |s| :: IsDigit(s[i])
  }

  /** The bytes of `t` from `a` up to `b` are all digits. */
  predicate DigitsIn(t: Bytes, a: nat, b: nat) {
    a <= b <= |t| && forall k | a <= k < b :: IsDigit(t[k])
  }

  lemma DigitsInSlice(t: Bytes, a: nat, b: nat)
    requires a <= b <= |t|
    ensures DigitsIn(t, a, b) <==> AllDigits(t[a..b])
  {
    if AllDigits(t[a..b]) {
      forall k | a <= k < b
        ensures IsDigit(t[k])
      {
        assert t[k] == t[a..b][k - a];
      }
    }
  }

  /** Index just past the run of ASCII digits that starts at `i`. */
  function DigitsEnd(t: Bytes, i: nat): (j: nat)
    requires i <= |t|
    ensures i <= j <= |t|
    ensures DigitsIn(t, i, j)
    ensures j == |t| || !IsDigit(t[j])
    decreases |t| - i
  {
    if i < |t| && IsDigit(t[i]) then DigitsEnd(t, i + 1) else i
  }

  /** Index of the first byte at or after `i` that is not white space
      (`ch > 0 && ch <= ' '`). */
  function WhiteEnd(t: Bytes, i: nat): (j: nat)
    requires i <= |t|
    ensures i <= j <= |t|
    ensures forall k | i <= k < j :: IsWhite(t[k])
    ensures j == |t| || !IsWhite(t[j])
    decreases |t| - i
  {
    if i < |t| && IsWhite(t[i]) then WhiteEnd(t, i + 1) else i
  }

  /** Where the parts of `-?[0-9]*(\.[0-9]*)?([eE][+-]?[0-9]*)?` start and
      end when the pattern is matched greedily from the first byte. `hasExp`
      says whether an exponent marker was consumed; `expStart` is then the
      index of its first digit (after any sign). */
  datatype Shape = Shape(intStart: nat, intEnd: nat, hasFrac: bool, fracEnd: nat,
                         hasExp: bool, expNegative: bool, expStart: nat, end: nat)

  function ShapeOf(t: Bytes): (sh: Shape)
    ensures sh.intStart <= sh.intEnd <= sh.fracEnd <= sh.end <= |t|
    ensures sh.hasExp ==> sh.fracEnd < sh.expStart <= sh.end
    ensures sh.hasFrac ==> sh.intEnd < sh.fracEnd
  {
    var intStart := if |t| > 0 && t[0] == MINUS then 1 else 0;
    var intEnd := DigitsEnd(t, intStart);
    var hasFrac := intEnd < |t| && t[intEnd] == DOT;
    var fracEnd := if hasFrac then DigitsEnd(t, intEnd + 1) else intEnd;
    var hasExp := fracEnd < |t| && (t[fracEnd] == 0x65 || t[fracEnd] == 0x45);
    var signed := hasExp && fracEnd + 1 < |t| && (t[fracEnd + 1] == MINUS || t[fracEnd + 1] == PLUS);
    var expStart := if signed then fracEnd + 2 else fracEnd + 1;
    var end := if hasExp then DigitsEnd(t, expStart) else fracEnd;
    Shape(intStart, intEnd, hasFrac, fracEnd, hasExp, signed && t[fracEnd + 1] == MINUS, expStart, end)
  }

  /** What the greedy scan finds: an optional minus, the longest run of
      digits, a dot and the longest run of digits after it (possibly none,
      as in `1.`), then an exponent marker, an optional sign and the
      longest run of digits (possibly none, which the conversion refuses). */
  lemma ShapeOfGreedy(t: Bytes)
    ensures var sh := ShapeOf(t);
      && sh.intStart == (if |t| > 0 && t[0] == MINUS then 1 else 0)
      && DigitsIn(t, sh.intStart, sh.intEnd) && (sh.intEnd == |t| || !IsDigit(t[sh.intEnd]))
      && (sh.hasFrac <==> sh.intEnd < |t| && t[sh.intEnd] == DOT)
      && (sh.hasFrac ==> DigitsIn(t, sh.intEnd + 1, sh.fracEnd) && (sh.fracEnd == |t| || !IsDigit(t[sh.fracEnd])))
      && (!sh.hasFrac ==> sh.fracEnd == sh.intEnd)
      && (sh.hasExp <==> sh.fracEnd < |t| && (t[sh.fracEnd] == 0x65 || t[sh.fracEnd] == 0x45))
      && (sh.hasExp ==> (sh.expStart == sh.fracEnd + 2 <==> sh.fracEnd + 1 < |t| && (t[sh.fracEnd + 1] == MINUS || t[sh.fracEnd + 1] == PLUS)))
      && (sh.hasExp ==> sh.fracEnd + 1 <= sh.expStart <= sh.fracEnd + 2)
      && (sh.hasExp ==> DigitsIn(t, sh.expStart, sh.end) && (sh.end == |t| || !IsDigit(t[sh.end])))
      && (!sh.hasExp ==> sh.end == sh.fracEnd)
      && (sh.expNegative <==> sh.hasExp && sh.expStart == sh.fracEnd + 2 && t[sh.fracEnd + 1] == MINUS)
  {
  }

  /** The fraction may be empty: `1.` scans as the integer part `1`, a
      dot, and no fraction digits. */
  lemma EmptyFraction()
    ensures var sh := ShapeOf([0x31, DOT]);
      sh.hasFrac && sh.intEnd == 1 && sh.fracEnd == 2 && sh.end == 2
  {
    var t: Bytes := [0x31, DOT];
    assert DigitsEnd(t, 0) == 1 by {
      assert DigitsEnd(t, 1) == 1;
    }
  }

  /** Number of '0' bytes before the first other byte. */
  function LeadingZeros(d: Bytes): (n: nat)
    ensures n <= |d|
    ensures forall i | 0 <= i < n :: d[i] == 0x30
    ensures n == |d| || d[n] != 0x30
  {
    if |d| > 0 && d[0] == 0x30 then 1 + LeadingZeros(d[1..]) else 0
  }

  /** The leading-zero rule: at least one digit, and no zero in front of
      another digit ("0" is fine, "00" and "01" are not). */
  predicate IntPartOk(d: Bytes) {
    |d| >= 1 && (|d| == 1 || d[0] != 0x30)
  }

  /** True when the byte at `w` ends the number in "stop at next" mode:
      `,` `}` `]` `#`, or a slash followed by a slash or a star (a comment opener). */
  predicate StopsHere(t: Bytes, w: nat) {
    w < |t| &&
    (t[w] == COMMA || t[w] == RBRACE || t[w] == RBRACKET || t[w] == HASH ||
     (w + 1 < |t| && t[w] == SLASH && (t[w + 1] == SLASH || t[w + 1] == STAR)))
  }

  // ---------------------------------------------------------------------
  // Conversion of the lexeme (`_parseInt`, `_parseFloat`)
  // ---------------------------------------------------------------------

  /** The value of a string of decimal digits (every caller passes digits
      only; a non-digit would count as 0). */
  function DecimalValue(d: Bytes): (v: nat)
  {
    if |d| == 0 then 0
    else 10 * DecimalValue(d[..|d| - 1]) + (if IsDigit(d[|d| - 1]) then d[|d| - 1] as int - 0x30 else 0)
  }

  /** `_parseInt` on a scanned lexeme: only digits after an optional '-',
      and the value within the int64 range. */
  function Int64Of(l: Bytes): (r: Option<int>)
    ensures r.Some? ==> INT64_MIN <= r.value <= INT64_MAX
  {
    if |l| > 0 && l[0] == MINUS then
      if |l| > 1 && AllDigits(l[1..]) && DecimalValue(l[1..]) <= -INT64_MIN
      then Some(0 - DecimalValue(l[1..])) else None
    else if |l| > 0 && AllDigits(l) && DecimalValue(l) <= INT64_MAX
    then Some(DecimalValue(l)) else None
  }

  /** True when the decimal `mantissa * 10^scale` rounds to infinity, that
      is, reaches `DOUBLE_OVERFLOW`. A negative scale divides with the floor,
      which keeps the comparison exact because the bound is an integer. */
  predicate Overflows(mantissa: nat, scale: int)
    decreases if scale >= 0 then scale else -scale
  {
    if scale == 0 then mantissa >= DOUBLE_OVERFLOW
    else if scale > 0 then Overflows(10 * mantissa, scale - 1)
    else Overflows(mantissa / 10, scale + 1)
  }

  /** `_parseFloat` on a scanned lexeme: it must be consumed completely (an
      exponent marker needs digits) and the value must be finite. */
  predicate FloatAccepted(t: Bytes, sh: Shape)
    requires sh == ShapeOf(t)
  {
    var fracDigits := if sh.hasFrac then t[sh.intEnd + 1..sh.fracEnd] else [];
    var expDigits := if sh.hasExp then t[sh.expStart..sh.end] else [];
    (sh.hasExp ==> |expDigits| > 0) &&
    Finite(t[sh.intStart..sh.intEnd], fracDigits, sh.expNegative, expDigits)
  }

  /** The decimal `intDigits.fracDigits` times ten to the (signed) exponent
      digits is below the overflow bound. */
  predicate Finite(intDigits: Bytes, fracDigits: Bytes, expNegative: bool, expDigits: Bytes) {
    var exp := if expNegative then 0 - DecimalValue(expDigits) else DecimalValue(expDigits);
    !Overflows(DecimalValue(intDigits + fracDigits), exp - |fracDigits|)
  }

  /** The value of a lexeme that passed the scanner: an int64 if it is one,
      otherwise a double if the double parse accepts it. */
  function Convert(t: Bytes, sh: Shape): Option<Number>
    requires sh == ShapeOf(t)
  {
    var lexeme := t[..sh.end];
    match Int64Of(lexeme)
    case Some(i) => Some(Int(i))
    case None => if FloatAccepted(t, sh) then Some(Dbl(Decimal(lexeme))) else None
  }

  /** What `tryParseNumber` answers for `text`: the greedy shape must obey
      the leading-zero rule, and after it and any white space there must be
      nothing (a 0 byte also counts as the end) or, in "stop at next" mode,
      a punctuator or comment opener. */
  function ParseNumber(text: Bytes, stopAtNext: bool): (r: Option<Number>)
    ensures r.Some? ==> |text| > 0 && (text[0] == MINUS || IsDigit(text[0]))
    ensures r.Some? && text[0] == MINUS ==> |text| > 1 && IsDigit(text[1])
  {
    var sh := ShapeOf(text);
    var w := WhiteEnd(text, sh.end);
    if IntPartOk(text[sh.intStart..sh.intEnd]) &&
       (ByteAt(text, w) == NUL || (stopAtNext && StopsHere(text, w)))
    then Convert(text, sh)
    else None
  }

  /** `startsWithNumber`: `tryParseNumber` in "stop at next" mode. */
  predicate StartsWithNumber(text: Bytes)
    ensures StartsWithNumber(text) ==> |text| > 0 && (text[0] == MINUS || IsDigit(text[0]))
  {
    ParseNumber(text, true).Some?
  }

  // ---------------------------------------------------------------------
  // The scanner itself
  // ---------------------------------------------------------------------

  lemma DigitsEndAt(t: Bytes, a: nat, i: nat)
    requires a <= i <= |t|
    requires DigitsIn(t, a, i)
    requires i == |t| || !IsDigit(t[i])
    ensures DigitsEnd(t, a) == i
  {
  }

  /** The integer-part loop of `tryParseNumber`, with its leading-zero
      counter after the "single 0 is allowed" correction. */
  method ScanIntPart(text: Bytes, p0: Scan, i0: nat)
    returns (p: Scan, leadingZeros: int, i: nat)
    requires i0 <= |text| && p0 == At(text, i0)
    ensures i == DigitsEnd(text, i0) && p == At(text, i)
    ensures leadingZeros == 0 <==> IntPartOk(text[i0..i])
  {
    p, i := p0, i0;
    leadingZeros := 0;
    var testLeading := true;
    while IsDigit(p.ch)
      invariant i0 <= i <= |text| && p == At(text, i)
      invariant DigitsIn(text, i0, i)
      invariant testLeading <==> LeadingZeros(text[i0..i]) == i - i0
      invariant leadingZeros == LeadingZeros(text[i0..i])
      decreases |text| - i
    {
      assert text[i0..i + 1] == text[i0..i] + [text[i]];
      LeadingZerosSnoc(text[i0..i], text[i]);
      if testLeading {
        if p.ch == 0x30 {
          leadingZeros := leadingZeros + 1;
        } else {
          testLeading := false;
        }
      }
      p := Next(text, p).1;
      i := i + 1;
    }
    DigitsEndAt(text, i0, i);
    if testLeading {
      leadingZeros := leadingZeros - 1;
    }
    LeadingZerosRule(text[i0..i]);
  }

  /** The fraction loop: `_next` is called before each digit test. */
  method ScanFraction(text: Bytes, p0: Scan, i0: nat) returns (p: Scan, i: nat)
    requires i0 < |text| && p0 == At(text, i0) && text[i0] == DOT
    ensures i == DigitsEnd(text, i0 + 1) && p == At(text, i)
  {
    p, i := p0, i0;
    while true
      invariant i0 <= i < |text| && p == At(text, i)
      invariant DigitsIn(text, i0 + 1, i + 1)
      decreases |text| - i
    {
      var step := Next(text, p);
      p := step.1;
      i := i + 1;
      if !(step.0 && IsDigit(p.ch)) {
        break;
      }
    }
    DigitsEndAt(text, i0 + 1, i);
  }

  /** The exponent: the marker, an optional sign, then the digit loop. */
  method ScanExponent(text: Bytes, p0: Scan, i0: nat) returns (p: Scan, i: nat)
    requires i0 < |text| && p0 == At(text, i0) && (text[i0] == 0x65 || text[i0] == 0x45)
    ensures var signed := i0 + 1 < |text| && (text[i0 + 1] == MINUS || text[i0 + 1] == PLUS);
            i == DigitsEnd(text, if signed then i0 + 2 else i0 + 1) && p == At(text, i)
  {
    p := Next(text, p0).1;
    i := i0 + 1;
    if p.ch == MINUS || p.ch == PLUS {
      p := Next(text, p).1;
      i := i + 1;
    }
    ghost var start := i;
    while IsDigit(p.ch)
      invariant start <= i <= |text| && p == At(text, i)
      invariant DigitsIn(text, start, i)
      decreases |text| - i
    {
      p := Next(text, p).1;
      i := i + 1;
    }
    DigitsEndAt(text, start, i);
  }

  /** Skips white space (`ch > 0 && ch <= ' '`) after the number. */
  method ScanWhite(text: Bytes, p0: Scan, i0: nat) returns (p: Scan, i: nat)
    requires i0 <= |text| && p0 == At(text, i0)
    ensures i == WhiteEnd(text, i0) && p == At(text, i)
  {
    p, i := p0, i0;
    while 0 < p.ch <= SPACE
      invariant i0 <= i <= |text| && p == At(text, i)
      invariant forall k | i0 <= k < i :: IsWhite(text[k])
      decreases |text| - i
    {
      p := Next(text, p).1;
      i := i + 1;
    }
    WhiteEndAt(text, i0, i);
  }

  /** The scanning part of `tryParseNumber`: an optional '-', the integer
      part, the fraction and the exponent, leaving the scanner on the first
      byte after the lexeme. */
  method ScanLexeme(text: Bytes) returns (p: Scan, leadingZeros: int, i: nat)
    ensures var sh := ShapeOf(text);
            i == sh.end && p == At(text, i) &&
            (leadingZeros == 0 <==> IntPartOk(text[sh.intStart..sh.intEnd]))
  {
    ghost var sh := ShapeOf(text);
    p := Scan(0, SPACE);
    i := 0;
    p := Next(text, p).1;
    if p.ch == MINUS {
      p := Next(text, p).1;
      i := 1;
    }
    assert i == sh.intStart;
    p, leadingZeros, i := ScanIntPart(text, p, i);
    assert i == sh.intEnd;
    if p.ch == DOT {
      p, i := ScanFraction(text, p, i);
    }
    assert i == sh.fracEnd;
    if p.ch == 0x65 || p.ch == 0x45 {
      p, i := ScanExponent(text, p, i);
    }
  }

  /** `tryParseNumber`, scanning with `_next` the way the C++ code does; its
      answer is the one `ParseNumber` states. */
  method TryParseNumber(text: Bytes, stopAtNext: bool) returns (r: Option<Number>)
    ensures r == ParseNumber(text, stopAtNext)
  {
    var p, leadingZeros, i := ScanLexeme(text);
    var end := p.indexNext;

    p, i := ScanWhite(text, p, i);

    if stopAtNext {
      if p.ch == COMMA || p.ch == RBRACE || p.ch == RBRACKET || p.ch == HASH ||
         (p.indexNext < |text| && p.ch == SLASH &&
          (text[p.indexNext] == SLASH || text[p.indexNext] == STAR))
      {
        p := p.(ch := NUL);
      }
    }

    if p.ch > 0 || leadingZeros != 0 {
      return None;
    }
    r := Convert(text, ShapeOf(text));
  }

  lemma LeadingZerosSnoc(d: Bytes, c: byte)
    ensures LeadingZeros(d + [c]) ==
      (if LeadingZeros(d) == |d| && c == 0x30 then |d| + 1 else LeadingZeros(d))
  {
    if |d| > 0 {
      assert (d + [c])[1..] == d[1..] + [c];
      if d[0] == 0x30 {
        LeadingZerosSnoc(d[1..], c);
      }
    } else {
      assert d + [c] == [c];
    }
  }

  /** The counter of the C++ loop is 0 exactly when the leading-zero rule
      holds. */
  lemma LeadingZerosRule(d: Bytes)
    ensures (if LeadingZeros(d) == |d| then LeadingZeros(d) - 1 else LeadingZeros(d)) == 0
            <==> IntPartOk(d)
  {
  }

  lemma WhiteEndAt(t: Bytes, a: nat, i: nat)
    requires a <= i <= |t|
    requires forall k | a <= k < i :: IsWhite(t[k])
    requires i == |t| || !IsWhite(t[i])
    ensures WhiteEnd(t, a) == i
  {
  }

  // ---------------------------------------------------------------------
  // A reference grammar: a number literal built from its parts
  // ---------------------------------------------------------------------

  /** The exponent of a literal: the marker `e` or `E`, an optional sign and
      the digits. */
  datatype ExpPart = ExpPart(marker: byte, sign: Option<byte>, digits: Bytes)

  /** A number literal taken apart: optional '-', integer digits, optional
      fraction digits (after '.'), optional exponent. */
  datatype Parts = Parts(negative: bool, intDigits: Bytes, frac: Option<Bytes>, exp: Option<ExpPart>)

  predicate IsExpMarker(c: byte) { c == 0x65 || c == 0x45 }

  /** The parts are made of the bytes the grammar allows. */
  predicate PartsWellFormed(p: Parts) {
    AllDigits(p.intDigits) &&
    (p.frac.Some? ==> AllDigits(p.frac.value)) &&
    (p.exp.Some? ==> IsExpMarker(p.exp.value.marker) && AllDigits(p.exp.value.digits) &&
                     (p.exp.value.sign.Some? ==> p.exp.value.sign.value in {MINUS, PLUS}))
  }

  function FracBytes(p: Parts): Bytes {
    if p.frac.Some? then [DOT] + p.frac.value else []
  }

  function ExpBytes(p: Parts): Bytes {
    if p.exp.Some? then
      [p.exp.value.marker] + (if p.exp.value.sign.Some? then [p.exp.value.sign.value] else []) + p.exp.value.digits
    else []
  }

  /** The literal text of the parts. */
  function Compose(p: Parts): Bytes {
    (if p.negative then [MINUS] else []) + p.intDigits + FracBytes(p) + ExpBytes(p)
  }

  /** The number a well-formed literal denotes, defined on its parts: an
      int64 when it has neither fraction nor exponent and fits, otherwise a
      double unless the exponent has no digits or the value overflows. */
  function ValueOf(p: Parts): Option<Number> {
    match IntValue(p)
    case Some(i) => Some(Int(i))
    case None => if DoubleOk(p) then Some(Dbl(Decimal(Compose(p)))) else None
  }

  /** The int64 a literal denotes: present when it has neither fraction nor
      exponent and its signed value fits. */
  function IntValue(p: Parts): Option<int> {
    var magnitude := DecimalValue(p.intDigits);
    var signed := if p.negative then 0 - magnitude else magnitude;
    if p.frac.None? && p.exp.None? && INT64_MIN <= signed <= INT64_MAX then Some(signed) else None
  }

  /** Whether a literal converts to a finite double: an exponent needs
      digits, and the value must not overflow. */
  predicate DoubleOk(p: Parts) {
    var fracDigits := if p.frac.Some? then p.frac.value else [];
    var expDigits := if p.exp.Some? then p.exp.value.digits else [];
    var expNegative := p.exp.Some? && p.exp.value.sign == Some(MINUS);
    (p.exp.Some? ==> |expDigits| > 0) && Finite(p.intDigits, fracDigits, expNegative, expDigits)
  }

  /** Ten to the power `e`, exactly. */
  function TenTo(e: int): (r: real)
    ensures r > 0.0
    decreases if e >= 0 then e else -e
  {
    if e == 0 then 1.0 else if e > 0 then 10.0 * TenTo(e - 1) else TenTo(e + 1) / 10.0
  }

  /** One more power of ten multiplies by ten, on both sides of zero. */
  lemma TenToStep(e: int)
    ensures TenTo(e) == 10.0 * TenTo(e - 1)
  {
  }

  /** The fraction digits of the parts, none when there is no fraction. */
  function FracDigits(p: Parts): Bytes {
    if p.frac.Some? then p.frac.value else []
  }

  /** The signed exponent the parts of a literal write, 0 without one. */
  function ExpValue(p: Parts): int {
    var expDigits := if p.exp.Some? then p.exp.value.digits else [];
    if p.exp.Some? && p.exp.value.sign == Some(MINUS) then 0 - DecimalValue(expDigits) else DecimalValue(expDigits)
  }

  /** `m` times ten to the power `e`, negated when `negative`. */
  function Scaled(negative: bool, m: nat, e: int): real {
    var magnitude := m as real * TenTo(e);
    if negative then -magnitude else magnitude
  }

  /** The exact value the parts of a literal denote: the digits of the
      integer part and the fraction, as one integer, scaled by the signed
      exponent less the number of fraction digits. */
  function PartsValue(p: Parts): real {
    Scaled(p.negative, DecimalValue(p.intDigits + FracDigits(p)), ExpValue(p) - |FracDigits(p)|)
  }

  /** A zero appended to the fraction (or a fraction `.0` added to a
      literal without one) leaves the value unchanged. */
  lemma TrailingZeroSameValue(p: Parts)
    ensures PartsValue(p.(frac := Some(FracDigits(p) + [0x30]))) == PartsValue(p)
  {
    var q := p.(frac := Some(FracDigits(p) + [0x30]));
    var d := p.intDigits + FracDigits(p);
    var d' := q.intDigits + FracDigits(q);
    assert d' == d + [0x30];
    assert d'[..|d'| - 1] == d;
    assert DecimalValue(d') == 10 * DecimalValue(d);
    var e := ExpValue(p) - |FracDigits(p)|;
    assert ExpValue(q) - |FracDigits(q)| == e - 1;
    ScaleShift(p.negative, DecimalValue(d), e);
  }

  /** Ten times the digits at one power of ten less is the same value. */
  lemma ScaleShift(negative: bool, m: nat, e: int)
    ensures Scaled(negative, 10 * m, e - 1) == Scaled(negative, m, e)
  {
    TenToStep(e);
    var t := TenTo(e - 1);
    assert (10 * m) as real * t == m as real * (10.0 * t);
  }

  /** The parts the scanner's greedy shape finds at the start of `t`. */
  function PartsOf(t: Bytes): Parts {
    var sh := ShapeOf(t);
    Parts(sh.intStart == 1, t[sh.intStart..sh.intEnd],
          if sh.hasFrac then Some(t[sh.intEnd + 1..sh.fracEnd]) else None,
          if sh.hasExp then
            Some(ExpPart(t[sh.fracEnd], if sh.expStart == sh.fracEnd + 2 then Some(t[sh.fracEnd + 1]) else None,
                         t[sh.expStart..sh.end]))
          else None)
  }

  /** A byte that would extend a literal: a digit, '.', 'e' or 'E'. */
  predicate Continues(c: byte) {
    IsDigit(c) || c == DOT || IsExpMarker(c)
  }

  function IntEndOf(p: Parts): nat {
    (if p.negative then 1 else 0) + |p.intDigits|
  }

  function FracEndOf(p: Parts): nat {
    IntEndOf(p) + |FracBytes(p)|
  }

  function ExpStartOf(p: Parts): nat {
    FracEndOf(p) + (if p.exp.Some? && p.exp.value.sign.Some? then 2 else 1)
  }

  /** Where each part sits in the composed text. */
  lemma ComposeLayout(p: Parts, rest: Bytes)
    ensures var t := Compose(p) + rest;
            var s := if p.negative then 1 else 0;
            |Compose(p)| == FracEndOf(p) + |ExpBytes(p)| &&
            (p.negative ==> t[0] == MINUS) &&
            t[s..IntEndOf(p)] == p.intDigits &&
            (p.frac.Some? ==> t[IntEndOf(p)] == DOT && t[IntEndOf(p) + 1..FracEndOf(p)] == p.frac.value) &&
            (p.exp.Some? ==>
               t[FracEndOf(p)] == p.exp.value.marker &&
               (p.exp.value.sign.Some? ==> t[FracEndOf(p) + 1] == p.exp.value.sign.value) &&
               t[ExpStartOf(p)..|Compose(p)|] == p.exp.value.digits) &&
            t[|Compose(p)|..] == rest
  {
    LayoutInt(p, rest);
    LayoutFrac(p, rest);
    LayoutExp(p, rest);
  }

  /** The head: an optional minus sign, then the integer digits. */
  lemma LayoutInt(p: Parts, rest: Bytes)
    ensures var t := Compose(p) + rest;
            var s := if p.negative then 1 else 0;
            IntEndOf(p) <= |t| && (p.negative ==> t[0] == MINUS) && t[s..IntEndOf(p)] == p.intDigits
  {
    var head: Bytes := if p.negative then [MINUS] else [];
    var t := Compose(p) + rest;
    Assoc3(head + p.intDigits, FracBytes(p), ExpBytes(p), rest);
    PieceAt(t, [], head, p.intDigits + (FracBytes(p) + ExpBytes(p) + rest));
    Assoc(head, p.intDigits, FracBytes(p) + ExpBytes(p) + rest);
    PieceAt(t, head, p.intDigits, FracBytes(p) + ExpBytes(p) + rest);
    if p.negative {
      assert t[0] == t[0..1][0];
    }
  }

  /** The fraction: a dot, then its digits. */
  lemma LayoutFrac(p: Parts, rest: Bytes)
    ensures var t := Compose(p) + rest;
            FracEndOf(p) <= |t| &&
            (p.frac.Some? ==> t[IntEndOf(p)] == DOT && t[IntEndOf(p) + 1..FracEndOf(p)] == p.frac.value)
  {
    var head: Bytes := if p.negative then [MINUS] else [];
    var t := Compose(p) + rest;
    Assoc(head + p.intDigits + FracBytes(p), ExpBytes(p), rest);
    PieceAt(t, head + p.intDigits, FracBytes(p), ExpBytes(p) + rest);
    if p.frac.Some? {
      var f := FracBytes(p);
      var i := IntEndOf(p);
      assert t[i..FracEndOf(p)] == f;
      assert t[i] == f[0] == DOT;
      assert t[i + 1..FracEndOf(p)] == f[1..] == p.frac.value;
    }
  }

  /** The exponent: its marker, its optional sign, then its digits, and
      after it the rest. */
  lemma LayoutExp(p: Parts, rest: Bytes)
    ensures var t := Compose(p) + rest;
            |Compose(p)| == FracEndOf(p) + |ExpBytes(p)| &&
            (p.exp.Some? ==>
               t[FracEndOf(p)] == p.exp.value.marker &&
               (p.exp.value.sign.Some? ==> t[FracEndOf(p) + 1] == p.exp.value.sign.value) &&
               t[ExpStartOf(p)..|Compose(p)|] == p.exp.value.digits) &&
            t[|Compose(p)|..] == rest
  {
    var t := Compose(p) + rest;
    var pre := Compose(p)[..FracEndOf(p)];
    ComposeEnds(p);
    PieceAt(t, pre, ExpBytes(p), rest);
    if p.exp.Some? {
      var e := p.exp.value;
      var signBytes: Bytes := if e.sign.Some? then [e.sign.value] else [];
      var x := ExpBytes(p);
      var f := FracEndOf(p);
      assert x == [e.marker] + signBytes + e.digits;
      assert t[f..|Compose(p)|] == x;
      assert t[f] == x[0] == e.marker;
      if e.sign.Some? {
        assert t[f + 1] == x[1] == e.sign.value;
      }
      assert t[ExpStartOf(p)..|Compose(p)|] == x[|signBytes| + 1..] == e.digits;
    }
  }

  /** The composed text ends with the exponent bytes. */
  lemma ComposeEnds(p: Parts)
    ensures |Compose(p)| == FracEndOf(p) + |ExpBytes(p)|
    ensures Compose(p) == Compose(p)[..FracEndOf(p)] + ExpBytes(p)
  {
    var head: Bytes := if p.negative then [MINUS] else [];
    assert Compose(p)[..FracEndOf(p)] == head + p.intDigits + FracBytes(p);
  }

  /** A piece of a concatenation sits right after what precedes it. */
  lemma PieceAt(t: Bytes, pre: Bytes, u: Bytes, post: Bytes)
    requires t == pre + u + post
    ensures |pre| + |u| <= |t| && t[|pre|..|pre| + |u|] == u && t[|pre| + |u|..] == post
  {
  }

  lemma Assoc(x: Bytes, y: Bytes, z: Bytes)
    ensures (x + y) + z == x + (y + z)
  {
  }

  lemma Assoc3(w: Bytes, x: Bytes, y: Bytes, z: Bytes)
    ensures ((w + x) + y) + z == w + (x + y + z)
  {
  }

  /** The greedy shape takes the parts of a composed literal back apart, as
      long as the literal has integer digits and what follows cannot
      continue it. */
  lemma ShapeOfCompose(p: Parts, rest: Bytes)
    requires PartsWellFormed(p) && |p.intDigits| > 0
    requires p.exp.Some? ==> |p.exp.value.digits| > 0
    requires rest == [] || !Continues(rest[0])
    ensures var sh := ShapeOf(Compose(p) + rest);
            sh.intStart == (if p.negative then 1 else 0) && sh.intEnd == IntEndOf(p) &&
            sh.hasFrac == p.frac.Some? && sh.fracEnd == FracEndOf(p) &&
            sh.hasExp == p.exp.Some? && sh.expStart == ExpStartOf(p) &&
            sh.end == |Compose(p)|
  {
    IntShape(p, rest);
    FracShape(p, rest);
    ExpShape(p, rest);
  }

  /** The greedy scan finds the integer digits of a composed literal. */
  lemma IntShape(p: Parts, rest: Bytes)
    requires PartsWellFormed(p) && |p.intDigits| > 0
    requires p.exp.Some? ==> |p.exp.value.digits| > 0
    requires rest == [] || !Continues(rest[0])
    ensures var sh := ShapeOf(Compose(p) + rest);
            sh.intStart == (if p.negative then 1 else 0) && sh.intEnd == IntEndOf(p)
  {
    var t := Compose(p) + rest;
    var s := if p.negative then 1 else 0;
    LayoutInt(p, rest);
    assert t[s] == t[s..IntEndOf(p)][0];
    DigitsInSlice(t, s, IntEndOf(p));
    IntPartStops(p, rest);
    DigitsEndAt(t, s, IntEndOf(p));
  }

  /** What follows the integer digits of a composed literal is not a
      digit. */
  lemma IntPartStops(p: Parts, rest: Bytes)
    requires PartsWellFormed(p)
    requires p.exp.Some? ==> |p.exp.value.digits| > 0
    requires rest == [] || !Continues(rest[0])
    ensures var t := Compose(p) + rest;
            IntEndOf(p) <= |t| && (IntEndOf(p) == |t| || !IsDigit(t[IntEndOf(p)]))
  {
    LayoutFrac(p, rest);
    if p.frac.None? {
      LayoutExp(p, rest);
    }
  }

  /** The greedy scan finds the fraction of a composed literal. */
  lemma FracShape(p: Parts, rest: Bytes)
    requires PartsWellFormed(p) && |p.intDigits| > 0
    requires p.exp.Some? ==> |p.exp.value.digits| > 0
    requires rest == [] || !Continues(rest[0])
    ensures var sh := ShapeOf(Compose(p) + rest);
            sh.hasFrac == p.frac.Some? && sh.fracEnd == FracEndOf(p)
  {
    var t := Compose(p) + rest;
    IntShape(p, rest);
    LayoutFrac(p, rest);
    if p.frac.Some? {
      DigitsInSlice(t, IntEndOf(p) + 1, FracEndOf(p));
      FracPartStops(p, rest);
      DigitsEndAt(t, IntEndOf(p) + 1, FracEndOf(p));
    } else {
      IntPartStops(p, rest);
      NoDotAfterInt(p, rest);
    }
  }

  /** What follows the fraction of a composed literal is not a digit. */
  lemma FracPartStops(p: Parts, rest: Bytes)
    requires PartsWellFormed(p)
    requires rest == [] || !Continues(rest[0])
    ensures var t := Compose(p) + rest;
            FracEndOf(p) <= |t| && (FracEndOf(p) == |t| || !IsDigit(t[FracEndOf(p)]))
  {
    LayoutExp(p, rest);
    if p.exp.None? {
      RestStops(p, rest);
    }
  }

  /** Without a fraction, no dot follows the integer digits. */
  lemma NoDotAfterInt(p: Parts, rest: Bytes)
    requires p.frac.None?
    requires PartsWellFormed(p)
    requires rest == [] || !Continues(rest[0])
    ensures var t := Compose(p) + rest;
            IntEndOf(p) <= |t| && (IntEndOf(p) == |t| || t[IntEndOf(p)] != DOT)
  {
    LayoutExp(p, rest);
    if p.exp.None? {
      RestStops(p, rest);
    }
  }

  /** The greedy scan finds the exponent of a composed literal and stops at
      its end. */
  lemma ExpShape(p: Parts, rest: Bytes)
    requires PartsWellFormed(p) && |p.intDigits| > 0
    requires p.exp.Some? ==> |p.exp.value.digits| > 0
    requires rest == [] || !Continues(rest[0])
    ensures var sh := ShapeOf(Compose(p) + rest);
            sh.hasExp == p.exp.Some? && sh.expStart == ExpStartOf(p) && sh.end == |Compose(p)|
  {
    FracShape(p, rest);
    if p.exp.Some? {
      ExpSomeShape(p, rest);
    } else {
      ExpNoneShape(p, rest);
    }
  }

  /** Without an exponent, the scan ends with the fraction. */
  lemma ExpNoneShape(p: Parts, rest: Bytes)
    requires p.exp.None?
    requires rest == [] || !Continues(rest[0])
    requires var sh := ShapeOf(Compose(p) + rest); sh.fracEnd == FracEndOf(p)
    ensures var sh := ShapeOf(Compose(p) + rest);
            !sh.hasExp && sh.expStart == ExpStartOf(p) && sh.end == |Compose(p)|
  {
    LayoutExp(p, rest);
    RestStops(p, rest);
  }

  /** With an exponent, the scan takes its marker, its sign and its digits. */
  lemma ExpSomeShape(p: Parts, rest: Bytes)
    requires PartsWellFormed(p) && p.exp.Some? && |p.exp.value.digits| > 0
    requires rest == [] || !Continues(rest[0])
    requires var sh := ShapeOf(Compose(p) + rest); sh.fracEnd == FracEndOf(p)
    ensures var sh := ShapeOf(Compose(p) + rest);
            sh.hasExp && sh.expStart == ExpStartOf(p) && sh.end == |Compose(p)|
  {
    var t := Compose(p) + rest;
    var end := |Compose(p)|;
    LayoutExp(p, rest);
    if p.exp.value.sign.None? {
      assert t[FracEndOf(p) + 1] == t[ExpStartOf(p)..end][0];
    }
    assert ShapeOf(t).expStart == ExpStartOf(p);
    DigitsInSlice(t, ExpStartOf(p), end);
    RestStops(p, rest);
    DigitsEndAt(t, ExpStartOf(p), end);
  }

  /** What follows a composed literal cannot continue it. */
  lemma RestStops(p: Parts, rest: Bytes)
    requires rest == [] || !Continues(rest[0])
    ensures var t := Compose(p) + rest;
            |Compose(p)| == |t| || !Continues(t[|Compose(p)|])
  {
    var t := Compose(p) + rest;
    if |Compose(p)| < |t| {
      assert t[|Compose(p)|] == rest[0];
    }
  }

  /** `PartsOf` inverts `Compose` under the conditions of `ShapeOfCompose`. */
  lemma PartsOfCompose(p: Parts, rest: Bytes)
    requires PartsWellFormed(p) && |p.intDigits| > 0
    requires p.exp.Some? ==> |p.exp.value.digits| > 0
    requires rest == [] || !Continues(rest[0])
    ensures ShapeOf(Compose(p) + rest).end == |Compose(p)|
    ensures PartsOf(Compose(p) + rest) == p
  {
    ShapeOfCompose(p, rest);
    ComposeLayout(p, rest);
  }

  /** `_parseInt` succeeds on the lexeme exactly when there is neither a
      fraction nor an exponent and the value fits in an int64. */
  lemma Int64OfLexeme(t: Bytes)
    requires |t[ShapeOf(t).intStart..ShapeOf(t).intEnd]| > 0
    ensures Int64Of(t[..ShapeOf(t).end]) == IntValue(PartsOf(t))
  {
    var sh := ShapeOf(t);
    var l := t[..sh.end];
    if sh.hasFrac || sh.hasExp {
      assert !IsDigit(l[sh.intEnd]);
      if sh.intStart == 1 {
        assert l[1..][sh.intEnd - 1] == l[sh.intEnd];
      }
    } else {
      DigitsInSlice(t, sh.intStart, sh.intEnd);
      assert l == t[..sh.intStart] + t[sh.intStart..sh.intEnd];
      if sh.intStart == 1 {
        assert l[1..] == t[sh.intStart..sh.intEnd];
      } else {
        assert l == t[sh.intStart..sh.intEnd];
      }
    }
  }

  /** The conversion the scanner applies to its lexeme agrees with the value
      the reference grammar gives the parts. */
  lemma ConvertMatchesParts(t: Bytes)
    requires IntPartOk(t[ShapeOf(t).intStart..ShapeOf(t).intEnd])
    ensures t[..ShapeOf(t).end] == Compose(PartsOf(t))
    ensures Convert(t, ShapeOf(t)) == ValueOf(PartsOf(t))
  {
    LexemeIsComposed(t);
    Int64OfLexeme(t);
    FloatAcceptedByParts(t);
  }

  /** `_parseFloat`'s verdict on the lexeme, stated on its parts. */
  lemma FloatAcceptedByParts(t: Bytes)
    ensures FloatAccepted(t, ShapeOf(t)) == DoubleOk(PartsOf(t))
  {
  }

  lemma FracBytesOf(t: Bytes)
    ensures FracBytes(PartsOf(t)) == t[ShapeOf(t).intEnd..ShapeOf(t).fracEnd]
  {
    var sh := ShapeOf(t);
    if sh.hasFrac {
      assert t[sh.intEnd..sh.fracEnd] == [t[sh.intEnd]] + t[sh.intEnd + 1..sh.fracEnd];
    }
  }

  lemma ExpBytesOf(t: Bytes)
    ensures ExpBytes(PartsOf(t)) == t[ShapeOf(t).fracEnd..ShapeOf(t).end]
  {
    var sh := ShapeOf(t);
    if sh.hasExp {
      var e := PartsOf(t).exp.value;
      var signBytes: Bytes := if e.sign.Some? then [e.sign.value] else [];
      assert signBytes == t[sh.fracEnd + 1..sh.expStart];
      assert t[sh.fracEnd..sh.end] == [t[sh.fracEnd]] + t[sh.fracEnd + 1..sh.expStart] + t[sh.expStart..sh.end];
    }
  }

  /** The scanned lexeme is the composition of the parts found in it. */
  lemma LexemeIsComposed(t: Bytes)
    ensures t[..ShapeOf(t).end] == Compose(PartsOf(t))
  {
    var sh := ShapeOf(t);
    var p := PartsOf(t);
    var head: Bytes := if p.negative then [MINUS] else [];
    assert t[..sh.intStart] == head;
    assert FracBytes(p) == t[sh.intEnd..sh.fracEnd] by {
      FracBytesOf(t);
    }
    assert ExpBytes(p) == t[sh.fracEnd..sh.end] by {
      ExpBytesOf(t);
    }
    SliceSplit(t, sh.fracEnd, sh.end);
    SliceSplit(t, sh.intEnd, sh.fracEnd);
    SliceSplit(t, sh.intStart, sh.intEnd);
  }

  lemma SliceSplit(t: Bytes, a: nat, b: nat)
    requires a <= b <= |t|
    ensures t[..b] == t[..a] + t[a..b]
  {
  }

  /** What `tryParseNumber` answers, stated on the parts: the leading-zero
      rule, then the reference value, provided the scan ends at the end of
      the text (a 0 byte counts) or, in "stop at next" mode, at a
      punctuator or comment opener. */
  lemma ParseNumberByParts(t: Bytes, stopAtNext: bool)
    ensures var sh := ShapeOf(t);
            var w := WhiteEnd(t, sh.end);
            ParseNumber(t, stopAtNext) ==
              if IntPartOk(PartsOf(t).intDigits) &&
                 (ByteAt(t, w) == NUL || (stopAtNext && StopsHere(t, w)))
              then ValueOf(PartsOf(t)) else None
  {
    if IntPartOk(PartsOf(t).intDigits) {
      ConvertMatchesParts(t);
    }
  }

  /** Reading a literal back: a well-formed literal followed by white space
      and then the end of the text, a 0 byte or (in "stop at next" mode) a
      punctuator or comment opener is accepted exactly when the leading-zero
      rule holds, with the value the reference grammar gives it. */
  lemma ParseComposed(p: Parts, white: Bytes, tail: Bytes, stopAtNext: bool)
    requires PartsWellFormed(p) && |p.intDigits| > 0
    requires p.exp.Some? ==> |p.exp.value.digits| > 0
    requires forall k | 0 <= k < |white| :: IsWhite(white[k])
    requires tail == [] || tail[0] == NUL || (stopAtNext && StopsHere(tail, 0))
    ensures ParseNumber(Compose(p) + white + tail, stopAtNext) ==
              if IntPartOk(p.intDigits) then ValueOf(p) else None
  {
    var t := Compose(p) + white + tail;
    var w := |Compose(p)| + |white|;
    ComposedParts(p, white, tail, t);
    ComposedWhite(p, white, tail, t, w);
    ComposedStop(p, white, tail, stopAtNext, t, w);
    ParseNumberByParts(t, stopAtNext);
  }

  /** The scan of a composed literal followed by white space and a stop
      takes the literal and gives back its parts. */
  lemma ComposedParts(p: Parts, white: Bytes, tail: Bytes, t: Bytes)
    requires PartsWellFormed(p) && |p.intDigits| > 0
    requires p.exp.Some? ==> |p.exp.value.digits| > 0
    requires forall k | 0 <= k < |white| :: IsWhite(white[k])
    requires tail == [] || tail[0] == NUL || StopsHere(tail, 0)
    requires t == Compose(p) + white + tail
    ensures ShapeOf(t).end == |Compose(p)| && PartsOf(t) == p
  {
    Assoc(Compose(p), white, tail);
    assert white + tail == [] || !Continues((white + tail)[0]);
    PartsOfCompose(p, white + tail);
  }

  /** The white space after a composed literal ends where the stop starts. */
  lemma ComposedWhite(p: Parts, white: Bytes, tail: Bytes, t: Bytes, w: nat)
    requires forall k | 0 <= k < |white| :: IsWhite(white[k])
    requires tail == [] || tail[0] == NUL || StopsHere(tail, 0)
    requires t == Compose(p) + white + tail && w == |Compose(p)| + |white|
    ensures WhiteEnd(t, |Compose(p)|) == w
  {
    assert forall k | |Compose(p)| <= k < w :: IsWhite(t[k]);
    if w < |t| {
      assert t[w] == tail[0];
    }
    WhiteEndAt(t, |Compose(p)|, w);
  }

  /** The stop after the white space is seen as one. */
  lemma ComposedStop(p: Parts, white: Bytes, tail: Bytes, stopAtNext: bool, t: Bytes, w: nat)
    requires tail == [] || tail[0] == NUL || (stopAtNext && StopsHere(tail, 0))
    requires t == Compose(p) + white + tail && w == |Compose(p)| + |white|
    ensures ByteAt(t, w) == NUL || (stopAtNext && StopsHere(t, w))
  {
    if tail != [] {
      assert tail[0] == t[w];
      if stopAtNext && StopsHere(tail, 0) {
        assert 1 < |tail| ==> tail[1] == t[w + 1];
      }
    }
  }

  /** A literal whose integer part breaks the leading-zero rule is
      rejected, whatever follows it. */
  lemma RejectsLeadingZero(p: Parts, text: Bytes)
    requires PartsWellFormed(p) && |p.intDigits| > 1 && p.intDigits[0] == 0x30
    requires p.exp.Some? ==> |p.exp.value.digits| > 0
    requires text == Compose(p)
    ensures ParseNumber(text, false).None?
  {
    assert text == Compose(p) + [] + [];
    ParseComposed(p, [], [], false);
  }

  /** The leading-zero rule on examples: "00", "01", "-01" and "00.5" are
      rejected. ('0' is 0x30, '1' is 0x31, '5' is 0x35.) */
  lemma LeadingZeroRejected()
    ensures ParseNumber([0x30, 0x30], false).None?
    ensures ParseNumber([0x30, 0x31], false).None?
    ensures ParseNumber([MINUS, 0x30, 0x31], false).None?
    ensures ParseNumber([0x30, 0x30, DOT, 0x35], false).None?
  {
    RejectsLeadingZero(Parts(false, [0x30, 0x30], None, None), [0x30, 0x30]);
    RejectsLeadingZero(Parts(false, [0x30, 0x31], None, None), [0x30, 0x31]);
    RejectsLeadingZero(Parts(true, [0x30, 0x31], None, None), [MINUS, 0x30, 0x31]);
    RejectsLeadingZero(Parts(false, [0x30, 0x30], Some([0x35]), None), [0x30, 0x30, DOT, 0x35]);
  }

  /** A single zero is allowed: "0" and "-0" are the integer 0, "0.5" is a
      double. */
  lemma SingleZeroAccepted()
    ensures ParseNumber([0x30], false) == Some(Int(0))
    ensures ParseNumber([MINUS, 0x30], false) == Some(Int(0))
    ensures ParseNumber([0x30, DOT, 0x35], false) == Some(Dbl(Decimal([0x30, DOT, 0x35])))
  {
    ZeroAccepted(false);
    ZeroAccepted(true);
    ZeroFractionAccepted();
  }

  lemma ZeroAccepted(negative: bool)
    ensures ParseNumber(if negative then [MINUS, 0x30] else [0x30], false) == Some(Int(0))
  {
    var p := Parts(negative, [0x30], None, None);
    assert (if negative then [MINUS, 0x30] else [0x30]) == Compose(p) + [] + [];
    ParseComposed(p, [], [], false);
  }

  lemma ZeroFractionAccepted()
    ensures ParseNumber([0x30, DOT, 0x35], false) == Some(Dbl(Decimal([0x30, DOT, 0x35])))
  {
    var p := Parts(false, [0x30], Some([0x35]), None);
    assert Finite([0x30], [0x35], false, []) by {
      assert [0x30] + [0x35] == [0x30, 0x35];
      assert DecimalValue([0x30, 0x35]) == 5;
      assert Overflows(5, -1) == Overflows(0, 0);
    }
    assert [0x30, DOT, 0x35] == Compose(p) + [] + [];
    ParseComposed(p, [], [], false);
  }

  /** The integer part needs a digit: when the byte after the optional '-'
      is not a digit ("-", ".5", "-.5", "e3"), nothing is accepted. */
  lemma IntDigitRequired(t: Bytes, stopAtNext: bool)
    requires var s := if |t| > 0 && t[0] == MINUS then 1 else 0;
             s == |t| || !IsDigit(t[s])
    ensures ParseNumber(t, stopAtNext).None?
  {
  }

  /** The parts of an accepted text are well formed. */
  lemma PartsOfWellFormed(t: Bytes)
    ensures PartsWellFormed(PartsOf(t))
  {
    var sh := ShapeOf(t);
    DigitsInSlice(t, sh.intStart, sh.intEnd);
    if sh.hasFrac {
      DigitsInSlice(t, sh.intEnd + 1, sh.fracEnd);
    }
    if sh.hasExp {
      DigitsInSlice(t, sh.expStart, sh.end);
    }
  }

  /** Whatever `tryParseNumber` accepts starts with a literal of the
      grammar: the lexeme is the composition of well-formed parts obeying
      the leading-zero rule, its value is the one the parts denote, and only
      white space lies between it and the end, a 0 byte or (in "stop at
      next" mode) a punctuator or comment opener. */
  lemma AcceptedIsLiteral(t: Bytes, stopAtNext: bool)
    requires ParseNumber(t, stopAtNext).Some?
    ensures var p := PartsOf(t);
            var n := |Compose(p)|;
            var w := WhiteEnd(t, n);
            PartsWellFormed(p) && IntPartOk(p.intDigits) &&
            n <= |t| && t[..n] == Compose(p) &&
            ParseNumber(t, stopAtNext) == ValueOf(p) &&
            (forall k | n <= k < w :: IsWhite(t[k])) &&
            (w == |t| || t[w] == NUL || (stopAtNext && StopsHere(t, w)))
  {
    PartsOfWellFormed(t);
    ParseNumberByParts(t, stopAtNext);
    LexemeIsComposed(t);
  }

  /** A number the "must consume everything" mode accepts is accepted in
      "stop at next" mode too, with the same value: `startsWithNumber`
      holds of every complete number. */
  lemma StopModeExtends(t: Bytes)
    requires ParseNumber(t, false).Some?
    ensures ParseNumber(t, true) == ParseNumber(t, false)
    ensures StartsWithNumber(t)
  {
  }

  /** Leftovers: "1.2.3" and "42 x" are rejected; "42 ," is rejected when
      the whole text must be a number but starts with one. */
  lemma TrailingExamples()
    ensures ParseNumber([0x31, DOT, 0x32, DOT, 0x33], false).None?
    ensures ParseNumber([0x34, 0x32, SPACE, 0x78], false).None?
    ensures ParseNumber([0x34, 0x32, SPACE, 0x78], true).None?
    ensures ParseNumber([0x34, 0x32, SPACE, COMMA], false).None?
    ensures ParseNumber([0x34, 0x32, SPACE, COMMA], true) == Some(Int(42))
  {
    var t1: Bytes := [0x31, DOT, 0x32, DOT, 0x33];
    assert DigitsEnd(t1, 0) == 1;
    assert DigitsEnd(t1, 2) == 3;
    var t2: Bytes := [0x34, 0x32, SPACE, 0x78];
    DigitsEndAt(t2, 0, 2);
    assert WhiteEnd(t2, 2) == 3;
    var t3: Bytes := [0x34, 0x32, SPACE, COMMA];
    DigitsEndAt(t3, 0, 2);
    assert WhiteEnd(t3, 2) == 3;
    assert t3[..2] == [0x34, 0x32];
    assert t3[..2][1..] == [0x32];
    assert DecimalValue([0x34, 0x32]) == 42;
  }
}

=== FILE: outcome.dfy ===
/** The library's failure modes, as values instead of C++ exceptions. */
module Outcome {

  /** `syntax_error` is thrown by the decoder, `type_mismatch` and
      `index_out_of_bounds` by the Value API (include/hjson/hjson.h). */
  datatype Error = SyntaxError | TypeMismatch | IndexOutOfBounds

  datatype Result<+T> = Ok(value: T) | Fail(error: Error) {

    predicate IsFailure() {
      Fail?
    }

    function PropagateFailure<U>(): Result<U>
      requires Fail?
    {
      Fail(error)
    }

    function Extract(): T
      requires Ok?
    {
      value
    }
  }

  datatype Option<+T> = None | Some(value: T)
}

=== FILE: round_trip.dfy ===
/** What the encoder writes, the decoder reads back: escapes, quoted
    strings, multiline strings and key names. */
module RoundTrip {
  import opened Bytes
  import opened Outcome
  import opened Values
  import opened Decoder
  import opened Encoder

  // ---------------------------------------------------------------------
  // Escapes
  // ---------------------------------------------------------------------

  /** The string loop does not look at the byte read last. */
  lemma StringLoopAnyCh(data: Bytes, i: nat, c1: byte, c2: byte, exitCh: byte, allowML: bool, res: Bytes)
    requires i <= |data|
    ensures StringLoop(data, Parser(i, c1), exitCh, allowML, res) == StringLoop(data, Parser(i, c2), exitCh, allowML, res)
  {
  }

  /** One digit of `ReadHex`. */
  lemma ReadHexStep(data: Bytes, p: Parser, count: nat, acc: nat, d: byte)
    requires Valid(data, p) && p.at < |data| && 0 < count <= 4 && acc < Pow16(4 - count)
    requires data[p.at] == d && IsHexDigit(d)
    ensures acc * 16 + HexValue(d) < Pow16(4 - (count - 1))
    ensures ReadHex(data, p, count, acc) == ReadHex(data, Parser(p.at + 1, d), count - 1, acc * 16 + HexValue(d))
  {
  }

  /** The value of the hexadecimal digits `h` appended to `acc`. */
  function HexAcc(acc: nat, h: Bytes): nat
    requires forall k | 0 <= k < |h| :: IsHexDigit(h[k])
    decreases |h|
  {
    if |h| == 0 then acc else HexAcc(acc * 16 + HexValue(h[0]), h[1..])
  }

  /** Where `ReadHex` leaves the cursor after `count` digits `h` read from
      `p`. */
  function HexEnd(p: Parser, count: nat, h: Bytes): Parser
    requires |h| == count
  {
    if count == 0 then p else Parser(p.at + count, h[count - 1])
  }

  /** `ReadHex` reads `count` digits as their value. */
  lemma {:induction false} ReadHexRun(data: Bytes, p: Parser, count: nat, acc: nat, h: Bytes)
    requires Valid(data, p) && p.at + count <= |data| && count <= 4 && acc < Pow16(4 - count)
    requires |h| == count && forall k | 0 <= k < count :: IsHexDigit(h[k]) && data[p.at + k] == h[k]
    ensures ReadHex(data, p, count, acc) == Ok((HexAcc(acc, h), HexEnd(p, count, h)))
    decreases count
  {
    if count > 0 {
      var q := HexRest(data, p, count, acc, h);
      ReadHexStep(data, p, count, acc, h[0]);
      ReadHexRun(data, q, count - 1, acc * 16 + HexValue(h[0]), h[1..]);
    }
  }

  /** After the first of `count` digits, the cursor is on it and the rest
      of the digits follow. */
  lemma HexRest(data: Bytes, p: Parser, count: nat, acc: nat, h: Bytes) returns (q: Parser)
    requires p.at + count <= |data| && 0 < count
    requires |h| == count && forall k | 0 <= k < count :: IsHexDigit(h[k]) && data[p.at + k] == h[k]
    ensures q == Parser(p.at + 1, h[0]) && data[p.at] == h[0]
    ensures forall k | 0 <= k < count - 1 :: IsHexDigit(h[1..][k]) && data[q.at + k] == h[1..][k]
    ensures HexAcc(acc, h) == HexAcc(acc * 16 + HexValue(h[0]), h[1..])
    ensures HexEnd(p, count, h) == HexEnd(q, count - 1, h[1..])
  {
    q := Parser(p.at + 1, h[0]);
    assert data[p.at + 0] == h[0];
    forall k | 0 <= k < count - 1
      ensures IsHexDigit(h[1..][k]) && data[q.at + k] == h[1..][k]
    {
      assert data[p.at + (k + 1)] == h[k + 1];
    }
  }

  /** `ReadHex` reads back the four digits `Hex4` prints. */
  lemma ReadHex4(data: Bytes, p: Parser, u: nat)
    requires Valid(data, p) && p.at + 4 <= |data| && u < 0x10000
    requires data[p.at..p.at + 4] == Hex4(u)
    ensures ReadHex(data, p, 4, 0) == Ok((u, Parser(p.at + 4, data[p.at + 3])))
  {
    var h := Hex4Digits(data, p.at, u);
    ReadHexRun(data, p, 4, 0, h);
    HexAcc4(h);
  }

  /** The four digits `Hex4` prints, standing in `data` at `at`. */
  lemma Hex4Digits(data: Bytes, at: nat, u: nat) returns (h: Bytes)
    requires at + 4 <= |data| && u < 0x10000
    requires data[at..at + 4] == Hex4(u)
    ensures h == Hex4(u) && |h| == 4 && data[at + 3] == h[3]
    ensures forall k | 0 <= k < 4 :: IsHexDigit(h[k]) && data[at + k] == h[k]
  {
    h := Hex4(u);
    forall k | 0 <= k < 4
      ensures data[at + k] == h[k]
    {
      assert data[at..at + 4][k] == data[at + k];
    }
  }

  lemma HexAcc4(h: Bytes)
    requires |h| == 4 && forall k | 0 <= k < 4 :: IsHexDigit(h[k])
    ensures HexAcc(0, h) == ((HexValue(h[0]) * 16 + HexValue(h[1])) * 16 + HexValue(h[2])) * 16 + HexValue(h[3])
  {
    var a1 := HexValue(h[0]);
    var a2 := a1 * 16 + HexValue(h[1]);
    var a3 := a2 * 16 + HexValue(h[2]);
    assert HexAcc(0, h) == HexAcc(a1, h[1..]);
    assert HexAcc(a1, h[1..]) == HexAcc(a2, h[2..]);
    assert HexAcc(a2, h[2..]) == HexAcc(a3, h[3..]);
    assert h[3..][1..] == [];
  }

  /** A `\u` escape with four hexadecimal digits reads as the UTF-8
      encoding of its code point. */
  lemma HexEscapeRead(data: Bytes, i: nat, c: byte, exitCh: byte, allowML: bool, res: Bytes, u: nat)
    requires i + 6 <= |data| && u < 0x10000 && exitCh != BACKSLASH
    requires data[i..i + 6] == [BACKSLASH, 0x75] + Hex4(u)
    ensures StringLoop(data, Parser(i, c), exitCh, allowML, res) ==
            StringLoop(data, Parser(i + 6, data[i + 5]), exitCh, allowML, res + ToUtf8(u).value)
  {
    assert data[i] == BACKSLASH && data[i + 1] == 0x75;
    assert data[i + 2..i + 6] == Hex4(u);
    ReadHex4(data, Parser(i + 2, 0x75), u);
  }

  /** A well-formed two-byte sequence decodes to a code point that
      encodes back to it. */
  lemma TwoByteSequence(b0: byte, b1: byte)
    requires 0xc2 <= b0 <= 0xdf && 0x80 <= b1 <= 0xbf
    ensures var u := (b0 as nat - 0xc0) * 0x40 + (b1 as nat - 0x80);
      FromUtf8([b0, b1]) == Some((u, 2)) && u < 0x10000 && ToUtf8(u) == Some([b0, b1])
  {
    var m := [b0, b1];
    var u := (b0 as nat - 0xc0) * 0x40 + (b1 as nat - 0x80);
    assert LeadBits(b0, 2) == b0 as nat - 0xc0;
    assert Trailers(m, 1, 2, b0 as nat - 0xc0) == Trailers(m, 2, 2, u);
    assert u / 0x40 == b0 as nat - 0xc0;
  }

  /** A well-formed three-byte sequence decodes to a code point that
      encodes back to it. */
  lemma ThreeByteSequence(b0: byte, b1: byte, b2: byte)
    requires 0xe1 <= b0 <= 0xef && 0x80 <= b1 <= 0xbf && 0x80 <= b2 <= 0xbf
    ensures var u := ((b0 as nat - 0xe0) * 0x40 + (b1 as nat - 0x80)) * 0x40 + (b2 as nat - 0x80);
      FromUtf8([b0, b1, b2]) == Some((u, 3)) && u < 0x10000 && ToUtf8(u) == Some([b0, b1, b2])
  {
    var m := [b0, b1, b2];
    var a := (b0 as nat - 0xe0) * 0x40 + (b1 as nat - 0x80);
    var u := a * 0x40 + (b2 as nat - 0x80);
    assert LeadBits(b0, 3) == b0 as nat - 0xe0;
    assert Trailers(m, 1, 3, b0 as nat - 0xe0) == Trailers(m, 2, 3, a);
    assert Trailers(m, 2, 3, a) == Trailers(m, 3, 3, u);
    assert 0x1000 <= u < 0x10000;
    assert u / 0x1000 == b0 as nat - 0xe0;
    assert u / 0x40 == a;
    assert a % 0x40 == b1 as nat - 0x80;
  }

  /** Every invisible sequence is the UTF-8 encoding of one code point
      below 0x10000, which is what the decoder writes back for its `\u`
      escape. */
  lemma InvisibleIsOneCodePoint(s: Bytes, j: nat)
    requires j < |s| && InvisibleAt(s, j) > 0
    ensures var m := s[j..j + InvisibleAt(s, j)];
      Meta(s[j]).None? &&
      FromUtf8(m).Some? && FromUtf8(m).value.1 == |m| && FromUtf8(m).value.0 < 0x10000 &&
      ToUtf8(FromUtf8(m).value.0) == Some(m)
  {
    var n := InvisibleAt(s, j);
    var m := s[j..j + n];
    if n == 2 {
      assert m == [s[j], s[j + 1]];
      TwoByteSequence(s[j], s[j + 1]);
    } else {
      assert m == [s[j], s[j + 1], s[j + 2]];
      ThreeByteSequence(s[j], s[j + 1], s[j + 2]);
    }
  }

  /** A byte that is neither the closing quote, a backslash nor a line
      break is read as it is. */
  lemma PlainByteRead(data: Bytes, i: nat, c: byte, exitCh: byte, allowML: bool, res: Bytes)
    requires i < |data| && data[i] != exitCh && data[i] != BACKSLASH && !IsBreak(data[i])
    ensures StringLoop(data, Parser(i, c), exitCh, allowML, res) ==
            StringLoop(data, Parser(i + 1, data[i]), exitCh, allowML, res + [data[i]])
  {
  }

  /** `_escapee` undoes `_meta`: every two-byte escape the encoder writes
      is read as the byte it stands for. */
  lemma MetaRead(data: Bytes, i: nat, c: byte, exitCh: byte, allowML: bool, res: Bytes, b: byte)
    requires Meta(b).Some? && exitCh != BACKSLASH
    requires i + 2 <= |data| && data[i..i + 2] == Meta(b).value
    ensures Escapee(Meta(b).value[1]) == b
    ensures StringLoop(data, Parser(i, c), exitCh, allowML, res) ==
            StringLoop(data, Parser(i + 2, data[i + 1]), exitCh, allowML, res + [b])
  {
    assert data[i] == BACKSLASH && data[i + 1] == Meta(b).value[1];
  }

  /** A control byte without a two-byte escape goes through `_fromUtf8`
      as a one-byte sequence. */
  lemma ControlReplacement(b: byte)
    requires b < SPACE && Meta(b).None?
    ensures Replacement([b]) == [BACKSLASH, 0x75] + Hex4(b as nat)
    ensures ToUtf8(b as nat) == Some([b])
  {
    var m := [b];
    assert Trailers(m, 1, 1, b as nat) == Some(b as nat);
    assert FromUtf8(m) == Some((b as nat, 1));
    assert m[1..] == [];
    assert UnicodeEscapes(m) == [BACKSLASH, 0x75] + Hex4(b as nat) + UnicodeEscapes([]);
  }

  /** An invisible sequence is written as one `\u` escape. */
  lemma InvisibleReplacement(s: Bytes, j: nat, e: nat) returns (u: nat)
    requires j < |s| && InvisibleAt(s, j) > 0 && e == j + InvisibleAt(s, j)
    ensures u < 0x10000 && ToUtf8(u) == Some(s[j..e])
    ensures Replacement(s[j..e]) == [BACKSLASH, 0x75] + Hex4(u)
  {
    var m := s[j..e];
    InvisibleIsOneCodePoint(s, j);
    u := FromUtf8(m).value.0;
    assert m[|m|..] == [];
    assert UnicodeEscapes(m) == [BACKSLASH, 0x75] + Hex4(u) + UnicodeEscapes([]);
  }

  /** What every unit reader is given: the unit at `j` is the bytes of `s`
      up to `e`, and its escape text stands in `data` from `i` up to `m`. */
  predicate UnitAt(data: Bytes, s: Bytes, j: nat, i: nat, m: nat, e: nat)
  {
    j < |s| && e == j + UnitLength(s, j) && m == i + |UnitText(s, j)| && m <= |data| &&
    data[i..m] == UnitText(s, j)
  }

  /** A byte that needs no escape reads back as itself. */
  lemma PlainUnit(data: Bytes, s: Bytes, j: nat, i: nat, c: byte, allowML: bool, res: Bytes, m: nat, e: nat)
    requires UnitAt(data, s, j, i, m, e) && EscapeAt(s, j) == 0
    ensures i < m && StringLoop(data, Parser(i, c), DQUOTE, allowML, res) ==
                     StringLoop(data, Parser(m, data[m - 1]), DQUOTE, allowML, res + s[j..e])
  {
    assert UnitText(s, j) == [s[j]] && e == j + 1 && m == i + 1;
    assert data[i] == data[i..m][0] == s[j];
    assert s[j..j + 1] == [s[j]];
    PlainByteRead(data, i, c, DQUOTE, allowML, res);
  }

  /** A byte with a two-byte escape reads back from it. */
  lemma MetaUnit(data: Bytes, s: Bytes, j: nat, i: nat, c: byte, allowML: bool, res: Bytes, m: nat, e: nat)
    requires UnitAt(data, s, j, i, m, e) && EscapeAt(s, j) > 0 && Meta(s[j]).Some?
    ensures i < m && StringLoop(data, Parser(i, c), DQUOTE, allowML, res) ==
                     StringLoop(data, Parser(m, data[m - 1]), DQUOTE, allowML, res + s[j..e])
  {
    assert EscapeAt(s, j) == 1;
    assert UnitText(s, j) == Meta(s[j]).value && e == j + 1 && m == i + 2;
    assert s[j..j + 1] == [s[j]];
    MetaRead(data, i, c, DQUOTE, allowML, res, s[j]);
  }

  /** A control byte without a two-byte escape reads back from its `\u`
      escape. */
  lemma ControlUnit(data: Bytes, s: Bytes, j: nat, i: nat, c: byte, allowML: bool, res: Bytes, m: nat, e: nat)
    requires UnitAt(data, s, j, i, m, e) && EscapeAt(s, j) == 1 && Meta(s[j]).None?
    ensures i < m && StringLoop(data, Parser(i, c), DQUOTE, allowML, res) ==
                     StringLoop(data, Parser(m, data[m - 1]), DQUOTE, allowML, res + s[j..e])
  {
    assert s[j..j + 1] == [s[j]];
    ControlReplacement(s[j]);
    assert UnitText(s, j) == [BACKSLASH, 0x75] + Hex4(s[j] as nat) && e == j + 1 && m == i + 6;
    HexEscapeRead(data, i, c, DQUOTE, allowML, res, s[j] as nat);
  }

  /** An invisible sequence reads back from its `\u` escape. */
  lemma InvisibleUnit(data: Bytes, s: Bytes, j: nat, i: nat, c: byte, allowML: bool, res: Bytes, m: nat, e: nat)
    requires UnitAt(data, s, j, i, m, e) && EscapeAt(s, j) > 1
    ensures i < m && StringLoop(data, Parser(i, c), DQUOTE, allowML, res) ==
                     StringLoop(data, Parser(m, data[m - 1]), DQUOTE, allowML, res + s[j..e])
  {
    var u := InvisibleText(s, j, e);
    HexEscapeRead(data, i, c, DQUOTE, allowML, res, u);
  }

  /** The escape text of an invisible sequence is the `\u` escape of the
      one code point it encodes. */
  lemma InvisibleText(s: Bytes, j: nat, e: nat) returns (u: nat)
    requires j < |s| && EscapeAt(s, j) > 1 && e == j + UnitLength(s, j)
    ensures u < 0x10000 && UnitText(s, j) == [BACKSLASH, 0x75] + Hex4(u)
    ensures ToUtf8(u) == Some(s[j..e])
  {
    EscapedUnitText(s, j);
    assert EscapeAt(s, j) == InvisibleAt(s, j);
    SameSlice(s, j, e, j + EscapeAt(s, j));
    SameReplacement(s[j..e], s[j..j + EscapeAt(s, j)]);
    u := InvisibleReplacement(s, j, e);
  }

  /** A unit that needs an escape is written as the replacement of its
      bytes. */
  lemma EscapedUnitText(s: Bytes, j: nat)
    requires j < |s| && EscapeAt(s, j) > 0
    ensures UnitLength(s, j) == EscapeAt(s, j)
    ensures UnitText(s, j) == Replacement(s[j..j + EscapeAt(s, j)])
  {
  }

  /** Equal ends give equal slices. */
  lemma SameSlice(s: Bytes, j: nat, e: nat, e': nat)
    requires j <= e == e' <= |s|
    ensures s[j..e] == s[j..e']
  {
  }

  /** Equal matches give equal replacements. */
  lemma SameReplacement(a: Bytes, b: Bytes)
    requires |a| > 0 && a == b
    ensures Replacement(a) == Replacement(b)
  {
  }

  /** The escape text of one unit reads back as the unit. */
  lemma UnitRead(data: Bytes, s: Bytes, j: nat, i: nat, c: byte, allowML: bool, res: Bytes, m: nat, e: nat)
    returns (b: byte, res': Bytes)
    requires UnitAt(data, s, j, i, m, e)
    ensures i < m && b == data[m - 1] && res' == res + s[j..e]
    ensures StringLoop(data, Parser(i, c), DQUOTE, allowML, res) == StringLoop(data, Parser(m, b), DQUOTE, allowML, res')
  {
    if EscapeAt(s, j) == 0 {
      PlainUnit(data, s, j, i, c, allowML, res, m, e);
    } else if Meta(s[j]).Some? {
      MetaUnit(data, s, j, i, c, allowML, res, m, e);
    } else if EscapeAt(s, j) == 1 {
      ControlUnit(data, s, j, i, c, allowML, res, m, e);
    } else {
      InvisibleUnit(data, s, j, i, c, allowML, res, m, e);
    }
    b, res' := data[m - 1], res + s[j..e];
  }

  /** A slice holding two parts holds each at its place. */
  lemma SliceParts(data: Bytes, i: nat, m: nat, z: nat, t: Bytes, rest: Bytes)
    requires i <= z <= |data| && data[i..z] == t + rest && m == i + |t|
    ensures z == m + |rest| && m <= z && data[i..m] == t && data[m..z] == rest
  {
    assert data[i..m] == data[i..z][..|t|];
    assert data[m..z] == data[i..z][|t|..];
  }

  /** Reading `s[j..]` is reading `s[j..k]` and then `s[k..]`. */
  lemma Regroup(res: Bytes, s: Bytes, j: nat, k: nat)
    requires j <= k <= |s|
    ensures res + s[j..] == (res + s[j..k]) + s[k..]
  {
    assert s[j..] == s[j..k] + s[k..];
  }

  /** The escaped text of `s[j..]` stands in `data` from `i` up to `z`. */
  predicate EscapedAt(data: Bytes, s: Bytes, j: nat, i: nat, z: nat) {
    j <= |s| && z == i + |ReplaceFrom(s, j)| && z <= |data| && data[i..z] == ReplaceFrom(s, j)
  }

  /** The escaped text of `s[j..]` starts with the escape text of its
      first unit, the bytes of `s` up to `j'`, written up to `m`, followed
      by the escaped text of the rest. */
  lemma UnitSplit(data: Bytes, s: Bytes, j: nat, i: nat, z: nat) returns (j': nat, m: nat)
    requires j < |s| && EscapedAt(data, s, j, i, z)
    ensures j < j' <= |s| && UnitAt(data, s, j, i, m, j')
    ensures EscapedAt(data, s, j', m, z)
  {
    var t := UnitText(s, j);
    j' := j + UnitLength(s, j);
    m := i + |t|;
    var rest := ReplaceFrom(s, j');
    SliceParts(data, i, m, z, t, rest);
  }

  /** The first unit of the escaped text of `s[j..]` reads back as the
      bytes of `s` it stands for, up to `j'`, leaving the cursor at `m`,
      where the escaped text of the rest starts. */
  lemma UnitStep(data: Bytes, s: Bytes, j: nat, i: nat, c: byte, allowML: bool, res: Bytes, out: Bytes, z: nat)
    returns (j': nat, m: nat, b: byte, res': Bytes)
    requires j < |s| && EscapedAt(data, s, j, i, z)
    requires out == res + s[j..]
    ensures j < j' <= |s|
    ensures EscapedAt(data, s, j', m, z)
    ensures out == res' + s[j'..]
    ensures StringLoop(data, Parser(i, c), DQUOTE, allowML, res) == StringLoop(data, Parser(m, b), DQUOTE, allowML, res')
  {
    j', m := UnitSplit(data, s, j, i, z);
    b, res' := UnitRead(data, s, j, i, c, allowML, res, m, j');
    Regroup(res, s, j, j');
  }

  /** The escaped text of `s[j..]` reads back as `s[j..]`, whatever comes
      after it. */
  lemma {:induction false} ReplaceFromRead(data: Bytes, s: Bytes, j: nat, i: nat, c: byte, c': byte, allowML: bool,
                                           res: Bytes, out: Bytes, z: nat)
    requires EscapedAt(data, s, j, i, z)
    requires out == res + s[j..]
    ensures StringLoop(data, Parser(i, c), DQUOTE, allowML, res) == StringLoop(data, Parser(z, c'), DQUOTE, allowML, out)
    decreases |s| - j
  {
    if j == |s| {
      assert out == res;
      StringLoopAnyCh(data, i, c, c', DQUOTE, allowML, res);
    } else {
      var j', m, b, res' := UnitStep(data, s, j, i, c, allowML, res, out, z);
      ReplaceFromRead(data, s, j', m, b, c', allowML, res', out, z);
    }
  }

  /** A double-quoted string with `_quoteReplace` escapes reads back as
      the original text: the round trip of the escaped string form. */
  lemma QuotedRoundTrip(pre: Bytes, s: Bytes, tail: Bytes, allowML: bool)
    ensures var data := pre + [DQUOTE] + QuoteReplace(s) + [DQUOTE] + tail;
      var close := |pre| + 1 + |QuoteReplace(s)|;
      ReadString(data, Parser(|pre| + 1, DQUOTE), allowML) ==
      Ok((s, Advance(data, Parser(close + 1, DQUOTE))))
  {
    var data := pre + [DQUOTE] + QuoteReplace(s) + [DQUOTE] + tail;
    var i := |pre| + 1;
    var z := QuotedLayout(pre, s, tail, data);
    WholeText(s);
    ReplaceFromRead(data, s, 0, i, DQUOTE, DQUOTE, allowML, [], s, z);
    QuotedClose(data, z, allowML, s);
  }

  /** Where the escaped text and the closing quote stand. */
  lemma QuotedLayout(pre: Bytes, s: Bytes, tail: Bytes, data: Bytes) returns (z: nat)
    requires data == pre + [DQUOTE] + QuoteReplace(s) + [DQUOTE] + tail
    ensures z == |pre| + 1 + |QuoteReplace(s)|
    ensures EscapedAt(data, s, 0, |pre| + 1, z)
    ensures z < |data| && data[z] == DQUOTE
  {
    var r := QuoteReplace(s);
    var i := |pre| + 1;
    z := i + |r|;
    assert data[i..z] == r;
  }

  /** The text is the whole of itself after nothing. */
  lemma WholeText(s: Bytes)
    ensures s == [] + s[0..]
  {
  }

  /** The closing quote ends the string. */
  lemma QuotedClose(data: Bytes, z: nat, allowML: bool, res: Bytes)
    requires z < |data| && data[z] == DQUOTE
    ensures StringLoop(data, Parser(z, DQUOTE), DQUOTE, allowML, res) == Ok((res, Advance(data, Parser(z + 1, DQUOTE))))
  {
  }

  /** `_quoteReplace` from `i` leaves a text without `needsEscape`
      matches as it is. */
  lemma {:induction false} ReplaceFromClean(s: Bytes, i: nat)
    requires i <= |s|
    requires forall k | i <= k < |s| :: EscapeAt(s, k) == 0
    ensures ReplaceFrom(s, i) == s[i..]
    decreases |s| - i
  {
    if i < |s| {
      ReplaceFromClean(s, i + 1);
      assert s[i..] == [s[i]] + s[i + 1..];
    }
  }

  /** A text that `needsEscape` does not match is its own escaped form. */
  lemma ReplaceClean(s: Bytes)
    requires !NeedsEscape(s)
    ensures QuoteReplace(s) == s
  {
    ReplaceFromClean(s, 0);
  }

  /** The plain quoted form `"…"`, which the writer uses when nothing
      needs escaping, reads back as the original text. */
  lemma PlainQuotedRoundTrip(pre: Bytes, s: Bytes, tail: Bytes, allowML: bool)
    requires !NeedsEscape(s)
    ensures var data := pre + [DQUOTE] + s + [DQUOTE] + tail;
      ReadString(data, Parser(|pre| + 1, DQUOTE), allowML) ==
      Ok((s, Advance(data, Parser(|pre| + |s| + 2, DQUOTE))))
  {
    ReplaceClean(s);
    QuotedRoundTrip(pre, s, tail, allowML);
  }

  // ---------------------------------------------------------------------
  // Key names
  // ---------------------------------------------------------------------

  /** A name without white space or punctuators, followed by a colon, is
      read by the key loop up to the colon, which stays unread. */
  lemma {:induction false} BareKeyRead(data: Bytes, a: nat, name: Bytes, k: nat)
    requires a + |name| < |data| && data[a..a + |name|] == name && data[a + |name|] == COLON
    requires forall j | 0 <= j < |name| :: SPACE < name[j] && !IsPunctuator(name[j])
    requires 0 < |name| && k <= |name|
    ensures KeyLoop(data, Parser(a + k + 1, data[a + k]), name[..k], None) == Ok((name, Parser(a + |name| + 1, COLON)))
    decreases |name| - k
  {
    if k < |name| {
      assert data[a + k] == name[k];
      assert name[..k] + [name[k]] == name[..k + 1];
      BareKeyRead(data, a, name, k + 1);
    } else {
      assert name[..k] == name;
    }
  }

  /** What the corrected `_quoteName` leaves bare holds no byte the key
      loop stops at. */
  lemma BareNameBytes(name: Bytes)
    requires !NeedsEscapeName(name, false)
    ensures forall j | 0 <= j < |name| :: SPACE < name[j] && !IsPunctuator(name[j])
    ensures |name| > 0 ==> name[0] != DQUOTE && name[0] != SQUOTE
  {
    forall j | 0 <= j < |name|
      ensures SPACE < name[j] && !IsPunctuator(name[j])
    {
      assert !NameBreakAt(name, j, false);
    }
    if |name| > 0 {
      assert !NameBreakAt(name, 0, false);
    }
  }

  /** The corrected `_quoteName` output, followed by the colon, reads back
      through `_readKeyname` as the name, in all three forms: `""`, a
      quoted name and a bare name. */
  lemma KeyNameRoundTrip(opt: Options, pre: Bytes, name: Bytes, tail: Bytes)
    ensures var data := pre + QuoteName(opt, name, false) + [COLON] + tail;
      var r := ReadKeyname(data, Parser(|pre| + 1, data[|pre|]));
      r.Ok? && r.value.0 == name
  {
    if |name| == 0 || opt.quoteKeys || NeedsEscapeName(name, false) {
      QuotedKeyRead(opt, pre, name, tail);
    } else {
      BareKeyNameRead(opt, pre, name, tail);
    }
  }

  /** A quoted name reads back through the string reader. */
  lemma QuotedKeyRead(opt: Options, pre: Bytes, name: Bytes, tail: Bytes)
    requires |name| == 0 || opt.quoteKeys || NeedsEscapeName(name, false)
    ensures var data := pre + QuoteName(opt, name, false) + [COLON] + tail;
      var r := ReadKeyname(data, Parser(|pre| + 1, data[|pre|]));
      r.Ok? && r.value.0 == name
  {
    var body, escaped := QuotedName(opt, name);
    QuotedLayoutAround(pre, body, [COLON], tail);
    if !escaped {
      PlainQuotedRoundTrip(pre, name, [COLON] + tail, false);
    } else {
      QuotedRoundTrip(pre, name, [COLON] + tail, false);
    }
  }

  /** The text between the quotes of a quoted name: the name itself when
      nothing in it needs an escape, its escaped form otherwise. */
  lemma QuotedName(opt: Options, name: Bytes) returns (body: Bytes, escaped: bool)
    requires |name| == 0 || opt.quoteKeys || NeedsEscapeName(name, false)
    ensures QuoteName(opt, name, false) == [DQUOTE] + body + [DQUOTE]
    ensures !escaped ==> body == name && !NeedsEscape(name)
    ensures escaped ==> body == QuoteReplace(name)
    ensures escaped <==> |name| > 0 && NeedsEscape(name)
  {
    if |name| == 0 {
      body, escaped := [], false;
      assert [DQUOTE] + body + [DQUOTE] == [DQUOTE, DQUOTE];
    } else {
      escaped := NeedsEscape(name);
      body := if escaped then QuoteReplace(name) else name;
    }
  }

  /** Regrouping of a quoted text between what comes before and after. */
  lemma QuotedLayoutAround(pre: Bytes, body: Bytes, post: Bytes, tail: Bytes)
    ensures pre + ([DQUOTE] + body + [DQUOTE]) + post + tail == pre + [DQUOTE] + body + [DQUOTE] + (post + tail)
    ensures (pre + ([DQUOTE] + body + [DQUOTE]) + post + tail)[|pre|] == DQUOTE
  {
  }

  /** A bare name reads back through the key loop. */
  lemma BareKeyNameRead(opt: Options, pre: Bytes, name: Bytes, tail: Bytes)
    requires |name| > 0 && !opt.quoteKeys && !NeedsEscapeName(name, false)
    ensures var data := pre + QuoteName(opt, name, false) + [COLON] + tail;
      var r := ReadKeyname(data, Parser(|pre| + 1, data[|pre|]));
      r.Ok? && r.value.0 == name
  {
    assert QuoteName(opt, name, false) == name;
    var data := pre + name + [COLON] + tail;
    BareNameBytes(name);
    assert data[|pre|..|pre| + |name|] == name;
    BareKeyRead(data, |pre|, name, 0);
  }

  /** The key `a` followed by the control byte 0x01, which `_quoteName`
      as written leaves bare. */
  const ControlKey: Bytes := [0x61, 0x01]

  /** As written, `_quoteName` leaves a name with a control byte bare, and
      `_readKeyname` reads it back without that byte, since any byte up
      to a blank counts as white space in a key. */
  lemma ControlKeyAsWritten()
    ensures QuoteName(DefaultOptions, ControlKey, true) == ControlKey
    ensures ReadKeyname(ControlKey + [COLON], Parser(1, 0x61)) == Ok(([0x61], Parser(3, COLON)))
  {
    assert !NameBreakAt(ControlKey, 0, true);
    assert !NameBreakAt(ControlKey, 1, true);
    ControlKeyRead();
  }

  /** The key loop over `a`, 0x01 and the colon. */
  lemma ControlKeyRead()
    ensures ReadKeyname(ControlKey + [COLON], Parser(1, 0x61)) == Ok(([0x61], Parser(3, COLON)))
  {
    var data := ControlKey + [COLON];
    assert data == [0x61, 0x01, COLON];
    assert KeyLoop(data, Parser(3, COLON), [0x61], Some(1)) == Ok(([0x61], Parser(3, COLON)));
    assert KeyLoop(data, Parser(2, 0x01), [0x61], None) == KeyLoop(data, Parser(3, COLON), [0x61], Some(1));
    assert KeyLoop(data, Parser(1, 0x61), [], None) == KeyLoop(data, Parser(2, 0x01), [] + [0x61], None);
    assert [] + [0x61 as byte] == [0x61 as byte];
  }

  /** Corrected, `_quoteName` quotes the same name; `KeyNameRoundTrip`
      then reads it back unchanged. */
  lemma ControlKeyCorrected()
    ensures QuoteName(DefaultOptions, ControlKey, false) == [DQUOTE] + QuoteReplace(ControlKey) + [DQUOTE]
  {
    ControlKeyEscaped();
    var body, escaped := QuotedName(DefaultOptions, ControlKey);
  }

  /** The corrected name test matches the control byte, and so does the
      escape test. */
  lemma ControlKeyEscaped()
    ensures NeedsEscapeName(ControlKey, false) && NeedsEscape(ControlKey)
  {
    assert NameBreakAt(ControlKey, 1, false);
    assert EscapeAt(ControlKey, 1) == 1;
  }
}

=== FILE: values.dfy ===
/** The value tree of src/hjson_value.cpp. A `Value` is a type-tagged
    payload plus the three comment strings every value carries. The C++
    shares payloads through `shared_ptr` and edits them in place; here every
    operation returns the new value, and the `MapProxy` returned by key
    access becomes an explicit probe / assign / commit sequence. */
module Values {
  import opened Bytes
  import opened Outcome
  import opened NumberLexer
  import opened KeyOrder

  /** The `Value::Type` enumeration. */
  datatype Type = UNDEFINED | HJSON_NULL | BOOL | DOUBLE | STRING | VECTOR | MAP

  datatype Payload =
    | Undefined
    | Null
    | Bool(b: bool)
    | Double(n: Number)
    | String(s: Bytes)
    | Vector(items: seq<Value>)
    | Map(entries: map<Bytes, Value>)

  /** A value with its comment before the key, after the value on the same
      line, and inside the brackets of a container. */
  datatype Value = Value(payload: Payload, pre: Bytes, post: Bytes, inside: Bytes)

  /** A freshly constructed value of the given payload: no comments. */
  function Fresh(p: Payload): Value {
    Value(p, [], [], [])
  }

  /** `Value()`: a fresh UNDEFINED value. */
  const Nothing: Value := Fresh(Undefined)

  function TypeOf(v: Value): Type {
    match v.payload
    case Undefined => UNDEFINED
    case Null => HJSON_NULL
    case Bool(_) => BOOL
    case Double(_) => DOUBLE
    case String(_) => STRING
    case Vector(_) => VECTOR
    case Map(_) => MAP
  }

  predicate Defined(v: Value) {
    !v.payload.Undefined?
  }

  /** `empty()`: UNDEFINED and null are empty, and so are strings, vectors
      and maps without content. */
  predicate Empty(v: Value) {
    match v.payload
    case Undefined => true
    case Null => true
    case String(s) => |s| == 0
    case Vector(xs) => |xs| == 0
    case Map(m) => |m| == 0
    case _ => false
  }

  /** `size()`: bytes of a string, elements of a vector or map, 1 for a bool
      or a double, 0 otherwise. */
  function Size(v: Value): nat {
    match v.payload
    case String(s) => |s|
    case Vector(xs) => |xs|
    case Map(m) => |m|
    case Bool(_) => 1
    case Double(_) => 1
    case _ => 0
  }

  /** `empty()` and `size() == 0` agree on every value. */
  lemma EmptyIffSizeZero(v: Value)
    ensures Empty(v) <==> Size(v) == 0
  {
  }

  // ---------------------------------------------------------------------
  // Key access
  // ---------------------------------------------------------------------

  /** The entry for `key`, or a fresh UNDEFINED value when there is none;
      only meaningful on a MAP. */
  function Child(v: Value, key: Bytes): Value {
    if v.payload.Map? && key in v.payload.entries then v.payload.entries[key] else Nothing
  }

  /** The const `operator[](key)`: reads without changing anything. An
      UNDEFINED receiver or a missing key gives UNDEFINED; any receiver
      other than UNDEFINED or MAP is a type mismatch. */
  function Get(v: Value, key: Bytes): (r: Result<Value>)
    ensures r.Fail? <==> !(v.payload.Undefined? || v.payload.Map?)
    ensures r.Fail? ==> r.error == TypeMismatch
    ensures r.Ok? && r.value.payload.Undefined? ==>
              v.payload.Undefined? || key !in v.payload.entries || v.payload.entries[key].payload.Undefined?
    ensures v.payload.Map? && key in v.payload.entries ==> r == Ok(v.payload.entries[key])
    ensures v.payload.Undefined? || (v.payload.Map? && key !in v.payload.entries) ==> r == Ok(Nothing)
  {
    match v.payload
    case Undefined => Ok(Nothing)
    case Map(m) => Ok(Child(v, key))
    case _ => Fail(TypeMismatch)
  }

  /** `get(keyChain)`: an empty chain gives the value itself; otherwise the
      chain is followed through MAPs, and the first value on the way that is
      not a MAP ends the walk with UNDEFINED. It never fails. */
  function GetChain(v: Value, chain: seq<Bytes>): (r: Value)
    ensures chain == [] ==> r == v
    ensures chain != [] && !v.payload.Map? ==> r == Nothing
    decreases |chain|
  {
    if chain == [] then v
    else if !v.payload.Map? then Nothing
    else if |chain| == 1 then Child(v, chain[0])
    else GetChain(Child(v, chain[0]), chain[1..])
  }

  /** The first half of the non-const `operator[](key)`: an UNDEFINED
      receiver is remade as an empty MAP (its comments are lost with it),
      any other non-MAP is a type mismatch; the proxy then holds the
      existing entry or a fresh UNDEFINED one. The result is the receiver
      after the call and the proxy's value. */
  function Probe(v: Value, key: Bytes): (r: Result<(Value, Value)>)
    ensures r.Fail? <==> !(v.payload.Undefined? || v.payload.Map?)
    ensures r.Fail? ==> r.error == TypeMismatch
    ensures r.Ok? ==> r.value.0.payload.Map? && r.value.1 == Child(r.value.0, key)
    ensures r.Ok? && v.payload.Map? ==> r.value.0 == v
    ensures r.Ok? && v.payload.Undefined? ==> r.value.0 == Fresh(Map(map[]))
  {
    match v.payload
    case Undefined => Ok((Fresh(Map(map[])), Nothing))
    case Map(m) => Ok((v, Child(v, key)))
    case _ => Fail(TypeMismatch)
  }

  /** `MapProxy::operator=`: the wasAssigned value replaces the proxy's value,
      each of its comment fields that is empty taking over the text of the
      value it replaces. */
  function Assign(prev: Value, x: Value): (r: Value)
    ensures r.payload == x.payload
    ensures r.pre == (if x.pre == [] then prev.pre else x.pre)
    ensures r.post == (if x.post == [] then prev.post else x.post)
    ensures r.inside == (if x.inside == [] then prev.inside else x.inside)
  {
    Value(x.payload,
          if x.pre == [] then prev.pre else x.pre,
          if x.post == [] then prev.post else x.post,
          if x.inside == [] then prev.inside else x.inside)
  }

  /** `MapProxy::~MapProxy`: the proxy's value is stored under `key` when it
      was wasAssigned or is not empty; otherwise the parent is left as it is. */
  function Commit(parent: Value, key: Bytes, child: Value, wasAssigned: bool): (r: Value)
    requires parent.payload.Map?
    ensures r.payload.Map?
    ensures key in r.payload.entries <==> key in parent.payload.entries || wasAssigned || !Empty(child)
    ensures wasAssigned || !Empty(child) ==> r.payload.entries[key] == child
    ensures forall k | k != key :: (k in r.payload.entries <==> k in parent.payload.entries)
    ensures forall k | k != key && k in parent.payload.entries ::
              r.payload.entries[k] == parent.payload.entries[k]
    ensures (r.pre, r.post, r.inside) == (parent.pre, parent.post, parent.inside)
  {
    if wasAssigned || !Empty(child) then
      parent.(payload := Map(parent.payload.entries[key := child]))
    else parent
  }

  /** `val[key] = x`: probe, assign, commit. */
  function SetKey(v: Value, key: Bytes, x: Value): (r: Result<Value>)
    ensures r.Fail? <==> !(v.payload.Undefined? || v.payload.Map?)
  {
    var p :- Probe(v, key);
    Ok(Commit(p.0, key, Assign(p.1, x), true))
  }

  /** `val[key]` read through the non-const operator, the proxy being
      dropped without assignment: the receiver after the call, and the value
      read. */
  function ReadKey(v: Value, key: Bytes): (r: Result<(Value, Value)>)
    ensures r.Fail? <==> !(v.payload.Undefined? || v.payload.Map?)
  {
    var p :- Probe(v, key);
    Ok((Commit(p.0, key, p.1, false), p.1))
  }

  /** Setting a key stores the wasAssigned value, with the comments it
      inherits from the entry it replaces, and leaves every other entry
      alone; a MAP keeps its own comments, an UNDEFINED receiver becomes a
      MAP with none. Assigning even an UNDEFINED value creates the key. */
  lemma SetKeyStores(v: Value, key: Bytes, x: Value)
    requires v.payload.Undefined? || v.payload.Map?
    ensures var r := SetKey(v, key, x);
            r.Ok? && r.value.payload.Map? &&
            r.value.payload.entries.Keys == (if v.payload.Map? then v.payload.entries.Keys else {}) + {key} &&
            r.value.payload.entries[key] == Assign(Child(v, key), x) &&
            (forall k | k != key && k in r.value.payload.entries ::
               r.value.payload.entries[k] == v.payload.entries[k]) &&
            (if v.payload.Map? then (r.value.pre, r.value.post, r.value.inside) == (v.pre, v.post, v.inside)
             else (r.value.pre, r.value.post, r.value.inside) == ([], [], []))
  {
  }

  /** What is set can be read back: the const lookup returns the wasAssigned
      value with its inherited comments. */
  lemma SetThenGet(v: Value, key: Bytes, x: Value)
    requires v.payload.Undefined? || v.payload.Map?
    ensures SetKey(v, key, x).Ok?
    ensures Get(SetKey(v, key, x).value, key) == Ok(Assign(Child(v, key), x))
  {
    SetKeyStores(v, key, x);
  }

  /** A read through the non-const operator never adds a key: it turns an
      UNDEFINED receiver into an empty MAP (size 0) and otherwise leaves the
      receiver as it was. */
  lemma ReadKeyAddsNothing(v: Value, key: Bytes)
    requires v.payload.Undefined? || v.payload.Map?
    ensures var r := ReadKey(v, key);
            r.Ok? && r.value.0.payload.Map? &&
            r.value.1 == Child(v, key) &&
            (v.payload.Map? ==> r.value.0 == v) &&
            (v.payload.Undefined? ==> r.value.0 == Fresh(Map(map[])) && Size(r.value.0) == 0)
  {
    var p := Probe(v, key).value;
    if v.payload.Map? && key in v.payload.entries && !Empty(p.1) {
      assert v.payload.entries[key := p.1] == v.payload.entries;
    }
  }

  // ---------------------------------------------------------------------
  // Key chains
  // ---------------------------------------------------------------------

  /** A MAP as it is, anything else remade as an empty MAP (comments lost):
      what `set` does to each value on its path. */
  function AsMap(v: Value): (r: Value)
    ensures r.payload.Map?
    ensures v.payload.Map? ==> r == v
    ensures !v.payload.Map? ==> r == Fresh(Map(map[]))
  {
    if v.payload.Map? then v else Fresh(Map(map[]))
  }

  /** `set(val, keyChain)`: an empty chain replaces the whole value;
      otherwise each value on the path that is not a MAP is remade as an
      empty MAP, and the last key receives `x` (inheriting comments as any
      proxy assignment does). The intermediate proxies hold non-empty MAPs
      when they are dropped, so each of them is stored. */
  function SetChain(v: Value, x: Value, chain: seq<Bytes>): (r: Value)
    ensures chain == [] ==> r == x
    ensures chain != [] ==> r.payload.Map?
    decreases |chain|
  {
    if chain == [] then x
    else
      var parent := AsMap(v);
      var prev := Child(parent, chain[0]);
      var child := if |chain| == 1 then Assign(prev, x) else SetChain(prev, x, chain[1..]);
      parent.(payload := Map(parent.payload.entries[chain[0] := child]))
  }

  /** Reading back a chain that was just set gives the wasAssigned value, its
      empty comment fields filled from what the chain led to before. */
  lemma {:induction false} SetChainThenGet(v: Value, x: Value, chain: seq<Bytes>)
    requires chain != []
    ensures GetChain(SetChain(v, x, chain), chain) == Assign(GetChain(v, chain), x)
    decreases |chain|
  {
    var parent := AsMap(v);
    var prev := Child(parent, chain[0]);
    if |chain| > 1 {
      SetChainThenGet(prev, x, chain[1..]);
      if !v.payload.Map? {
        assert prev == Nothing;
        assert GetChain(Nothing, chain[1..]) == Nothing;
      }
    }
  }

  /** `set` changes only the first key of the chain at the top level: every
      other entry of a MAP receiver is kept, and so are its comments. */
  lemma SetChainKeepsSiblings(v: Value, x: Value, chain: seq<Bytes>, k: Bytes)
    requires chain != [] && v.payload.Map? && k != chain[0]
    ensures var r := SetChain(v, x, chain);
            (k in r.payload.entries <==> k in v.payload.entries) &&
            (k in v.payload.entries ==> r.payload.entries[k] == v.payload.entries[k]) &&
            (r.pre, r.post, r.inside) == (v.pre, v.post, v.inside)
  {
  }

  // ---------------------------------------------------------------------
  // Vectors
  // ---------------------------------------------------------------------

  /** Index access, const or not: UNDEFINED gives an index error, any other
      non-VECTOR a type mismatch, and the index must lie within the
      vector. */
  function At(v: Value, i: int): (r: Result<Value>)
    ensures r.Ok? <==> v.payload.Vector? && 0 <= i < |v.payload.items|
    ensures r.Ok? ==> r.value == v.payload.items[i]
    ensures r.Fail? ==> r.error == (if v.payload.Vector? || v.payload.Undefined? then IndexOutOfBounds else TypeMismatch)
  {
    match v.payload
    case Undefined => Fail(IndexOutOfBounds)
    case Vector(xs) => if 0 <= i < |xs| then Ok(xs[i]) else Fail(IndexOutOfBounds)
    case _ => Fail(TypeMismatch)
  }

  /** `val[i] = x` through the reference the non-const index operator
      returns: a plain value assignment, comments included. */
  function SetAt(v: Value, i: int, x: Value): (r: Result<Value>)
    ensures r.Ok? <==> At(v, i).Ok?
    ensures r.Fail? ==> r.error == At(v, i).error
    ensures r.Ok? ==> r.value.payload.Vector? && |r.value.payload.items| == |v.payload.items| &&
                      r.value.payload.items[i] == x &&
                      (forall j | 0 <= j < |v.payload.items| && j != i ::
                         r.value.payload.items[j] == v.payload.items[j]) &&
                      (r.value.pre, r.value.post, r.value.inside) == (v.pre, v.post, v.inside)
  {
    var _ :- At(v, i);
    Ok(v.(payload := Vector(v.payload.items[i := x])))
  }

  /** `push_back`: an UNDEFINED receiver becomes an empty VECTOR (comments
      lost) first; any other non-VECTOR is a type mismatch. The vector grows
      by one, `x` last, the earlier elements unchanged. */
  function PushBack(v: Value, x: Value): (r: Result<Value>)
    ensures r.Fail? <==> !(v.payload.Undefined? || v.payload.Vector?)
    ensures r.Fail? ==> r.error == TypeMismatch
    ensures r.Ok? ==> r.value.payload.Vector? &&
                      Size(r.value) == Size(v) + 1 &&
                      r.value.payload.items[Size(v)] == x &&
                      (forall j | 0 <= j < Size(v) :: r.value.payload.items[j] == v.payload.items[j])
    ensures r.Ok? && v.payload.Undefined? ==> (r.value.pre, r.value.post, r.value.inside) == ([], [], [])
    ensures r.Ok? && v.payload.Vector? ==> (r.value.pre, r.value.post, r.value.inside) == (v.pre, v.post, v.inside)
  {
    match v.payload
    case Undefined => Ok(Fresh(Vector([x])))
    case Vector(xs) => Ok(v.(payload := Vector(xs + [x])))
    case _ => Fail(TypeMismatch)
  }

  /** `erase(index)`: a type other than UNDEFINED or VECTOR is a type
      mismatch; the index must lie within the size, which an UNDEFINED value
      never allows. Only element `i` is removed. */
  function EraseAt(v: Value, i: int): (r: Result<Value>)
    ensures r.Ok? <==> v.payload.Vector? && 0 <= i < |v.payload.items|
    ensures r.Fail? ==> r.error == (if v.payload.Vector? || v.payload.Undefined? then IndexOutOfBounds else TypeMismatch)
    ensures r.Ok? ==> r.value.payload.Vector? && Size(r.value) == Size(v) - 1 &&
                      (forall j | 0 <= j < i :: r.value.payload.items[j] == v.payload.items[j]) &&
                      (forall j | i <= j < Size(r.value) :: r.value.payload.items[j] == v.payload.items[j + 1])
  {
    if !(v.payload.Undefined? || v.payload.Vector?) then Fail(TypeMismatch)
    else if i < 0 || i >= Size(v) then Fail(IndexOutOfBounds)
    else Ok(v.(payload := Vector(v.payload.items[..i] + v.payload.items[i + 1..])))
  }

  /** `erase(key)`: 0 on an UNDEFINED value, a type mismatch on any other
      non-MAP; otherwise the number of entries removed, 1 exactly when the
      key was there. Only that key goes. */
  function EraseKey(v: Value, key: Bytes): (r: Result<(Value, nat)>)
    ensures r.Fail? <==> !(v.payload.Undefined? || v.payload.Map?)
    ensures r.Fail? ==> r.error == TypeMismatch
    ensures r.Ok? && v.payload.Undefined? ==> r.value == (v, 0)
    ensures r.Ok? && v.payload.Map? ==>
              r.value.0.payload.Map? &&
              r.value.0.payload.entries.Keys == v.payload.entries.Keys - {key} &&
              (forall k | k in r.value.0.payload.entries :: r.value.0.payload.entries[k] == v.payload.entries[k]) &&
              r.value.1 == (if key in v.payload.entries then 1 else 0) &&
              Size(r.value.0) == Size(v) - r.value.1
  {
    match v.payload
    case Undefined => Ok((v, 0))
    case Map(m) =>
      var removed := v.(payload := Map(m - {key}));
      assert |m - {key}| == |m| - (if key in m then 1 else 0) by {
        if key in m {
          assert m.Keys - {key} + {key} == m.Keys;
        } else {
          assert m - {key} == m;
        }
      }
      Ok((removed, if key in m then 1 else 0))
    case _ => Fail(TypeMismatch)
  }

  /** Pushing then erasing the new last element gives the vector back. */
  lemma PushBackEraseAt(v: Value, x: Value)
    requires v.payload.Vector?
    ensures PushBack(v, x).Ok?
    ensures EraseAt(PushBack(v, x).value, Size(v)) == Ok(v)
  {
    var xs := v.payload.items;
    assert (xs + [x])[..|xs|] + (xs + [x])[|xs| + 1..] == xs;
  }

  /** Setting a key and erasing it again leaves a MAP as it was (and the
      erase reports one removal). */
  lemma SetKeyEraseKey(v: Value, key: Bytes, x: Value)
    requires v.payload.Map? && key !in v.payload.entries
    ensures SetKey(v, key, x).Ok?
    ensures EraseKey(SetKey(v, key, x).value, key) == Ok((v, 1))
  {
    var m := v.payload.entries;
    assert m[key := Assign(Nothing, x)] - {key} == m;
  }
}
